=== FILE: README.md ===
# Travel demo: the localStorage data layer in Dafny

The travel demo is a set of browser pages that keep all of their data in
`localStorage` as JSON text. This project models the logic behind that data:

- the admin dashboard's booking ledger (`js/admin-dashboard.js`), covering:
  - identifier generation, the normaliser that maps legacy field names onto
    canonical ones, and the upsert behind `saveBookingToAdmin`;
  - the cross-window `message` listener and the audit log;
  - approve, refund and delete;
  - the KPI bar, the bookings filter and the two CSV exports;
  - the promotions, documents and agents panels;
- the client-side booking API (`js/booking-api.js`), which either delegates to
  the dashboard or performs the same upsert itself;
- the customer and booking collections of `js/customer-booking.js`, each kept
  both in memory and in storage;
- the sign-in page (`js/auth.js`), covering the email and password rules,
  sign-up, log-in, password reset and the hash-selected form;
- the admin page (`js/admin.js`), covering the fixed credentials, the user
  search, user deletion and the users CSV;
- the customer portal (`js/main.js`), covering the password change, the
  activity icons, the saved contacts, the tour booking engine and the
  active-bookings count.

## How the model is built

A stored JavaScript value is a `JsValues.Value`: `undefined`, `null`, a
boolean, a number or a string. An object is a `Record`, a map from field names
to values. Reading a missing field gives `undefined`. Every property the
scripts name has its own `Field` constructor; `Other(name)` is only for the
remaining names, so one property always has one key.

A write to storage followed by a read back is `JsValues.Persist`:
`JSON.stringify` drops `undefined` properties. Everything read from storage is
therefore "clean", meaning it holds no `undefined`. The functions that read a
list, change it and store it again take `AllClean` as a precondition, because
that is what `JSON.parse` always hands them.

`btoa`/`atob` are modelled in `Base64`, and `String.prototype.trim`,
`toLowerCase`, `includes`, `Number` and `parseFloat`/`parseInt` in `Text`.
The CSV quoting the exports share is in `Csv`, with a reader that follows
section 2 of RFC 4180: a doubled quote inside a field is one quote, and a
single one closes the field. Every operation is a pure function from
the old stored state to the new one.

The clock (`Date.now()`, `new Date().toISOString()`) and `Math.random()` are
parameters: `stamp`, `now`, `token`, `dupToken`. So is whether
`window.saveBookingToAdmin` is loaded.

## Model

| member | source | states |
|---|---|---|
| BookingLedger.GenerateBookingId | js/admin-dashboard.js:27-31 | the identifier carries the last five digits of the clock after `BK-`, and its length is 9 plus the random fraction's length capped at 5 |
| BookingLedger.ResolveId | js/admin-dashboard.js:35-37 | the identifier is always truthy: `bookingId` if truthy, else `bookingID` if truthy, else a freshly generated token |
| BookingLedger.NormalizeBooking | js/admin-dashboard.js:33-48 | the result has exactly the input's fields plus the canonical ones, fields outside the canonical set are copied through, and the key is the resolved identifier |
| BookingLedger.NormalizeAliases | js/admin-dashboard.js:39-42 | `tour` is `tour || tourName || ''`, `customerName` is `customerName || name || ''`, and `email` and `date` default to `''` |
| BookingLedger.NormalizeQuantities | js/admin-dashboard.js:43-44 | `people` and `amount` fall back to `guests` and `price` only when null or missing, so a 0 is kept |
| BookingLedger.NormalizeDefaults | js/admin-dashboard.js:45-46 | `payment` is never empty and keeps a truthy input, and `approved` is the boolean of the input's truthiness |
| BookingLedger.NormalizeLegacyExample | js/admin-dashboard.js:33-48 | a record written with `tourName`, `name`, `guests` and `price` normalises to those values under `tour`, `customerName`, `people` and `amount`, with payment `Unpaid`, not approved, and the generated identifier |
| BookingLedger.NormalizeKeepsZeroPeople | js/admin-dashboard.js:43 | a booking for 0 people keeps `people` 0 after normalisation |
| BookingLedger.Upsert | js/admin-dashboard.js:51-64 | no match appends the normalised booking; a match with overwrite replaces that entry with the stored one overlaid by the booking; a match without overwrite appends a copy under the second identifier; the reported index holds the reported identifier |
| BookingLedger.UpsertKeepsKeysUnique | js/admin-dashboard.js:51-64 | if stored identifiers are unique and the second token is unused, they stay unique after the upsert |
| BookingLedger.OverwriteMerges | js/admin-dashboard.js:53-56 | an overwrite keeps the stored entry's other fields and takes the booking's for every field it has |
| BookingLedger.OverwriteErasesPeople | js/admin-dashboard.js:43-56 | a booking without `people`/`guests` overwrites a stored head count with `undefined`, which then disappears from storage |
| BookingLedger.LogAction | js/admin-dashboard.js:97-106 | the log grows by exactly one entry at its end, with the given kind, actor `admin`, the time stamp, and the details as stored |
| BookingLedger.StoreBooking | js/admin-dashboard.js:50-66 | the writes of a save: stores the upserted list (clean again), appends one `create_booking` audit entry naming the identifier and the source, and yields that identifier, which keys the saved entry |
| BookingLedger.SaveDetails | js/admin-dashboard.js:66 | the audit details hold exactly `bookingId` and `source`, the source defaulting to `api`, and survive storage unchanged |
| BookingLedger.SaveNewAppends | js/admin-dashboard.js:50-75 | with an identifier not yet stored, the saved list is the old list plus the stored normalised booking |
| BookingLedger.SaveDuplicateReidentifies | js/admin-dashboard.js:57-75 | with a taken identifier and overwrite off, the old list is kept as a prefix and the new booking gets the second identifier |
| BookingLedger.ApproveBooking | js/admin-dashboard.js:382-393 | the bookings with that identifier get `approved: true` and an `approvedAt` stamp, all others are unchanged, the count is kept, and one `approve_booking` entry is logged |
| BookingLedger.RefundBooking | js/admin-dashboard.js:402-413 | the bookings with that identifier get `status: refunded` and a `refundedAt` stamp, all others are unchanged, and one `refund_booking` entry is logged |
| BookingLedger.DeleteBooking | js/admin-dashboard.js:395-400 | exactly the bookings whose identifier differs remain, each as many times as before, and one `delete_booking` entry is logged |
| BookingLedger.DeleteKeepsOrder | js/admin-dashboard.js:396 | the remaining bookings keep their relative order |
| BookingLedger.DeleteAbsentIsNoOp | js/admin-dashboard.js:396 | deleting an identifier that is not stored leaves the bookings as they were |
| BookingLedger.ApproveAbsentIsNoOp | js/admin-dashboard.js:383-387 | approving an identifier that is not stored leaves the bookings as they were |
| Dashboard.SaveBookingToAdmin | js/admin-dashboard.js:50-77 | the writes always happen; the identifier, which keys a stored entry, is returned exactly when no stored booking makes the active text search throw during the redraw |
| Dashboard.SaveReturnsWithoutSearch | js/admin-dashboard.js:68-76 | with no search text the redraw cannot throw, so the save returns its identifier |
| Dashboard.NumericNameReturnsNothing | js/admin-dashboard.js:50-77 | a new booking whose customer name is a number, saved while a search is typed in, is stored and logged but nothing is returned |
| Dashboard.HandleMessage | js/admin-dashboard.js:82-94 | a message without data, from another origin, not of type `save-booking` or without a payload leaves everything unchanged with no reply; an accepted one is stored without overwrite under source `postMessage`, and a `save-booking:ok` reply carrying the identifier goes to the sender exactly when there is one and the save did not throw |
| Dashboard.CrossOriginIgnored | js/admin-dashboard.js:85 | any message from a foreign origin is ignored |
| Dashboard.AcceptedRequestAudited | js/admin-dashboard.js:87-89 | an accepted request adds exactly one `create_booking` audit entry whose source is `postMessage`, answered or not |
| BookingApi.SaveBookingClientSide | js/booking-api.js:38-59 | with the dashboard loaded it is exactly the dashboard's save, returning nothing when that throws; otherwise it stores the same upsert, leaves the audit log alone and returns the identifier; either way the identifier keys the saved entry |
| BookingApi.ClientNewAppends | js/booking-api.js:44-57 | a booking with an unused identifier is appended and the earlier bookings are unchanged |
| BookingApi.ClientOverwriteMerges | js/booking-api.js:47-49 | with overwrite on, only the matching entry changes, becoming the stored entry overlaid by the booking |
| BookingApi.ClientDuplicateReidentifies | js/booking-api.js:50-59 | with overwrite off and a taken identifier, the booking is appended under the second identifier |
| BookingViews.StatusOf | js/admin-dashboard.js:272 | a booking is refunded when its status says so, approved when it is approved and not refunded, pending otherwise; the three are exclusive |
| BookingViews.ComputeKpis | js/admin-dashboard.js:132-140 | the total is the list length; approved plus refunded never exceeds it; revenue is the sum of the counted amounts of approved, unrefunded bookings; the average order is revenue over approved, or 0 |
| BookingViews.SumAmountsAppend | js/admin-dashboard.js:137 | revenue over two lists joined is the sum of their revenues |
| BookingViews.ApprovedNotRefunded | js/admin-dashboard.js:134-136 | no booking counts as both approved and refunded |
| BookingViews.KpisByStatus | js/admin-dashboard.js:132-139 | `approved` and `refunded` count exactly the bookings shown with those statuses, the three statuses share out the list, and `pending` also counts the refunded bookings that were never approved |
| BookingViews.KpiExample | js/admin-dashboard.js:132-139 | one approved, one pending and one approved-then-refunded booking give total 3, one of each status, and revenue and average equal to the approved amount |
| BookingViews.Average | js/admin-dashboard.js:138 | the average times the count is the sum; an empty count gives 0 |
| BookingViews.ApplyFilters | js/admin-dashboard.js:243-248 | the search text is trimmed at both ends; the other filter inputs pass through |
| BookingViews.LowerText | js/admin-dashboard.js:267 | a falsy value searches as the empty string, and a truthy non-string throws |
| BookingViews.Haystack | js/admin-dashboard.js:267 | the searched text exists exactly when every searched field is falsy or a string |
| BookingViews.DayNumber | js/admin-dashboard.js:278-283 | a parsed `YYYY-MM-DD` date is a non-negative day number |
| BookingViews.DayNumberOrder | js/admin-dashboard.js:278-283 | an earlier year, month or day gives a smaller day number |
| BookingViews.Matches | js/admin-dashboard.js:262-286 | the callback throws exactly when there is a search text and the booking is not searchable; otherwise it keeps the booking exactly when the booking passes the status, payment and date filters and, if there is a search text, contains it lower-cased |
| BookingViews.FilterBookings | js/admin-dashboard.js:262-286 | the result is `None` (a thrown error) exactly when some booking cannot be searched; otherwise it holds exactly the matching bookings, each as many times as in the input |
| BookingViews.FilterKeepsOrder | js/admin-dashboard.js:263 | the kept bookings are in stored order |
| BookingViews.NoFiltersKeepsAll | js/admin-dashboard.js:262-286 | with every filter empty, all bookings are kept |
| BookingViews.StatusFilterExact | js/admin-dashboard.js:271-273 | a status filter keeps exactly the bookings of that status |
| BookingViews.RefundedFilterExact | js/admin-dashboard.js:271-273 | the `refunded` filter keeps exactly the refunded bookings |
| BookingViews.FromBoundRespected | js/admin-dashboard.js:278-280 | with a from-date set, every kept booking has a date that is not before it |
| BookingViews.PaymentFilterRespected | js/admin-dashboard.js:276 | with a payment filter set, every kept booking has that payment |
| BookingViews.BookingRow | js/admin-dashboard.js:293-299 | the nine columns in header order: tour (or tour name), customer name, email, date, people, amount and payment as the cell shows them with its `''` fallback (a string as itself, a non-zero number as its decimal digits, `true` as `true`, a falsy value empty); then the identifier (or legacy identifier) and the status name |
| BookingViews.ExportBookings | js/admin-dashboard.js:288-304 | the export fails when the filter throws, reports nothing to export when nothing matches, and otherwise starts with the header line |
| BookingViews.ExportBookingsReadBack | js/admin-dashboard.js:288-304 | when no field holds a double quote, the text after the header parses back to one row per kept booking, in order, each row the nine columns of that booking |
| BookingViews.ExportAudit | js/admin-dashboard.js:108-129 | an empty log gives nothing to export; any other log gives a text starting with the header line, which is the escaped export's text whenever no field holds a double quote |
| BookingViews.ExportAuditEscaped | js/admin-dashboard.js:108-129 | the audit export with inner quotes doubled: nothing to export for an empty log, otherwise the header line first |
| BookingViews.ExportAuditEscapedReadBack | js/admin-dashboard.js:117-120 | with inner quotes doubled, the text after the header parses back to one row per log entry, in order: its time, actor, type and JSON details |
| BookingViews.ExportAuditUnreadable | js/admin-dashboard.js:117-118 | as written, a log whose first entry's JSON details open with a property name cannot be read back at all |
| BookingViews.ApprovalLogUnreadable | js/admin-dashboard.js:117-118 | the log of one approval, `{"bookingId":"B1"}`, exports unreadably as written and reads back as its one row once quotes are doubled |
| AdminPanels.StoredNumber | js/admin-dashboard.js:577 | `parseFloat` of a form field as stored: a number or `null` (NaN), with the empty field stored as 0 |
| AdminPanels.StoredNumberOfDecimal | js/admin-dashboard.js:577 | a field holding the decimal digits of `n` stores `n` |
| AdminPanels.UsedSoFar | js/admin-dashboard.js:581 | the usage count of a code already listed is carried over, and a new code starts at 0 |
| AdminPanels.UpsertPromotion | js/admin-dashboard.js:570-587 | a blank code is rejected with `Code is required`; otherwise an entry with that code is replaced in place, or the item is appended, and one `upsert_promotion` entry is logged |
| AdminPanels.UpsertPromotionKeepsCodesUnique | js/admin-dashboard.js:583-585 | if codes are unique before, they are unique after |
| AdminPanels.UpsertKeepsUsed | js/admin-dashboard.js:581-585 | overwriting a promotion keeps its usage count |
| AdminPanels.UpsertPromotionIdempotent | js/admin-dashboard.js:570-587 | submitting the same form twice gives the same promotion list as once |
| AdminPanels.DeletePromotion | js/admin-dashboard.js:562-566 | the row's position is removed from the list, or nothing if it is already gone, and one `delete_promotion` entry naming the shown code is logged |
| AdminPanels.AddDocument | js/admin-dashboard.js:645-655 | a blank email or type is rejected; otherwise the document appended holds the trimmed email, type, number and notes and the expiry date as typed, and one `add_document` entry is logged |
| AdminPanels.DeleteDocument | js/admin-dashboard.js:640 | the row's position is removed, and one `delete_document` entry naming the position is logged |
| AdminPanels.DeleteUndoesAddDocument | js/admin-dashboard.js:640-655 | deleting the document just added restores the list |
| AdminPanels.AddAgent | js/admin-dashboard.js:714-722 | a blank name is rejected; otherwise the agent appended has the trimmed name and code and the commission as `parseFloat` stores it (0 when the field is empty), and one `add_agent` entry is logged |
| AdminPanels.DeleteAgent | js/admin-dashboard.js:709 | the row's position is removed, and one `delete_agent` entry naming the shown code is logged |
| AdminPanels.DeleteUndoesAddAgent | js/admin-dashboard.js:709-722 | deleting the agent just added restores the list |
| AdminPanels.StatsOf | js/admin-dashboard.js:697-698 | an agent's booking count is the number of stored bookings that belong to the agent, and the agent's revenue is the KPI revenue of that agent's bookings |
| AdminPanels.StatsOfOne | js/admin-dashboard.js:697-699 | a single booking counts for an agent exactly when it carries the agent's code or name, and adds its amount to the revenue exactly when it is also approved and not refunded |
| AdminPanels.AnonymousAgentHasNothing | js/admin-dashboard.js:697 | an agent with neither code nor name is credited with no bookings and no revenue |
| AdminPanels.StatsAdd | js/admin-dashboard.js:697-698 | an agent's count and revenue over two lists joined are the sums over each |
| CustomerBooking.Loaded | js/customer-booking.js:28-29 | the collections loaded from storage start in sync with it |
| CustomerBooking.Save | js/customer-booking.js:112-118 | after saving, storage holds exactly the in-memory list |
| CustomerBooking.NewCustomer | js/customer-booking.js:2-11 | a customer has exactly an id, a name, an email, a phone, an address and a creation time, taken from the form data and the parameters |
| CustomerBooking.NewBooking | js/customer-booking.js:14-25 | a booking has exactly the eight fields id, customer, tour, booking date, people, amount, status and creation time: it copies the form's customer, tour, date, people and amount, and starts `pending` with the given id and time |
| CustomerBooking.AddCustomer | js/customer-booking.js:32-43 | the new customer is appended in memory, everything earlier is unchanged, and storage stays in sync |
| CustomerBooking.AddBooking | js/customer-booking.js:69-82 | the new pending booking is appended in memory and storage stays in sync |
| CustomerBooking.UpdateById | js/customer-booking.js:45-53 | an absent id changes nothing and returns nothing; otherwise the count is kept and storage is in sync |
| CustomerBooking.UpdateMergesFirst | js/customer-booking.js:46-50 | only the first entry with the id is changed, becoming the old entry overlaid by the data |
| CustomerBooking.DeleteById | js/customer-booking.js:55-58 | no entry with the id remains, every other entry remains in order and as many times as before, and storage is in sync |
| CustomerBooking.DeleteAbsentKeepsAll | js/customer-booking.js:55-58 | deleting an absent id keeps the list |
| CustomerBooking.GetById | js/customer-booking.js:60-62 | the result is a stored entry with that id, and nothing exactly when the id is absent |
| CustomerBooking.GetFindsFirst | js/customer-booking.js:60-62 | the first entry with the id is returned |
| CustomerBooking.GetAfterAdd | js/customer-booking.js:32-43 | a customer just added with a fresh id is found by that id |
| CustomerBooking.GetAfterDelete | js/customer-booking.js:55-62 | after deleting an id, it is not found |
| CustomerBooking.GetAfterUpdate | js/customer-booking.js:45-62 | after an update that does not set `id`, the entry found is the old one overlaid by the data |
| CustomerBooking.AbsentPersisted | js/customer-booking.js:112-118 | storing a list does not change which ids it holds |
| CustomerBooking.SaveBookingForAdmin | js/customer-booking.js:120-124 | the booking is appended to the stored list and memory is untouched |
| CustomerBooking.SubmitBookingAsWritten | js/customer-booking.js:230-244 | the modal's submit as written stores the in-memory list plus one more entry |
| CustomerBooking.SubmitStoresTwice | js/customer-booking.js:239-241 | after the submit as written, the new booking's id occurs twice in storage |
| CustomerBooking.SubmitBooking | js/customer-booking.js:230-244 | the corrected submit appends the new booking once in memory and keeps storage in sync |
| CustomerBooking.SubmitStoresOnce | js/customer-booking.js:239-241 | after the corrected submit, the new id occurs exactly once in storage |
| Auth.CheckPassword | js/auth.js:26-30 | true exactly for at least eight ASCII letters and digits with a lowercase letter, an uppercase letter and a digit among them |
| Auth.CheckEmail | js/auth.js:21-24 | true exactly for the `x@y.z` shape: no whitespace, one `@` with text before it, and a dot with text on both sides after it |
| Auth.LocalPartNonEmpty | js/auth.js:21-24 | an accepted email has a non-empty part before `@` |
| Auth.Signup | js/auth.js:329-372 | a name shorter than two characters, a bad email or password, a mismatched confirmation, unticked terms or a taken email leave the users unchanged; otherwise exactly the new user is appended |
| Auth.NewUser | js/auth.js:332-370 | the new user has the trimmed, lower-cased email, the password as typed, and the trimmed name and contact |
| Auth.SignupKeepsEmailsUnique | js/auth.js:360-372 | sign-up keeps the stored emails unique |
| Auth.Login | js/auth.js:276-316 | invalid input is rejected and an unknown email has no account; a successful log-in comes from the first stored user with the normalised email, whose password is the one typed, and its session record has that email and password, the user's name or else the part of the email before `@`, and the user's contact number or else the typed one; the email is remembered only when asked |
| Auth.LoginSucceedsIff | js/auth.js:279-302 | with unique emails, log-in succeeds exactly when the input is valid and the stored user with that email has that password |
| Auth.SignupThenLogin | js/auth.js:360-372 | a user who has just signed up can log in with the same email and password |
| Auth.ResetPassword | js/auth.js:386-413 | invalid input and an unknown email change nothing; otherwise only the password of the first user with that email changes |
| Auth.ResetChangesFirstOnly | js/auth.js:406-413 | the reset gives the first matching user the new password and leaves every other user unchanged |
| Auth.ResetThenLogin | js/auth.js:406-413 | after a reset, log-in with the new password succeeds |
| Auth.ResetKeepsEmailsUnique | js/auth.js:406-413 | a reset keeps the stored emails unique |
| Auth.FormFromHash | js/auth.js:136-141 | `#signup` and `#forgot`, in any case and with the first `#` optional, select those forms; anything else selects log-in |
| Auth.HashSignOptional | js/auth.js:137 | a hash with or without its leading `#` selects the same form |
| Auth.HashIgnoresCase | js/auth.js:137-139 | `#SignUp` selects the sign-up form |
| Auth.DoubleHashOpensLogin | js/auth.js:137 | `##signup` selects log-in, because only one `#` is removed |
| AdminUsers.AdminLogin | js/admin.js:20-38 | blank fields are refused; admission needs exactly `admin`/`admin123` and a non-blank contact |
| AdminUsers.ContactNeverChecked | js/admin.js:20-38 | any two non-blank contact numbers give the same outcome |
| AdminUsers.FieldHit | js/admin.js:98-101 | a falsy property does not match, a string matches when its lower-case contains the term, and any other value throws |
| AdminUsers.UserHitMeansMentions | js/admin.js:97-102 | when the search callback does not throw, it answers exactly whether the name, email or contact contains the term |
| AdminUsers.SearchUsers | js/admin.js:92-103 | an empty term lists everyone; otherwise the list is in stored order and holds exactly the users mentioning the lower-cased term, each as many times as stored, unless the callback throws |
| AdminUsers.SearchKeepsMentions | js/admin.js:96-103 | the filter keeps exactly the users that mention the term, each as many times as stored |
| AdminUsers.DeleteUser | js/admin.js:122-127 | a valid position is removed and everything else is kept in order; a position past the end changes nothing |
| AdminUsers.DeleteListedAsWritten | js/admin.js:109-125 | a click removes the stored user at the position the user has in the filtered list |
| AdminUsers.WrongUserDeleted | js/admin.js:109-125 | with Alice and Bob stored and `bob` searched, clicking Bob's button as written deletes Alice |
| AdminUsers.StoredPosition | js/admin.js:96-110 | the listed user's stored position holds that same user |
| AdminUsers.DeleteListed | js/admin.js:109-125 | the corrected click removes exactly the listed user from the stored list |
| AdminUsers.UnsearchedDeletesAgree | js/admin.js:92-127 | with no search term, the written and the corrected deletions agree |
| AdminUsers.UserRow | js/admin.js:135-136 | the three columns in header order: name, email and contact number as the cell shows them with its `''` fallback: a string as itself, a non-zero number as its digits, a falsy value empty |
| AdminUsers.ExportUsers | js/admin.js:129-140 | no users gives the `No users to export.` alert; otherwise the text starts with the header line |
| AdminUsers.ExportUsersReadBack | js/admin.js:135-140 | when no field holds a double quote, the export parses back to one row per user in stored order, each row the user's name, email and contact number, a falsy one empty |
| Portal.ChangePassword | js/main.js:483-506 | no session or an undecodable stored password throws; then the current password must match, the confirmation must match and the new password must be valid, checked in that order; a change stores a text that decodes to the new password |
| Portal.NextChangeAcceptsNew | js/main.js:490-505 | after a change, the next change accepts exactly the new password as current |
| Portal.ValidPasswordIsLatin1 | js/main.js:559-562 | a valid password can be passed to `btoa` |
| Portal.ActivityIcon | js/main.js:426-434 | the four known activity types have their own icons, and every other type gets `circle` |
| Portal.IconsTellTypesApart | js/main.js:426-434 | two types with the same non-default icon are the same type |
| Portal.AddContact | js/main.js:625-631 | a blank entry changes nothing; otherwise the trimmed entry is appended and the rest is kept |
| Portal.RemoveContact | js/main.js:617-619 | the clicked position is removed |
| Portal.RemoveUndoesAdd | js/main.js:617-631 | removing the contact just added gives the list back |
| Portal.IndexKey | js/main.js:703-704 | a key names a tour position only when it is that position's decimal text |
| Portal.OptionKeyNamesTour | js/main.js:685-687 | the option value written for position `i` selects position `i` |
| Portal.EngineBooking | js/main.js:705-714 | the record has exactly the eight fields tour, date, people, price, total, status, payment and id: `confirmed`, the id `BK` plus the clock, the tour's name and price, the chosen date, people and payment, and total price times people |
| Portal.SubmitTourBooking | js/main.js:700-717 | a key that names no tour does nothing; otherwise the new booking goes in front of the stored bookings, which are unchanged |
| Portal.PeopleCount | js/main.js:708-710 | the people field holding the digits of `n` counts as `n` |
| Portal.TotalIsPriceTimesPeople | js/main.js:710 | a numeric price booked for `n` people records the total `price * n` |
| Portal.ActiveBookings | js/main.js:58 | the active count is at most the number of bookings |
| Portal.ActiveBookingsCons | js/main.js:58 | a list's first booking adds one to the active count exactly when its status is `confirmed`, so the count is the number of confirmed bookings |
| Portal.ShownActiveBookings | js/main.js:56-58 | the figure the dashboard shows is 0 whatever is stored |
| Portal.ShownFigureMissesEngineBooking | js/main.js:56-58 | after a booking made with the engine, the shown figure is 0 while the stored confirmed count is at least one |
| Portal.EngineBookingIsActive | js/main.js:711-717 | every booking the engine makes raises the confirmed count over the stored bookings by exactly one |
| Base64.AtobBtoa | js/main.js:490-505 | `atob(btoa(s)) == s` for every Latin-1 string, as the security form's stored password relies on |
| Text.TrimInfix | js/auth.js:332-334 | `trim` removes only whitespace, from the two ends, and keeps what is between |
| Text.NumberRoundTrip | js/customer-booking.js:236 | parsing the decimal text of an integer gives that integer back |
| Text.ToNumber | js/main.js:710 | `Number` of text: blank text is 0, and a trimmed text is a number exactly when it is an optional sign followed by digits only |
| Text.ToNumberRoundTrip | js/main.js:710 | `Number` of the decimal text of an integer gives that integer back |
| Text.ParseAgreesWithToNumber | js/main.js:710 | wherever `Number` reads a non-blank text as an integer, `parseFloat` reads the same integer |
| Text.TrailingLettersNotANumber | js/main.js:710 | `12abc` is NaN to `Number` but 12 to `parseFloat` |
| JsValues.ShownAsIsTextOr | js/admin-dashboard.js:296 | the shown text of a cell is fixed for every value: it is exactly the text of a truthy value, or empty for a falsy one |
| Csv.Escape | js/admin-dashboard.js:117-118 | a field without double quotes is its own escaping, and escaping never shortens a field |
| Csv.QuoteFreeRowsUnescaped | js/admin-dashboard.js:117-118 | rows without double quotes are their own escaping |
| Csv.EscapedLinesRoundTrip | js/admin-dashboard.js:117-120 | lines whose fields have their quotes doubled parse back to exactly their rows, whatever the fields hold |
| Csv.LinesRoundTrip | js/admin.js:137-140 | lines written as the exports write them parse back to their rows when no field holds a double quote |
| Csv.StrayQuoteCell | js/admin-dashboard.js:117-118 | an unescaped field whose second character is a quote not followed by a quote, comma or line feed is cut after its first character |
| Csv.LineBreaksAt | js/admin-dashboard.js:117-118 | an unescaped line whose earlier fields are quote-free and whose next field has such a stray quote cannot be read |

## Left out

- Rendering, DOM access, `alert`, `showNotification`, modals and page routing are not modelled. Only the data they read or write is.
- `localStorage` is a parameter holding the parsed lists. `JSON.stringify`/`JSON.parse` are modelled only by `Persist`, which drops `undefined`. The JSON text of audit details in the CSV is a `stringify` parameter of `BookingViews.ExportAudit`.
- The clock and `Math.random()` are parameters (`stamp`, `now`, `token`, `dupToken`). Identifier uniqueness is assumed where a lemma needs it (`UpsertKeepsKeysUnique`, `GetAfterAdd`).
- BookingLedger.ApproveBooking and BookingLedger.RefundBooking take one `stamp` for every matching booking's `approvedAt`/`refundedAt` and for the audit entry. The source calls `new Date()` once per matching booking and again for the log, so those times may differ by the milliseconds the loop takes.
- Numbers are integers. `parseFloat` of a fractional amount, `toFixed(2)` and floating-point rounding are not modelled. The KPI average is a `real`.
- Text.ParseNumber: reads an optional sign and the leading run of digits, which is `parseInt(s, 10)` exactly. It is weaker than `parseFloat`, which it also stands for (the promotion value, `AdminPanels.StoredNumber`, and the amounts summed for revenue): an exponent (`1e3` is 1000 to `parseFloat`, 1 here), `Infinity` and a fractional part are not read.
- BookingViews.DayNumber: only `YYYY-MM-DD` text is a date. A number, a boolean, an ISO date-time or another format that `new Date` accepts is not read as a date, so the from/to filters keep such a booking instead of comparing it. A date-time is not placed within its day, and time zones are not modelled.
- `toLowerCase` covers ASCII letters only, and strings are sequences of characters with no UTF-16 surrogate detail.
- BookingLedger.GenerateBookingId: requires a clock of at least 10000 ms, so that `slice(-5)` takes five digits, which any real clock satisfies.
- The private `normalizeBooking`/`generateBookingId` of `js/booking-api.js` have the same text as the dashboard's, so the shared `BookingLedger` functions stand for them.
- The `postMessage` reply of the message listener is modelled as the returned identifier. The event plumbing is left out.
- Dashboard.SaveBookingToAdmin: the only throw modelled after the writes is the redraw's search (a truthy non-string in a searched field). A missing table element, or anything the KPI bar and the alerts panel could throw, is not modelled.
- BookingViews.ExportBookingsReadBack: promises the read-back only for fields without double quotes. The handler wraps each field in quotes without doubling the inner ones (js/admin-dashboard.js:296), so a field holding one can leave its line unreadable, as `Csv.LineBreaksAt` shows.
- AdminUsers.ExportUsersReadBack: promises the read-back only for fields without double quotes, for the same reason (js/admin.js:139).
- Csv.LinesRoundTrip: is about unescaped lines and so needs fields without double quotes; `Csv.EscapedLinesRoundTrip` has no such condition.
- Portal.NumberOf: reads text with `Text.ToNumber`, which covers integers only. A fraction, an exponent, a hexadecimal literal and `Infinity`, which `Number` reads as numbers, are NaN here, so the total of such a people field is stored as `null`.
- `getAllCustomers`/`getAllBookings`, the seeded demo arrays of `js/main.js`, the `storage` event listener of `js/admin.js` and the profile form are left out: they only return or display stored data.
- The dashboard's start-up (`bootstrapEnhancements`) and panel injection are left out. They swap renderers and build the DOM only.
- The alerts panel (`updateAlerts`) is left out. Its windows are measured against the wall clock and `Date` parsing, and its pending count is the KPI one.
- The audit entry the users table's delete button writes (`delete_user`, source `button`) is the `LogAction` shape and is not modelled on its own. The notifications alert shows the KPI pending and refunded counts.
- Portal.ActivityIcon: a type naming an inherited `Object.prototype` member (`toString`, `constructor`, ...) is treated as unknown and gets `circle`, whereas `icons[type]` would return the inherited member.
- Portal.IndexKey: only canonical decimal keys select a tour, as the select's options produce; a key such as `length` or an inherited method name, which `tours[key]` would also resolve, is treated as naming no tour.
- The tour list of the portal (adding a tour with a `parseFloat` price, removing one) is left out: it is the same push and splice as the contacts, and only its stored records are used, as `StoredTour`.

## Findings

| source | as written | input that shows it | evidently intended | confidence | as-written member | corrected member |
|---|---|---|---|---|---|---|
| js/customer-booking.js:239-241 | the modal submit calls `addBooking`, which already saves the bookings, then `saveBookingForAdmin`, which appends the same booking to storage again | any submitted booking | the booking stored once | not executed | CustomerBooking.SubmitStoresTwice | CustomerBooking.SubmitStoresOnce |
| js/admin-dashboard.js:117-118 | every audit field is wrapped in double quotes as it is, and the details field is JSON text, which holds double quotes | one approval, whose details are `{"bookingId":"B1"}` | double the inner quotes, as section 2 of RFC 4180 asks, so that the file reads back | not executed | BookingViews.ApprovalLogUnreadable | BookingViews.ExportAuditEscapedReadBack |
| js/main.js:56-58 | the active-bookings figure counts the module-level `bookings` list, declared empty at line 13 and never assigned | one booking made with the engine form, which is stored as `confirmed` | count the confirmed bookings in storage | not executed | Portal.ShownFigureMissesEngineBooking | Portal.EngineBookingIsActive |
| js/admin.js:109-125 | a delete button carries the user's position in the searched list, but `deleteUser` splices that position out of the full stored list | stored `[Alice, Bob]`, search `bob`, click the only button (position 0) | delete Bob | not executed | AdminUsers.WrongUserDeleted | AdminUsers.DeleteListed |

=== FILE: admin_panels.dfy ===
/**
 * The dashboard's side panels (js/admin-dashboard.js): the promotions manager
 * (an upsert keyed by `code` that keeps the usage counter), the document vault,
 * and the agent panel with its per-agent booking and revenue join. Each
 * collection is a JSON array of its own; every change is logged.
 */
module AdminPanels {
  import opened Wrappers
  import opened JsValues
  import Seqs
  import Text
  import BookingLedger
  import BookingViews

  /** A panel's collection and the audit log after an accepted change, or the alert that refused it. */
  datatype Written<T> = Written(list: seq<T>, auditLog: seq<BookingLedger.AuditEntry>) | Rejected(reason: string)

  /**
   * `parseFloat(v || '0')` (or `parseInt(v || '0', 10)`) as it is stored: the
   * number read from the input, an empty input counting as 0, and NaN written
   * by JSON as `null`.
   */
  function StoredNumber(v: string): (r: Value)
    ensures r.Num? || r.Null?
    ensures v == "" ==> r == Num(0)
  {
    if v == "" then Num(0)  // the fallback '0' reads as 0
    else match Text.ParseNumber(v)
      case Some(n) => Num(n)
      case None => Null
  }

  lemma StoredNumberOfDecimal(n: int)
    ensures StoredNumber(Text.IntToDecimal(n)) == Num(n)
  {
    Text.NumberRoundTrip(n);
  }

  // ------------------------------------------------------------------ promotions

  /** The promotion form's raw input values. */
  datatype PromoForm = PromoForm(code: string, description: string, kind: string, value: string,
                                 startDate: string, endDate: string, usageLimit: string)

  /** A stored promotion: the JSON object `{ code, description, type, value, startDate, endDate, usageLimit, used }`. */
  datatype Promotion = Promotion(code: Value, description: Value, kind: Value, value: Value,
                                 startDate: Value, endDate: Value, usageLimit: Value, used: Value)

  /** `p => p.code === code`. */
  function CodeIs(code: string): Promotion -> bool {
    (p: Promotion) => p.code == Str(code)
  }

  /** `(list.find(p => p.code === code)?.used) || 0`: the usage counter of the first promotion with that code. */
  function UsedSoFar(list: seq<Promotion>, code: string): (u: Value)
    ensures Truthy(u) || u == Num(0)
    ensures Seqs.FindIndex(list, CodeIs(code)).None? ==> u == Num(0)
  {
    match Seqs.FindIndex(list, CodeIs(code))
    case None => Num(0)
    case Some(i) => Or(list[i].used, Num(0))
  }

  /** The promotion the form describes, carrying the given usage counter. */
  function PromotionItem(f: PromoForm, used: Value): Promotion {
    Promotion(Str(Text.Trim(f.code)), Str(Text.Trim(f.description)), Str(f.kind), StoredNumber(f.value),
              Str(f.startDate), Str(f.endDate), StoredNumber(f.usageLimit), used)
  }

  /**
   * The Add/Update button: the trimmed code is required; the promotion replaces
   * the first one with that code, or is appended when there is none, and keeps
   * that one's usage counter. One `upsert_promotion` entry is logged.
   */
  function UpsertPromotion(list: seq<Promotion>, log: seq<BookingLedger.AuditEntry>, f: PromoForm, stamp: string): (r: Written<Promotion>)
    ensures r.Rejected? <==> Text.Trim(f.code) == ""
    ensures r.Rejected? ==> r.reason == "Code is required"
    ensures r.Written? ==>
      var code := Text.Trim(f.code);
      var item := PromotionItem(f, UsedSoFar(list, code));
      && r.auditLog == BookingLedger.LogAction(log, stamp, "upsert_promotion", map[Code := Str(code)])
      && match Seqs.FindIndex(list, CodeIs(code))
         case None => r.list == list + [item]
         case Some(i) => r.list == list[i := item]
  {
    var code := Text.Trim(f.code);
    if code == "" then Rejected("Code is required")
    else
      var item := PromotionItem(f, UsedSoFar(list, code));
      var l := match Seqs.FindIndex(list, CodeIs(code))
        case None => list + [item]
        case Some(i) => list[i := item];
      Written(l, BookingLedger.LogAction(log, stamp, "upsert_promotion", map[Code := Str(code)]))
  }

  /** No two promotions share a code. */
  predicate UniqueCodes(list: seq<Promotion>) {
    forall i, j :: 0 <= i < j < |list| ==> list[i].code != list[j].code
  }

  /**
   * An accepted upsert leaves exactly one promotion with the code, carrying the
   * new values and the old usage counter, and keeps codes unique.
   */
  lemma UpsertPromotionKeepsCodesUnique(list: seq<Promotion>, log: seq<BookingLedger.AuditEntry>, f: PromoForm, stamp: string)
    requires UniqueCodes(list)
    requires Text.Trim(f.code) != ""
    ensures var r := UpsertPromotion(list, log, f, stamp);
      && UniqueCodes(r.list)
      && exists i :: 0 <= i < |r.list| && r.list[i] == PromotionItem(f, UsedSoFar(list, Text.Trim(f.code)))
  {
    var code := Text.Trim(f.code);
    var r := UpsertPromotion(list, log, f, stamp);
    var item := PromotionItem(f, UsedSoFar(list, code));
    match Seqs.FindIndex(list, CodeIs(code))
    case None =>
      assert r.list[|list|] == item;
    case Some(k) =>
      assert r.list[k] == item;
      assert r.list[k].code == list[k].code;
  }

  /** Updating a promotion keeps its usage counter (0 when it had none), whatever the form says. */
  lemma UpsertKeepsUsed(list: seq<Promotion>, log: seq<BookingLedger.AuditEntry>, f: PromoForm, stamp: string, i: nat)
    requires Text.Trim(f.code) != ""
    requires Seqs.FindIndex(list, CodeIs(Text.Trim(f.code))) == Some(i)
    ensures var r := UpsertPromotion(list, log, f, stamp);
      && |r.list| == |list|
      && r.list[i].used == Or(list[i].used, Num(0))
      && forall j :: 0 <= j < |list| && j != i ==> r.list[j] == list[j]
  {
  }

  /** Submitting the same form twice leaves the same promotions as submitting it once. */
  lemma UpsertPromotionIdempotent(list: seq<Promotion>, log: seq<BookingLedger.AuditEntry>, f: PromoForm, stamp: string, stamp2: string)
    requires Text.Trim(f.code) != ""
    ensures var once := UpsertPromotion(list, log, f, stamp);
      UpsertPromotion(once.list, once.auditLog, f, stamp2).list == once.list
  {
    var code := Text.Trim(f.code);
    var once := UpsertPromotion(list, log, f, stamp);
    var item := PromotionItem(f, UsedSoFar(list, code));
    var k: nat := match Seqs.FindIndex(list, CodeIs(code)) case None => |list| case Some(i) => i;
    assert once.list[k] == item;
    FirstMatchAt(once.list, code, k);
    assert UsedSoFar(once.list, code) == Or(UsedSoFar(list, code), Num(0));
  }

  /** After an accepted upsert the first promotion with the code is the upserted one, at the same place. */
  lemma FirstMatchAt(list: seq<Promotion>, code: string, k: nat)
    requires k < |list| && list[k].code == Str(code)
    requires forall j :: 0 <= j < k ==> list[j].code != Str(code)
    ensures Seqs.FindIndex(list, CodeIs(code)) == Some(k)
  {
    assert CodeIs(code)(list[k]);
  }

  /**
   * The Delete button of row `idx`, rendered from promotion `shown`: the stored
   * list is filtered by position (an index past its end removes nothing) and
   * `delete_promotion` is logged with the rendered promotion's code.
   */
  function DeletePromotion(list: seq<Promotion>, log: seq<BookingLedger.AuditEntry>, idx: nat, shown: Promotion, stamp: string): (r: Written<Promotion>)
    ensures r.Written?
    ensures idx < |list| ==> r.list == Seqs.RemoveAt(list, idx)
    ensures idx >= |list| ==> r.list == list
    ensures |r.auditLog| == |log| + 1 && r.auditLog[|log|].kind == "delete_promotion"
    ensures r.auditLog == BookingLedger.LogAction(log, stamp, "delete_promotion", map[Code := shown.code])
  {
    Written(Seqs.DropIndex(list, idx),
            BookingLedger.LogAction(log, stamp, "delete_promotion", map[Code := shown.code]))
  }

  // ------------------------------------------------------------------ documents

  /** The document form's raw input values. */
  datatype DocForm = DocForm(customerEmail: string, kind: string, number: string, expiryDate: string, notes: string)

  /** A stored document: `{ customerEmail, type, number, expiryDate, notes }`. */
  datatype Document = Document(customerEmail: string, kind: string, number: string, expiryDate: string, notes: string)

  /** The document the form describes: every text input trimmed except the expiry date. */
  function DocumentItem(f: DocForm): Document {
    Document(Text.Trim(f.customerEmail), Text.Trim(f.kind), Text.Trim(f.number), f.expiryDate, Text.Trim(f.notes))
  }

  /**
   * The Add button of the document vault: e-mail and type are required (after
   * trimming); the document is appended and `add_document` is logged with both.
   */
  function AddDocument(list: seq<Document>, log: seq<BookingLedger.AuditEntry>, f: DocForm, stamp: string): (r: Written<Document>)
    ensures r.Rejected? <==> Text.Trim(f.customerEmail) == "" || Text.Trim(f.kind) == ""
    ensures r.Written? ==> |r.list| == |list| + 1 && r.list[..|list|] == list
    ensures r.Written? ==> r.list[|list|].customerEmail != "" && r.list[|list|].kind != ""
    ensures r.Written? ==>
      r.list[|list|] == Document(Text.Trim(f.customerEmail), Text.Trim(f.kind), Text.Trim(f.number),
                                 f.expiryDate, Text.Trim(f.notes))
    ensures r.Written? ==> r.auditLog == BookingLedger.LogAction(log, stamp, "add_document",
      map[Email := Str(Text.Trim(f.customerEmail)), Type := Str(Text.Trim(f.kind))])
  {
    var item := DocumentItem(f);
    if Text.Trim(f.customerEmail) == "" || Text.Trim(f.kind) == "" then Rejected("Email and Type are required.")
    else
      Written(list + [item], BookingLedger.LogAction(log, stamp, "add_document",
        map[Email := Str(Text.Trim(f.customerEmail)), Type := Str(Text.Trim(f.kind))]))
  }

  /** The Delete button of document row `idx`: the stored list is filtered by position and `delete_document` logged with the index. */
  function DeleteDocument(list: seq<Document>, log: seq<BookingLedger.AuditEntry>, idx: nat, stamp: string): (r: Written<Document>)
    ensures r.Written?
    ensures idx < |list| ==> r.list == Seqs.RemoveAt(list, idx)
    ensures idx >= |list| ==> r.list == list
    ensures |r.auditLog| == |log| + 1 && r.auditLog[|log|].kind == "delete_document"
    ensures r.auditLog == BookingLedger.LogAction(log, stamp, "delete_document", map[Other("idx") := Num(idx)])
  {
    Written(Seqs.DropIndex(list, idx),
            BookingLedger.LogAction(log, stamp, "delete_document", map[Other("idx") := Num(idx)]))
  }

  /** Deleting the row a document was just added at gives the documents back. */
  lemma DeleteUndoesAddDocument(list: seq<Document>, log: seq<BookingLedger.AuditEntry>, f: DocForm, stamp: string, stamp2: string)
    requires AddDocument(list, log, f, stamp).Written?
    ensures var added := AddDocument(list, log, f, stamp);
      DeleteDocument(added.list, added.auditLog, |list|, stamp2).list == list
  {
    var added := AddDocument(list, log, f, stamp);
    assert added.list[..|list|] == list;
  }

  // ------------------------------------------------------------------ agents

  /** The agent form's raw input values. */
  datatype AgentForm = AgentForm(name: string, code: string, commissionPct: string)

  /** A stored agent: `{ name, code, commissionPct }`. */
  datatype AgentRecord = AgentRecord(name: Value, code: Value, commissionPct: Value)

  function AgentItem(f: AgentForm): AgentRecord {
    AgentRecord(Str(Text.Trim(f.name)), Str(Text.Trim(f.code)), StoredNumber(f.commissionPct))
  }

  /** The Add button of the agent panel: the trimmed name is required; the agent is appended and `add_agent` logged with its code. */
  function AddAgent(list: seq<AgentRecord>, log: seq<BookingLedger.AuditEntry>, f: AgentForm, stamp: string): (r: Written<AgentRecord>)
    ensures r.Rejected? <==> Text.Trim(f.name) == ""
    ensures r.Written? ==> |r.list| == |list| + 1 && r.list[..|list|] == list
    ensures r.Written? ==> r.list[|list|].name == Str(Text.Trim(f.name)) && Truthy(r.list[|list|].name)
    ensures r.Written? ==> r.list[|list|].code == Str(Text.Trim(f.code))
    ensures r.Written? ==> r.list[|list|].commissionPct == StoredNumber(f.commissionPct)
    ensures r.Written? && f.commissionPct == "" ==> r.list[|list|].commissionPct == Num(0)
    ensures r.Written? ==> r.auditLog == BookingLedger.LogAction(log, stamp, "add_agent", map[Code := Str(Text.Trim(f.code))])
  {
    if Text.Trim(f.name) == "" then Rejected("Agent name required")
    else Written(list + [AgentItem(f)], BookingLedger.LogAction(log, stamp, "add_agent", map[Code := Str(Text.Trim(f.code))]))
  }

  /** The Delete button of agent row `idx`, rendered from agent `shown`: `delete_agent` is logged with that agent's code. */
  function DeleteAgent(list: seq<AgentRecord>, log: seq<BookingLedger.AuditEntry>, idx: nat, shown: AgentRecord, stamp: string): (r: Written<AgentRecord>)
    ensures r.Written?
    ensures idx < |list| ==> r.list == Seqs.RemoveAt(list, idx)
    ensures idx >= |list| ==> r.list == list
    ensures |r.auditLog| == |log| + 1 && r.auditLog[|log|].kind == "delete_agent"
    ensures r.auditLog == BookingLedger.LogAction(log, stamp, "delete_agent", map[Code := shown.code])
  {
    Written(Seqs.DropIndex(list, idx),
            BookingLedger.LogAction(log, stamp, "delete_agent", map[Code := shown.code]))
  }

  /** Deleting the row an agent was just added at gives the agents back. */
  lemma DeleteUndoesAddAgent(list: seq<AgentRecord>, log: seq<BookingLedger.AuditEntry>, f: AgentForm, stamp: string, stamp2: string)
    requires AddAgent(list, log, f, stamp).Written?
    ensures var added := AddAgent(list, log, f, stamp);
      DeleteAgent(added.list, added.auditLog, |list|, added.list[|list|], stamp2).list == list
  {
    var added := AddAgent(list, log, f, stamp);
    assert added.list[..|list|] == list;
  }

  /**
   * A booking belongs to an agent when both carry the same non-empty agent code,
   * or both carry the same non-empty agent name.
   */
  predicate BelongsTo(b: Record, a: AgentRecord) {
    || (Truthy(Get(b, AgentCode)) && Truthy(a.code) && Get(b, AgentCode) == a.code)
    || (Truthy(Get(b, Agent)) && Truthy(a.name) && Get(b, Agent) == a.name)
  }

  function BookingsOf(a: AgentRecord): Record -> bool {
    b => BelongsTo(b, a)
  }

  /** One row of the agent table: the agent's booking count and approved, unrefunded revenue. */
  datatype AgentStats = AgentStats(bookings: nat, revenue: int)

  function StatsOf(a: AgentRecord, bookings: seq<Record>): (s: AgentStats)
    ensures s.bookings <= |bookings|
    ensures s.bookings == Seqs.Count(bookings, BookingsOf(a))
    ensures s.revenue == BookingViews.ComputeKpis(Seqs.Filter(bookings, BookingsOf(a))).revenue
  {
    var mine := Seqs.Filter(bookings, BookingsOf(a));
    AgentStats(|mine|, BookingViews.SumAmounts(Seqs.Filter(mine, BookingViews.CountsApproved)))
  }

  /** An agent with neither a code nor a name is credited with nothing. */
  lemma AnonymousAgentHasNothing(a: AgentRecord, bookings: seq<Record>)
    requires !Truthy(a.code) && !Truthy(a.name)
    ensures StatsOf(a, bookings) == AgentStats(0, 0)
  {
    Seqs.FilterNone(bookings, BookingsOf(a));
  }

  /**
   * One booking is credited to an agent exactly when it belongs to them, and
   * adds its amount to their revenue exactly when it is also approved and not refunded.
   */
  lemma StatsOfOne(a: AgentRecord, b: Record)
    ensures StatsOf(a, [b]).bookings == if BelongsTo(b, a) then 1 else 0
    ensures StatsOf(a, [b]).revenue
         == if BelongsTo(b, a) && BookingViews.CountsApproved(b) then BookingViews.AmountOf(b) else 0
  {
    assert [b][1..] == [];
    if !BelongsTo(b, a) {
      assert Seqs.Filter([b], BookingsOf(a)) == [];
    } else {
      assert Seqs.Filter([b], BookingsOf(a)) == [b];
      if BookingViews.CountsApproved(b) {
        assert Seqs.Filter([b], BookingViews.CountsApproved) == [b];
        assert BookingViews.SumAmounts([b]) == BookingViews.AmountOf(b);
      } else {
        assert Seqs.Filter([b], BookingViews.CountsApproved) == [];
      }
    }
  }

  /** Attribution is per booking: the figures over two batches of bookings add up. */
  lemma StatsAdd(a: AgentRecord, xs: seq<Record>, ys: seq<Record>)
    ensures var s := StatsOf(a, xs + ys);
      s.bookings == StatsOf(a, xs).bookings + StatsOf(a, ys).bookings
      && s.revenue == StatsOf(a, xs).revenue + StatsOf(a, ys).revenue
  {
    var mx := Seqs.Filter(xs, BookingsOf(a));
    var my := Seqs.Filter(ys, BookingsOf(a));
    Seqs.FilterAppend(xs, ys, BookingsOf(a));
    Seqs.FilterAppend(mx, my, BookingViews.CountsApproved);
    BookingViews.SumAmountsAppend(Seqs.Filter(mx, BookingViews.CountsApproved), Seqs.Filter(my, BookingViews.CountsApproved));
  }
}

=== FILE: admin_users.dfy ===
/**
 * The admin login page and its registered-users panel (js/admin.js): the fixed
 * credential check, the user search, deleting a user, and the users CSV.
 */
module AdminUsers {
  import opened Wrappers
  import opened JsValues
  import Text
  import Seqs
  import Csv
  import Auth

  const AdminUsername: string := "admin"
  const AdminPassword: string := "admin123"
  /** Declared next to the other two but never compared with anything. */
  const AdminContact: string := "0771493387"

  datatype AdminLoginResult = FieldsMissing | BadCredentials | Admitted

  /** `handleAdminLogin`: the user name and contact are trimmed, the password is taken as typed. */
  function AdminLogin(username: string, password: string, contact: string): (r: AdminLoginResult)
    ensures r == FieldsMissing <==> Text.Trim(username) == "" || password == "" || Text.Trim(contact) == ""
    ensures r == Admitted <==> Text.Trim(username) == AdminUsername && password == AdminPassword && Text.Trim(contact) != ""
  {
    var u := Text.Trim(username);
    var c := Text.Trim(contact);
    if u == "" || password == "" || c == "" then FieldsMissing
    else if u == AdminUsername && password == AdminPassword then Admitted
    else BadCredentials
  }

  /** Any non-blank contact gives the same answer: the contact number is required but never checked. */
  lemma ContactNeverChecked(username: string, password: string, c1: string, c2: string)
    requires Text.Trim(c1) != "" && Text.Trim(c2) != ""
    ensures AdminLogin(username, password, c1) == AdminLogin(username, password, c2)
  {
  }

  /**
   * `(v && v.toLowerCase().includes(needle))` for one property: a falsy value
   * does not match, a string is searched, and any other truthy value throws
   * (it has no `toLowerCase`).
   */
  function FieldHit(v: Value, needle: string): (r: Option<bool>)
    ensures r.None? <==> Truthy(v) && !v.Str?
    ensures r == Some(true) <==> v.Str? && v.s != "" && Text.Includes(Text.Lower(v.s), needle)
  {
    if !Truthy(v) then Some(false)
    else if v.Str? then Some(Text.Includes(Text.Lower(v.s), needle))
    else None
  }

  /** The search callback: name, then email, then contact number, stopping at the first match. */
  function UserHit(u: Auth.User, needle: string): Option<bool> {
    match FieldHit(u.name, needle)
    case None => None
    case Some(true) => Some(true)
    case Some(false) =>
      match FieldHit(u.email, needle)
      case None => None
      case Some(true) => Some(true)
      case Some(false) => FieldHit(u.contactNumber, needle)
  }

  /** The property itself holds a non-empty string containing the needle. */
  predicate Mentions(v: Value, needle: string) {
    v.Str? && v.s != "" && Text.Includes(Text.Lower(v.s), needle)
  }

  /** What the search is meant to keep: users whose name, email or contact number contains the term. */
  predicate MentionsTerm(u: Auth.User, needle: string) {
    Mentions(u.name, needle) || Mentions(u.email, needle) || Mentions(u.contactNumber, needle)
  }

  /** When the callback does not throw, it answers exactly whether the user mentions the term. */
  lemma UserHitMeansMentions(u: Auth.User, needle: string)
    requires UserHit(u, needle).Some?
    ensures UserHit(u, needle) == Some(MentionsTerm(u, needle))
  {
  }

  /** The callback as a filter predicate. */
  function Hit(needle: string): Auth.User -> bool {
    (u: Auth.User) => UserHit(u, needle) == Some(true)
  }

  /** `MentionsTerm` as a predicate on users. */
  function Mentioning(needle: string): Auth.User -> bool {
    (u: Auth.User) => MentionsTerm(u, needle)
  }

  /** Every user can be searched without the callback throwing. */
  predicate AllSearchable(users: seq<Auth.User>, needle: string) {
    forall j :: 0 <= j < |users| ==> UserHit(users[j], needle).Some?
  }

  /**
   * `renderUserList(searchTerm)`: an empty term lists everyone; otherwise the
   * users whose callback answers true, in stored order. `None` is the render
   * aborted by a throwing callback.
   */
  function SearchUsers(users: seq<Auth.User>, term: string): (r: Option<seq<Auth.User>>)
    ensures term == "" ==> r == Some(users)
    ensures term != "" ==> (r.Some? <==> AllSearchable(users, Text.Lower(term)))
    ensures r.Some? ==> Seqs.IsSubsequence(r.value, users)
    ensures r.Some? && term != "" ==>
      forall u :: u in r.value <==> u in users && MentionsTerm(u, Text.Lower(term))
    ensures r.Some? && term != "" ==> Seqs.KeepsCounts(r.value, users, Mentioning(Text.Lower(term)))
  {
    if term == "" then
      assert Seqs.Filter(users, (u: Auth.User) => true) == users by {
        Seqs.FilterAll(users, (u: Auth.User) => true);
      }
      Seqs.FilterIsSubsequence(users, (u: Auth.User) => true);
      Some(users)
    else
      var needle := Text.Lower(term);
      if AllSearchable(users, needle) then
        SearchKeepsMentions(users, needle);
        Seqs.FilterIsSubsequence(users, Hit(needle));
        Some(Seqs.Filter(users, Hit(needle)))
      else None
  }

  /** Over searchable users, the filter keeps exactly the users that mention the term. */
  lemma SearchKeepsMentions(users: seq<Auth.User>, needle: string)
    requires AllSearchable(users, needle)
    ensures forall u :: u in Seqs.Filter(users, Hit(needle)) <==> u in users && MentionsTerm(u, needle)
    ensures Seqs.KeepsCounts(Seqs.Filter(users, Hit(needle)), users, Mentioning(needle))
  {
    forall u | u in users
      ensures Hit(needle)(u) <==> MentionsTerm(u, needle)
    {
      var j :| 0 <= j < |users| && users[j] == u;
      UserHitMeansMentions(u, needle);
    }
    Seqs.FilterMultiset(users, Hit(needle));
    forall u
      ensures multiset(Seqs.Filter(users, Hit(needle)))[u] == if MentionsTerm(u, needle) then multiset(users)[u] else 0
    {
      if u !in users {
        assert u !in Seqs.Filter(users, Hit(needle));
      }
    }
  }

  /** `deleteUser(idx)`: `splice(idx, 1)` on the stored list. */
  function DeleteUser(stored: seq<Auth.User>, idx: int): (r: seq<Auth.User>)
    ensures 0 <= idx < |stored| ==> |r| == |stored| - 1 && r == stored[..idx] + stored[idx + 1..]
    ensures idx >= |stored| ==> r == stored
  {
    Seqs.Splice1(stored, idx)
  }

  /**
   * Clicking the delete button of the `shown`-th listed user, as written: the
   * button carries the position in the listed (searched) users, and that
   * position is spliced out of the unsearched stored list.
   */
  function DeleteListedAsWritten(stored: seq<Auth.User>, term: string, shown: nat): (r: seq<Auth.User>)
    requires SearchUsers(stored, term).Some? && shown < |SearchUsers(stored, term).value|
    ensures shown < |stored| && r == Seqs.RemoveAt(stored, shown)
  {
    Seqs.FilterIsSubsequence(stored, Hit(Text.Lower(term)));
    DeleteUser(stored, shown)
  }

  /** The stored position of the user listed at position `shown`. */
  function StoredPosition(stored: seq<Auth.User>, term: string, shown: nat): (k: nat)
    requires SearchUsers(stored, term).Some? && shown < |SearchUsers(stored, term).value|
    ensures k < |stored| && stored[k] == SearchUsers(stored, term).value[shown]
  {
    if term == "" then shown else Seqs.NthIndex(stored, Hit(Text.Lower(term)), shown)
  }

  /** Clicking the delete button of the `shown`-th listed user removes that user from the stored list. */
  function DeleteListed(stored: seq<Auth.User>, term: string, shown: nat): (r: seq<Auth.User>)
    requires SearchUsers(stored, term).Some? && shown < |SearchUsers(stored, term).value|
    ensures var k := StoredPosition(stored, term, shown);
      && stored[k] == SearchUsers(stored, term).value[shown]
      && r == Seqs.RemoveAt(stored, k)
  {
    DeleteUser(stored, StoredPosition(stored, term, shown))
  }

  /** With no search term the listed and stored positions coincide, so the two deletions agree. */
  lemma UnsearchedDeletesAgree(stored: seq<Auth.User>, shown: nat)
    requires shown < |stored|
    ensures DeleteListed(stored, "", shown) == DeleteListedAsWritten(stored, "", shown)
  {
  }

  const Alice: Auth.User := Auth.User(Str("Alice"), Str("a@x.io"), Str("1"), Str("Secret12"))
  const Bob: Auth.User := Auth.User(Str("Bob"), Str("b@x.io"), Str("2"), Str("Secret12"))

  /** Searching Alice and Bob for "bob" lists only Bob. */
  lemma SearchForBob()
    ensures SearchUsers([Alice, Bob], "bob") == Some([Bob])
  {
    var needle := Text.Lower("bob");
    assert needle == "bob";
    assert Text.Lower("Alice") == "alice" && Text.Lower("a@x.io") == "a@x.io" && Text.Lower("1") == "1";
    Text.MissingFirstChar("alice", needle);
    Text.MissingFirstChar("a@x.io", needle);
    Text.MissingFirstChar("1", needle);
    assert Text.Lower("Bob") == "bob" && Text.OccursAt("bob", needle, 0);
    assert !Hit(needle)(Alice) && Hit(needle)(Bob);
    assert AllSearchable([Alice, Bob], needle);
    assert Seqs.Filter([Bob], Hit(needle)) == [Bob] by {
      assert [Bob][1..] == [];
    }
    assert Seqs.Filter([Alice, Bob], Hit(needle)) == [Bob] by {
      assert [Alice, Bob][1..] == [Bob];
    }
  }

  /**
   * With Bob listed alone at position 0, the written handler deletes Alice
   * (stored position 0) while the corrected one deletes Bob.
   */
  lemma WrongUserDeleted()
    ensures SearchUsers([Alice, Bob], "bob") == Some([Bob])
    ensures DeleteListedAsWritten([Alice, Bob], "bob", 0) == [Bob]
    ensures DeleteListed([Alice, Bob], "bob", 0) == [Alice]
  {
    SearchForBob();
    assert Seqs.RemoveAt([Alice, Bob], 0) == [Bob];
    assert Seqs.RemoveAt([Alice, Bob], 1) == [Alice];
  }

  const UsersHeader: seq<string> := ["Name", "Email", "Contact Number"]

  /** `[u.name, u.email, u.contactNumber]`, each `|| ''`. */
  function UserRow(u: Auth.User): (row: seq<string>)
    ensures |row| == |UsersHeader|
    ensures ShownAs(u.name, row[0]) && ShownAs(u.email, row[1]) && ShownAs(u.contactNumber, row[2])
  {
    [TextOr(u.name), TextOr(u.email), TextOr(u.contactNumber)]
  }

  function UserRows(users: seq<Auth.User>): (rows: seq<seq<string>>)
    ensures |rows| == |users|
    ensures forall i :: 0 <= i < |users| ==> rows[i] == UserRow(users[i])
  {
    seq(|users|, i requires 0 <= i < |users| => UserRow(users[i]))
  }

  /** `exportUsersAsCSV()`: `None` is the "No users to export." alert. */
  function ExportUsers(users: seq<Auth.User>): (r: Option<string>)
    ensures r.None? <==> users == []
    ensures r.Some? ==> Csv.HeaderLine(UsersHeader) <= r.value
  {
    if users == [] then None
    else Some(Csv.HeaderLine(UsersHeader) + Csv.QuotedLines(UserRows(users)))
  }

  /**
   * The users export reads back as one line per user, in stored order: name,
   * email and contact number, each `|| ''` (provided no value contains a double
   * quote, which the handler does not escape).
   */
  lemma ExportUsersReadBack(users: seq<Auth.User>)
    requires users != []
    requires Csv.RowsQuoteFree(UserRows(users))
    ensures var rows := UserRows(users);
      && Csv.ParseLines(ExportUsers(users).value[|Csv.HeaderLine(UsersHeader)|..]) == Some(rows)
      && forall i :: 0 <= i < |users| ==>
           rows[i] == [TextOr(users[i].name), TextOr(users[i].email), TextOr(users[i].contactNumber)]
  {
    var rows := UserRows(users);
    Csv.LinesRoundTrip(rows);
    assert ExportUsers(users).value[|Csv.HeaderLine(UsersHeader)|..] == Csv.QuotedLines(rows);
  }
}

=== FILE: auth.dfy ===
/**
 * The sign-in page (js/auth.js): the password and e-mail rules, and what the
 * signup, login and forgot-password forms do to the `userLogins` list.
 * Validation runs first and aborts with no write; only then is storage read.
 */
module Auth {
  import opened Wrappers
  import opened JsValues
  import Text
  import Seqs

  /** An entry of `userLogins`. Entries written by signup carry exactly these four properties. */
  datatype User = User(name: Value, email: Value, contactNumber: Value, password: Value)

  predicate IsLowerAscii(c: char) { 'a' <= c <= 'z' }

  predicate IsUpperAscii(c: char) { 'A' <= c <= 'Z' }

  predicate IsAsciiAlnum(c: char) { IsLowerAscii(c) || IsUpperAscii(c) || Text.IsDigit(c) }

  /**
   * The language of `/^(?=.*[a-z])(?=.*[A-Z])(?=.*\d)[a-zA-Z\d]{8,}$/`: at least
   * eight ASCII letters and digits, among them a lowercase letter, an
   * uppercase letter and a digit.
   */
  predicate PasswordOk(s: string) {
    && |s| >= 8
    && (forall k :: 0 <= k < |s| ==> IsAsciiAlnum(s[k]))
    && (exists k :: 0 <= k < |s| && IsLowerAscii(s[k]))
    && (exists k :: 0 <= k < |s| && IsUpperAscii(s[k]))
    && (exists k :: 0 <= k < |s| && Text.IsDigit(s[k]))
  }

  /** `validatePassword(password)`, scanning the string once. */
  method CheckPassword(s: string) returns (ok: bool)
    ensures ok <==> PasswordOk(s)
  {
    var lower, upper, digit, alnum := false, false, false, true;
    var i := 0;
    while i < |s|
      invariant 0 <= i <= |s|
      invariant lower <==> exists k :: 0 <= k < i && IsLowerAscii(s[k])
      invariant upper <==> exists k :: 0 <= k < i && IsUpperAscii(s[k])
      invariant digit <==> exists k :: 0 <= k < i && Text.IsDigit(s[k])
      invariant alnum <==> forall k :: 0 <= k < i ==> IsAsciiAlnum(s[k])
    {
      var c := s[i];
      lower := lower || IsLowerAscii(c);
      upper := upper || IsUpperAscii(c);
      digit := digit || Text.IsDigit(c);
      alnum := alnum && IsAsciiAlnum(c);
      i := i + 1;
    }
    ok := |s| >= 8 && alnum && lower && upper && digit;
  }

  /** No character of `s` other than the one at `at` is an `@`. */
  predicate OnlyAt(s: string, at: int) {
    forall k :: 0 <= k < |s| && k != at ==> s[k] != '@'
  }

  /** Some `.` after position `at + 1` has at least one character on each side of it. */
  predicate DotAfter(s: string, at: int) {
    exists d :: 0 <= at + 1 < d < |s| - 1 && s[d] == '.'
  }

  /**
   * The language of `/^[^\s@]+@[^\s@]+\.[^\s@]+$/`: no whitespace, exactly one
   * `@` with text before it, and after it a `.` with text on both sides.
   */
  predicate EmailOk(s: string) {
    && (forall k :: 0 <= k < |s| ==> !Text.IsJsWhitespace(s[k]))
    && exists at :: 0 < at < |s| && s[at] == '@' && OnlyAt(s, at) && DotAfter(s, at)
  }

  /** `validateEmail(email)`: one pass to find the `@`s and whitespace, one to find the dot. */
  method CheckEmail(s: string) returns (ok: bool)
    ensures ok <==> EmailOk(s)
  {
    var at := -1;
    var second := false;
    var white := false;
    var i := 0;
    while i < |s|
      invariant 0 <= i <= |s|
      invariant white <==> exists k :: 0 <= k < i && Text.IsJsWhitespace(s[k])
      invariant at == -1 <==> forall k :: 0 <= k < i ==> s[k] != '@'
      invariant at != -1 ==> 0 <= at < i && s[at] == '@' && forall k :: 0 <= k < at ==> s[k] != '@'
      invariant at == -1 ==> !second
      invariant at != -1 ==> (second <==> exists k :: at < k < i && s[k] == '@')
    {
      if Text.IsJsWhitespace(s[i]) {
        white := true;
      }
      if s[i] == '@' {
        if at == -1 {
          at := i;
        } else {
          second := true;
        }
      }
      i := i + 1;
    }
    if white {
      return false;
    }
    if at <= 0 || second {
      return false;
    }
    assert OnlyAt(s, at);
    var d := at + 2;
    while d < |s| - 1
      invariant at + 2 <= d
      invariant forall e :: at + 1 < e < d && e < |s| ==> s[e] != '.'
    {
      if s[d] == '.' {
        assert DotAfter(s, at);
        return true;
      }
      d := d + 1;
    }
    assert !DotAfter(s, at);
    return false;
  }

  /** A valid address has text before its `@`, so `email.split('@')[0]` is never empty. */
  lemma LocalPartNonEmpty(e: string)
    requires EmailOk(e)
    ensures Text.BeforeFirst(e, '@') != ""
  {
    var at :| 0 < at < |e| && e[at] == '@' && OnlyAt(e, at) && DotAfter(e, at);
    assert e[0] != '@';
  }

  /** `value.trim().toLowerCase()`, how every form reads an e-mail address. */
  function NormalEmail(raw: string): string {
    Text.Lower(Text.Trim(raw))
  }

  /** No stored user has the address. */
  predicate EmailFree(users: seq<User>, email: string) {
    forall j :: 0 <= j < |users| ==> users[j].email != Str(email)
  }

  /** No two stored users share an address. */
  predicate UniqueEmails(users: seq<User>) {
    forall i, j :: 0 <= i < j < |users| ==> users[i].email != users[j].email
  }

  /** `u => u.email === email`. */
  function EmailIs(email: string): User -> bool {
    (u: User) => u.email == Str(email)
  }

  /** The first user with the address is at `idx`. */
  lemma FirstWithEmail(users: seq<User>, email: string, idx: nat)
    requires idx < |users| && users[idx].email == Str(email)
    requires forall j :: 0 <= j < idx ==> users[j].email != Str(email)
    ensures Seqs.FindIndex(users, EmailIs(email)) == Some(idx)
  {
    assert EmailIs(email)(users[idx]);
  }

  /** With unique addresses, the user holding an address is the first one holding it. */
  lemma UniqueFirst(users: seq<User>, email: string, idx: nat)
    requires UniqueEmails(users)
    requires idx < |users| && users[idx].email == Str(email)
    ensures Seqs.FindIndex(users, EmailIs(email)) == Some(idx)
  {
    FirstWithEmail(users, email, idx);
  }

  /** The signup form's fields as typed; `termsAgreed` is the checkbox. */
  datatype SignupInput = SignupInput(name: string, email: string, contactNumber: string,
                                     password: string, confirm: string, termsAgreed: bool)

  /** The checks of the signup handler, all of which must pass before storage is read. */
  predicate SignupValid(f: SignupInput) {
    && |Text.Trim(f.name)| >= 2
    && EmailOk(NormalEmail(f.email))
    && PasswordOk(f.password)
    && f.password == f.confirm
    && f.termsAgreed
  }

  datatype SignupResult = SignupInvalid | EmailTaken | SignedUp

  /** The stored users after a form submission, and how it ended. */
  datatype SignupOutcome = SignupOutcome(users: seq<User>, result: SignupResult)

  /** The signup handler. */
  function Signup(users: seq<User>, f: SignupInput): (r: SignupOutcome)
    ensures r.result != SignedUp ==> r.users == users
    ensures r.result == SignupInvalid <==> !SignupValid(f)
    ensures r.result == EmailTaken <==> SignupValid(f) && !EmailFree(users, NormalEmail(f.email))
    ensures r.result == SignedUp ==> r.users == users + [NewUser(f)]
  {
    if !SignupValid(f) then SignupOutcome(users, SignupInvalid)
    else if Seqs.FindIndex(users, EmailIs(NormalEmail(f.email))).Some? then SignupOutcome(users, EmailTaken)
    else SignupOutcome(users + [NewUser(f)], SignedUp)
  }

  /** The user record the signup handler stores: trimmed name and contact, normalised address, the password as typed. */
  function NewUser(f: SignupInput): (u: User)
    ensures u.email == Str(NormalEmail(f.email)) && u.password == Str(f.password)
    ensures u.name == Str(Text.Trim(f.name)) && u.contactNumber == Str(Text.Trim(f.contactNumber))
  {
    User(Str(Text.Trim(f.name)), Str(NormalEmail(f.email)), Str(Text.Trim(f.contactNumber)), Str(f.password))
  }

  /** Signup never creates a second account for an address. */
  lemma SignupKeepsEmailsUnique(users: seq<User>, f: SignupInput)
    requires UniqueEmails(users)
    ensures UniqueEmails(Signup(users, f).users)
  {
    var r := Signup(users, f);
    if r.result == SignedUp {
      forall i, j | 0 <= i < j < |r.users|
        ensures r.users[i].email != r.users[j].email
      {
        if j == |users| {
          assert r.users[i] == users[i];
        } else {
          assert r.users[i] == users[i] && r.users[j] == users[j];
        }
      }
    }
  }

  /**
   * How a login attempt ended. A successful one writes the `currentUser`
   * session record and, when "remember me" is ticked, the `userEmail` address.
   */
  datatype LoginResult =
    | LoginInvalid
    | NoAccount
    | WrongPassword
    | LoggedIn(currentUser: User, rememberedEmail: Option<string>)

  /**
   * The login handler. `contact` is the trimmed value of the page's optional
   * contact field, or `""` when the page has none.
   */
  function Login(users: seq<User>, email: string, password: string, rememberMe: bool, contact: string): (r: LoginResult)
    ensures r.LoginInvalid? <==> !(EmailOk(NormalEmail(email)) && PasswordOk(password))
    ensures r.NoAccount? <==> EmailOk(NormalEmail(email)) && PasswordOk(password) && EmailFree(users, NormalEmail(email))
    ensures r.LoggedIn? ==> && r.currentUser.email == Str(NormalEmail(email))
                            && r.currentUser.password == Str(password)
                            && Truthy(r.currentUser.name)
                            && r.rememberedEmail == (if rememberMe then Some(NormalEmail(email)) else None)
    ensures r.LoggedIn? ==>
      var e := NormalEmail(email);
      exists i :: 0 <= i < |users| && users[i].email == Str(e) && users[i].password == Str(password)
        && (forall j :: 0 <= j < i ==> users[j].email != Str(e))
        && r.currentUser.name == Or(users[i].name, Str(Text.BeforeFirst(e, '@')))
        && r.currentUser.contactNumber == Or(users[i].contactNumber, Str(contact))
  {
    var e := NormalEmail(email);
    if !(EmailOk(e) && PasswordOk(password)) then LoginInvalid
    else match Seqs.FindIndex(users, EmailIs(e))
      case None => NoAccount
      case Some(i) =>
        var u := users[i];
        if u.password != Str(password) then WrongPassword
        else
          LocalPartNonEmpty(e);
          LoggedIn(User(Or(u.name, Str(Text.BeforeFirst(e, '@'))), u.email, Or(u.contactNumber, Str(contact)), u.password),
                   if rememberMe then Some(e) else None)
  }

  /** Login succeeds when the first user with the address has the password typed. */
  lemma LoginFinds(users: seq<User>, email: string, password: string, rememberMe: bool, contact: string, idx: nat)
    requires EmailOk(NormalEmail(email)) && PasswordOk(password)
    requires Seqs.FindIndex(users, EmailIs(NormalEmail(email))) == Some(idx)
    requires idx < |users| && users[idx].password == Str(password)
    ensures Login(users, email, password, rememberMe, contact).LoggedIn?
  {
  }

  /** With unique addresses, login succeeds exactly when some user has the address and that password. */
  lemma LoginSucceedsIff(users: seq<User>, email: string, password: string, rememberMe: bool, contact: string)
    requires UniqueEmails(users)
    ensures Login(users, email, password, rememberMe, contact).LoggedIn? <==>
      && EmailOk(NormalEmail(email)) && PasswordOk(password)
      && exists i :: 0 <= i < |users| && users[i].email == Str(NormalEmail(email)) && users[i].password == Str(password)
  {
    var e := NormalEmail(email);
    if EmailOk(e) && PasswordOk(password) {
      if i :| 0 <= i < |users| && users[i].email == Str(e) && users[i].password == Str(password) {
        UniqueFirst(users, e, i);
        LoginFinds(users, email, password, rememberMe, contact, i);
      }
    }
  }

  /** An account just created can log in with the address and password it was created with. */
  lemma SignupThenLogin(users: seq<User>, f: SignupInput, rememberMe: bool, contact: string)
    requires Signup(users, f).result == SignedUp
    ensures Login(Signup(users, f).users, f.email, f.password, rememberMe, contact).LoggedIn?
  {
    LoginAfterAppend(users, NewUser(f), f.email, f.password, rememberMe, contact);
  }

  /** A user appended with an address no one else holds can log in with it and their password. */
  lemma LoginAfterAppend(users: seq<User>, user: User, email: string, password: string, rememberMe: bool, contact: string)
    requires EmailOk(NormalEmail(email)) && PasswordOk(password) && EmailFree(users, NormalEmail(email))
    requires user.email == Str(NormalEmail(email)) && user.password == Str(password)
    ensures Login(users + [user], email, password, rememberMe, contact).LoggedIn?
  {
    var all := users + [user];
    FirstWithEmail(all, NormalEmail(email), |users|);
    LoginFinds(all, email, password, rememberMe, contact, |users|);
  }

  datatype ResetResult = ResetInvalid | ResetNoAccount | ResetDone

  /** The stored users after a forgot-password submission, and how it ended. */
  datatype ResetOutcome = ResetOutcome(users: seq<User>, result: ResetResult)

  /** The forgot-password handler: the first user with the address gets the new password. */
  function ResetPassword(users: seq<User>, email: string, newPassword: string, confirm: string): (r: ResetOutcome)
    ensures r.result != ResetDone ==> r.users == users
    ensures r.result == ResetInvalid <==> !(EmailOk(NormalEmail(email)) && PasswordOk(newPassword) && newPassword == confirm)
    ensures r.result == ResetNoAccount <==>
      EmailOk(NormalEmail(email)) && PasswordOk(newPassword) && newPassword == confirm && EmailFree(users, NormalEmail(email))
    ensures |r.users| == |users|
    ensures forall j :: 0 <= j < |users| ==>
      && r.users[j].name == users[j].name && r.users[j].email == users[j].email
      && r.users[j].contactNumber == users[j].contactNumber
  {
    var e := NormalEmail(email);
    if !(EmailOk(e) && PasswordOk(newPassword) && newPassword == confirm) then ResetOutcome(users, ResetInvalid)
    else match Seqs.FindIndex(users, EmailIs(e))
      case None => ResetOutcome(users, ResetNoAccount)
      case Some(i) => ResetOutcome(WithPassword(users, i, newPassword), ResetDone)
  }

  /** `users[i].password = newPassword`: one user's password changes, every other field and user stays. */
  function WithPassword(users: seq<User>, i: nat, newPassword: string): (r: seq<User>)
    requires i < |users|
    ensures |r| == |users| && r[i].password == Str(newPassword)
    ensures forall j :: 0 <= j < |users| ==>
      && r[j].name == users[j].name && r[j].email == users[j].email
      && r[j].contactNumber == users[j].contactNumber
    ensures forall j :: 0 <= j < |users| && j != i ==> r[j] == users[j]
  {
    users[i := users[i].(password := Str(newPassword))]
  }

  /** A reset changes the password of the first user with the address and nothing else. */
  lemma ResetChangesFirstOnly(users: seq<User>, email: string, newPassword: string, idx: nat)
    requires EmailOk(NormalEmail(email)) && PasswordOk(newPassword)
    requires idx < |users| && users[idx].email == Str(NormalEmail(email))
    requires forall j :: 0 <= j < idx ==> users[j].email != Str(NormalEmail(email))
    ensures var r := ResetPassword(users, email, newPassword, newPassword);
      && r.result == ResetDone
      && r.users[idx].password == Str(newPassword)
      && forall j :: 0 <= j < |users| && j != idx ==> r.users[j] == users[j]
  {
    FirstWithEmail(users, NormalEmail(email), idx);
  }

  /** After a reset, login with the address and the new password succeeds. */
  lemma ResetThenLogin(users: seq<User>, email: string, newPassword: string, confirm: string, rememberMe: bool, contact: string)
    requires ResetPassword(users, email, newPassword, confirm).result == ResetDone
    ensures Login(ResetPassword(users, email, newPassword, confirm).users, email, newPassword, rememberMe, contact).LoggedIn?
  {
    var e := NormalEmail(email);
    var i := Seqs.FindIndex(users, EmailIs(e)).value;
    var r := ResetPassword(users, email, newPassword, confirm).users;
    FirstWithEmail(r, e, i);
    LoginFinds(r, email, newPassword, rememberMe, contact, i);
  }

  /** A reset keeps every address, so unique addresses stay unique. */
  lemma ResetKeepsEmailsUnique(users: seq<User>, email: string, newPassword: string, confirm: string)
    requires UniqueEmails(users)
    ensures UniqueEmails(ResetPassword(users, email, newPassword, confirm).users)
  {
  }

  /** The three panels of the sign-in page. */
  datatype AuthForm = LoginForm | SignupForm | ForgotForm

  /** `formFromHash()`: the first `#` is dropped and the rest lower-cased before comparing. */
  function FormFromHash(hash: string): (r: AuthForm)
    ensures r == SignupForm <==> Text.Lower(Text.RemoveFirst(hash, '#')) == "signup"
    ensures r == ForgotForm <==> Text.Lower(Text.RemoveFirst(hash, '#')) == "forgot"
  {
    var h := Text.Lower(Text.RemoveFirst(hash, '#'));
    if h == "signup" then SignupForm
    else if h == "forgot" then ForgotForm
    else LoginForm
  }

  /** The leading `#` is optional: a hash without any `#` selects the same panel with or without it. */
  lemma HashSignOptional(w: string)
    requires '#' !in w
    ensures FormFromHash("#" + w) == FormFromHash(w)
  {
    assert ("#" + w)[0] == '#';
    assert Text.RemoveFirst("#" + w, '#') == w by {
      assert Text.IndexOfChar("#" + w, '#') == Some(0);
    }
  }

  /** Letter case does not matter once the `#` is gone. */
  lemma HashIgnoresCase()
    ensures FormFromHash("#SignUp") == SignupForm
  {
    assert Text.IndexOfChar("#SignUp", '#') == Some(0);
    assert Text.Lower("SignUp") == "signup";
  }

  /** Only the first `#` is dropped, so a doubled one selects no panel and the login panel opens. */
  lemma DoubleHashOpensLogin()
    ensures FormFromHash("##signup") == LoginForm
  {
    assert Text.IndexOfChar("##signup", '#') == Some(0);
    assert Text.Lower("#signup")[0] == '#';
  }
}

=== FILE: base64.dfy ===
/**
 * The browser's `btoa` and `atob`: base64 with the standard alphabet and `=`
 * padding of section 4 of RFC 4648, applied to strings whose characters are
 * byte values. `btoa` fails on a character above U+00FF; `atob` is the
 * forgiving-base64 decode of the HTML standard (ASCII whitespace ignored,
 * padding optional, leftover bits discarded).
 */
module Base64 {
  import opened Wrappers
  import Seqs

  /** The value (0..63) a character of the base64 alphabet stands for, or -1 for any other character. */
  function SextetOf(c: char): int {
    if 'A' <= c <= 'Z' then c as int - 'A' as int
    else if 'a' <= c <= 'z' then c as int - 'a' as int + 26
    else if '0' <= c <= '9' then c as int - '0' as int + 52
    else if c == '+' then 62
    else if c == '/' then 63
    else -1
  }

  predicate IsBase64Char(c: char) {
    SextetOf(c) >= 0
  }

  predicate AllBase64(t: string) {
    forall i :: 0 <= i < |t| ==> IsBase64Char(t[i])
  }

  /** The alphabet character for a six-bit value; it is the one `SextetOf` maps back to that value. */
  function CharOf(x: int): (c: char)
    requires 0 <= x < 64
    ensures SextetOf(c) == x
  {
    if x < 26 then ('A' as int + x) as char
    else if x < 52 then ('a' as int + x - 26) as char
    else if x < 62 then ('0' as int + x - 52) as char
    else if x == 62 then '+'
    else '/'
  }

  /** Every character is a byte value, as `btoa` demands. */
  predicate IsLatin1(s: string) {
    forall i :: 0 <= i < |s| ==> s[i] as int < 256
  }

  /** The four characters for the three bytes `a`, `b`, `c`: their 24 bits cut into four sextets. */
  function EncodeGroup(a: int, b: int, c: int): (g: string)
    requires 0 <= a < 256 && 0 <= b < 256 && 0 <= c < 256
    ensures |g| == 4 && AllBase64(g)
  {
    [CharOf(a / 4), CharOf((a % 4) * 16 + b / 16), CharOf((b % 16) * 4 + c / 64), CharOf(c % 64)]
  }

  /** The characters a tail of `n` (0, 1 or 2) bytes encodes to. */
  function TailLength(n: nat): nat {
    if n == 0 then 0 else n + 1
  }

  /** The number of characters `n` bytes encode to, before padding: four per full group of three. */
  function EncodedLength(n: nat): nat {
    if n >= 3 then 4 + EncodedLength(n - 3) else TailLength(n)
  }

  /** The encoded length modulo four is fixed by the number of bytes modulo three. */
  lemma {:induction false} EncodedLengthMod4(n: nat)
    ensures EncodedLength(n) % 4 == TailLength(n % 3)
    ensures EncodedLength(n) == 0 <==> n == 0
  {
    if n >= 3 {
      EncodedLengthMod4(n - 3);
      ShiftMod(n - 3, 3);
      ShiftMod(EncodedLength(n - 3), 4);
    }
  }

  /** Adding the modulus leaves the remainder as it is. */
  lemma ShiftMod(m: nat, d: nat)
    requires d == 3 || d == 4
    ensures (m + d) % d == m % d
  {
  }

  /** The base64 characters for `s`, before padding: four per three bytes, two or three for a tail. */
  function EncodeUnpadded(s: string): (r: string)
    requires IsLatin1(s)
    ensures AllBase64(r)
    ensures |r| == EncodedLength(|s|)
    decreases |s|
  {
    if |s| >= 3 then EncodeGroup(s[0] as int, s[1] as int, s[2] as int) + EncodeUnpadded(s[3..])
    else if |s| == 2 then EncodeGroup(s[0] as int, s[1] as int, 0)[..3]
    else if |s| == 1 then EncodeGroup(s[0] as int, 0, 0)[..2]
    else []
  }

  /** The length of the encoding modulo four follows the number of bytes modulo three. */
  lemma EncodedLengthMod(s: string)
    requires IsLatin1(s)
    ensures |s| % 3 == 0 <==> |EncodeUnpadded(s)| % 4 == 0
    ensures |s| % 3 == 1 <==> |EncodeUnpadded(s)| % 4 == 2
    ensures |s| % 3 == 2 <==> |EncodeUnpadded(s)| % 4 == 3
    ensures |s| == 0 <==> |EncodeUnpadded(s)| == 0
    ensures |EncodeUnpadded(s)| % 4 != 1
  {
    EncodedLengthMod4(|s|);
  }

  /** The `=` characters that bring an encoding of `n` bytes to a multiple of four characters. */
  function Padding(n: nat): string {
    if n % 3 == 1 then "==" else if n % 3 == 2 then "=" else ""
  }

  /** Adding what a length lacks of a multiple of four reaches one. */
  lemma CompleteToFour(n: nat, k: nat)
    requires (n % 4 == 0 && k == 0) || n % 4 + k == 4
    ensures (n + k) % 4 == 0
  {
  }

  /** The padding completes the last group: the padded encoding is a whole number of groups of four. */
  lemma PaddedLength(s: string)
    requires IsLatin1(s)
    ensures (|EncodeUnpadded(s)| + |Padding(|s|)|) % 4 == 0
  {
    EncodedLengthMod(s);
    var n := |EncodeUnpadded(s)|;
    var k := |Padding(|s|)|;
    assert (n % 4 == 0 && k == 0) || n % 4 + k == 4;
    CompleteToFour(n, k);
  }

  /** `btoa(s)`: the padded encoding, or failure (an `InvalidCharacterError`) for a character above U+00FF. */
  function Btoa(s: string): (r: Option<string>)
    ensures r.Some? <==> IsLatin1(s)
    ensures r.Some? ==> |r.value| % 4 == 0
  {
    if IsLatin1(s) then
      PaddedLength(s);
      Some(EncodeUnpadded(s) + Padding(|s|))
    else None
  }

  /** The three bytes four sextets stand for. */
  function DecodeGroup(w: int, x: int, y: int, z: int): (r: string)
    requires 0 <= w < 64 && 0 <= x < 64 && 0 <= y < 64 && 0 <= z < 64
    ensures |r| == 3 && IsLatin1(r)
  {
    [(w * 4 + x / 16) as char, ((x % 16) * 16 + y / 4) as char, ((y % 4) * 64 + z) as char]
  }

  /** The bytes a run of alphabet characters stands for, discarding the bits of an incomplete byte. */
  function DecodeSextets(t: string): (r: string)
    requires AllBase64(t) && |t| % 4 != 1
    ensures IsLatin1(r)
    decreases |t|
  {
    if |t| >= 4 then DecodeGroup(SextetOf(t[0]), SextetOf(t[1]), SextetOf(t[2]), SextetOf(t[3])) + DecodeSextets(t[4..])
    else if |t| == 3 then DecodeGroup(SextetOf(t[0]), SextetOf(t[1]), SextetOf(t[2]), 0)[..2]
    else if |t| == 2 then DecodeGroup(SextetOf(t[0]), SextetOf(t[1]), 0, 0)[..1]
    else []
  }

  /** The ASCII whitespace the forgiving decoder skips: tab, line feed, form feed, carriage return, space. */
  predicate IsAsciiWhitespace(c: char) {
    c == '\t' || c == '\n' || c as int == 0x0C || c == '\r' || c == ' '
  }

  predicate Kept(c: char) {
    !IsAsciiWhitespace(c)
  }

  /** The input with its ASCII whitespace removed. */
  function RemoveWhitespace(s: string): string {
    Seqs.Filter(s, Kept)
  }

  /** Drops one or two trailing `=` when the length is a multiple of four. */
  function StripPadding(t: string): string {
    if |t| % 4 == 0 && |t| >= 2 && t[|t| - 2..] == "==" then t[..|t| - 2]
    else if |t| % 4 == 0 && |t| >= 1 && t[|t| - 1] == '=' then t[..|t| - 1]
    else t
  }

  /**
   * `atob(s)`: strip ASCII whitespace and padding; fail (an `InvalidCharacterError`)
   * when the length leaves a remainder of one modulo four or a character is
   * outside the alphabet; otherwise decode.
   */
  function Atob(s: string): (r: Option<string>)
    ensures r.Some? ==> IsLatin1(r.value)
  {
    var t := StripPadding(RemoveWhitespace(s));
    if |t| % 4 == 1 || !AllBase64(t) then None
    else Some(DecodeSextets(t))
  }

  /** Division by 16 undoes `q * 16 + r` for a remainder below 16. */
  lemma Split16(q: int, r: int)
    requires 0 <= q && 0 <= r < 16
    ensures (q * 16 + r) / 16 == q && (q * 16 + r) % 16 == r
  {
  }

  /** Division by 4 undoes `q * 4 + r` for a remainder below 4. */
  lemma Split4(q: int, r: int)
    requires 0 <= q && 0 <= r < 4
    ensures (q * 4 + r) / 4 == q && (q * 4 + r) % 4 == r
  {
  }

  /** Decoding the four sextets `EncodeGroup` cuts three bytes into gives the bytes back. */
  lemma DecodeCut(a: int, b: int, c: int)
    requires 0 <= a < 256 && 0 <= b < 256 && 0 <= c < 256
    ensures DecodeGroup(a / 4, (a % 4) * 16 + b / 16, (b % 16) * 4 + c / 64, c % 64) == [a as char, b as char, c as char]
  {
    var x := (a % 4) * 16 + b / 16;
    Split16(a % 4, b / 16);
    var y := (b % 16) * 4 + c / 64;
    Split4(b % 16, c / 64);
    assert (a / 4) * 4 + x / 16 == a;
    assert (x % 16) * 16 + y / 4 == b;
    assert (y % 4) * 64 + c % 64 == c;
  }

  /** Three bytes survive a trip through four sextets. */
  lemma GroupRoundTrip(a: int, b: int, c: int)
    requires 0 <= a < 256 && 0 <= b < 256 && 0 <= c < 256
    ensures var g := EncodeGroup(a, b, c);
      DecodeGroup(SextetOf(g[0]), SextetOf(g[1]), SextetOf(g[2]), SextetOf(g[3])) == [a as char, b as char, c as char]
  {
    var g := EncodeGroup(a, b, c);
    assert SextetOf(g[0]) == a / 4 && SextetOf(g[1]) == (a % 4) * 16 + b / 16;
    assert SextetOf(g[2]) == (b % 16) * 4 + c / 64 && SextetOf(g[3]) == c % 64;
    DecodeCut(a, b, c);
  }

  /** Decoding a full group followed by more characters decodes the group, then the rest. */
  lemma DecodeGroupThen(g: string, t: string)
    requires |g| == 4 && AllBase64(g) && AllBase64(t) && |t| % 4 != 1
    ensures DecodeSextets(g + t)
            == DecodeGroup(SextetOf(g[0]), SextetOf(g[1]), SextetOf(g[2]), SextetOf(g[3])) + DecodeSextets(t)
  {
    assert (g + t)[4..] == t;
  }

  /** A full group: decoding its four characters and then the rest gives the three bytes and then the rest. */
  lemma DecodeEncodeStep(s: string)
    requires IsLatin1(s) && |s| >= 3
    requires (EncodedLengthMod(s[3..]); DecodeSextets(EncodeUnpadded(s[3..])) == s[3..])
    ensures (EncodedLengthMod(s); DecodeSextets(EncodeUnpadded(s)) == s)
  {
    var g := EncodeGroup(s[0] as int, s[1] as int, s[2] as int);
    var t := EncodeUnpadded(s[3..]);
    EncodedLengthMod(s[3..]);
    assert EncodeUnpadded(s) == g + t;
    DecodeGroupThen(g, t);
    CharsRoundTrip(s[0], s[1], s[2]);
    HeadThree(s);
  }

  lemma HeadThree(s: string)
    requires |s| >= 3
    ensures s == [s[0], s[1], s[2]] + s[3..]
  {
  }

  /** Three byte characters survive a trip through four sextets. */
  lemma CharsRoundTrip(x: char, y: char, z: char)
    requires x as int < 256 && y as int < 256 && z as int < 256
    ensures var g := EncodeGroup(x as int, y as int, z as int);
      DecodeGroup(SextetOf(g[0]), SextetOf(g[1]), SextetOf(g[2]), SextetOf(g[3])) == [x, y, z]
  {
    GroupRoundTrip(x as int, y as int, z as int);
  }

  /** A tail of one or two bytes: its two or three characters decode back to it. */
  lemma DecodeEncodeTail(s: string)
    requires IsLatin1(s) && 1 <= |s| <= 2
    ensures (EncodedLengthMod(s); DecodeSextets(EncodeUnpadded(s)) == s)
  {
    if |s| == 2 {
      GroupRoundTrip(s[0] as int, s[1] as int, 0);
    } else {
      GroupRoundTrip(s[0] as int, 0, 0);
    }
  }

  /** Decoding the unpadded characters gives back the bytes that were encoded. */
  lemma {:induction false} DecodeEncode(s: string)
    requires IsLatin1(s)
    ensures (EncodedLengthMod(s); DecodeSextets(EncodeUnpadded(s)) == s)
    decreases |s|
  {
    if |s| >= 3 {
      DecodeEncode(s[3..]);
      DecodeEncodeStep(s);
    } else if |s| > 0 {
      DecodeEncodeTail(s);
    }
  }

  /** The padded encoding contains no ASCII whitespace. */
  lemma NoWhitespaceInEncoding(s: string)
    requires IsLatin1(s)
    ensures RemoveWhitespace(Btoa(s).value) == Btoa(s).value
  {
    var u := EncodeUnpadded(s);
    var e := Btoa(s).value;
    assert e == u + Padding(|s|);
    forall i | 0 <= i < |e|
      ensures Kept(e[i])
    {
      if i < |u| {
        assert IsBase64Char(u[i]);
      }
    }
    Seqs.FilterAll(e, Kept);
  }

  /** Alphabet characters whose length is a multiple of four carry no padding to strip. */
  lemma StripUnpadded(u: string)
    requires AllBase64(u) && |u| % 4 == 0
    ensures StripPadding(u) == u
  {
    if u != [] {
      assert IsBase64Char(u[|u| - 1]);
    }
  }

  /** Two `=` after alphabet characters two short of a group are both stripped. */
  lemma StripTwo(u: string)
    requires |u| % 4 == 2
    ensures StripPadding(u + "==") == u
  {
    var e := u + "==";
    assert e[|e| - 2..] == "==";
    assert e[..|e| - 2] == u;
  }

  /** One `=` after alphabet characters one short of a group is stripped. */
  lemma StripOne(u: string)
    requires AllBase64(u) && |u| % 4 == 3
    ensures StripPadding(u + "=") == u
  {
    var e := u + "=";
    assert IsBase64Char(u[|u| - 1]);
    assert e[|e| - 2] == u[|u| - 1];
    assert e[..|e| - 1] == u;
  }

  /** Stripping the padding of an encoding leaves exactly the unpadded characters. */
  lemma StripEncoded(s: string)
    requires IsLatin1(s)
    ensures StripPadding(Btoa(s).value) == EncodeUnpadded(s)
  {
    var u := EncodeUnpadded(s);
    EncodedLengthMod(s);
    assert Btoa(s).value == u + Padding(|s|);
    if |s| % 3 == 0 {
      assert u + Padding(|s|) == u;
      StripUnpadded(u);
    } else if |s| % 3 == 1 {
      StripTwo(u);
    } else {
      StripOne(u);
    }
  }

  /**
   * `atob(btoa(s)) == s` for every string `btoa` accepts: the encode/decode
   * round trip of section 4 of RFC 4648.
   */
  lemma AtobBtoa(s: string)
    requires IsLatin1(s)
    ensures Atob(Btoa(s).value) == Some(s)
  {
    NoWhitespaceInEncoding(s);
    StripEncoded(s);
    EncodedLengthMod(s);
    DecodeEncode(s);
    var u := EncodeUnpadded(s);
    var t := StripPadding(RemoveWhitespace(Btoa(s).value));
    assert t == u;
    assert !(|t| % 4 == 1 || !AllBase64(t));
  }
}

=== FILE: booking_api.dfy ===
/**
 * The client pages' booking API (js/booking-api.js): `saveBookingClientSide`
 * hands the booking to the dashboard's `saveBookingToAdmin` when that is loaded
 * in the same window, and otherwise performs the same upsert on the stored
 * bookings itself, without an audit entry. Its private `normalizeBooking` and
 * `generateBookingId` have the same text as the dashboard's, so the shared
 * `BookingLedger.Upsert` models the local path.
 */
module BookingApi {
  import opened Wrappers
  import opened JsValues
  import Seqs
  import BookingLedger
  import BookingViews
  import Dashboard

  /**
   * `saveBookingClientSide(booking, options)`. `adminLoaded` says whether
   * `window.saveBookingToAdmin` is a function in this window, and `filters` are
   * that dashboard's filters; when its save throws, so does this call, and no
   * identifier is returned.
   */
  function SaveBookingClientSide(ledger: BookingLedger.Ledger, booking: Record, options: BookingLedger.SaveOptions,
                                 adminLoaded: bool, filters: BookingViews.Filters, stamp: string,
                                 token: BookingLedger.BookingToken, dupToken: BookingLedger.BookingToken): (r: Dashboard.Outcome)
    requires AllClean(ledger.bookings)
    ensures adminLoaded ==> r == Dashboard.SaveBookingToAdmin(ledger, booking, options, filters, stamp, token, dupToken)
    ensures !adminLoaded ==> r.ledger.auditLog == ledger.auditLog && r.returned.Some?
    ensures var u := BookingLedger.Upsert(ledger.bookings, booking, options.overwriteIfSameId, token, dupToken);
      r.ledger.bookings == PersistAll(u.list) && (r.returned.Some? ==> r.returned.value == u.id)
    ensures AllClean(r.ledger.bookings)
    ensures var u := BookingLedger.Upsert(ledger.bookings, booking, options.overwriteIfSameId, token, dupToken);
      u.at < |r.ledger.bookings| && BookingLedger.KeyOf(r.ledger.bookings[u.at]) == u.id
  {
    var u := BookingLedger.Upsert(ledger.bookings, booking, options.overwriteIfSameId, token, dupToken);
    BookingLedger.PersistKeepsKey(u.list[u.at]);
    if adminLoaded then Dashboard.SaveBookingToAdmin(ledger, booking, options, filters, stamp, token, dupToken)
    else Dashboard.Outcome(BookingLedger.Ledger(PersistAll(u.list), ledger.auditLog), Some(u.id))
  }

  /** With no entry under the booking's identifier, the booking is appended and nothing earlier changes. */
  lemma ClientNewAppends(ledger: BookingLedger.Ledger, booking: Record, options: BookingLedger.SaveOptions,
                         filters: BookingViews.Filters, stamp: string, token: BookingLedger.BookingToken, dupToken: BookingLedger.BookingToken)
    requires AllClean(ledger.bookings)
    requires forall j :: 0 <= j < |ledger.bookings| ==>
      BookingLedger.KeyOf(ledger.bookings[j]) != BookingLedger.KeyOf(BookingLedger.NormalizeBooking(booking, token))
    ensures var r := SaveBookingClientSide(ledger, booking, options, false, filters, stamp, token, dupToken);
      && |r.ledger.bookings| == |ledger.bookings| + 1
      && r.ledger.bookings[..|ledger.bookings|] == ledger.bookings
      && r.ledger.bookings[|ledger.bookings|] == Persist(BookingLedger.NormalizeBooking(booking, token))
  {
    var b := BookingLedger.NormalizeBooking(booking, token);
    assert Seqs.FindIndex(ledger.bookings, BookingLedger.KeyIs(BookingLedger.KeyOf(b))).None?;
    PersistAllClean(ledger.bookings);
    assert PersistAll(ledger.bookings + [b])[..|ledger.bookings|] == PersistAll(ledger.bookings);
  }

  /** With a matching entry and overwrite on, only that entry changes: it becomes the stored one overlaid by the booking. */
  lemma ClientOverwriteMerges(ledger: BookingLedger.Ledger, booking: Record, options: BookingLedger.SaveOptions,
                              filters: BookingViews.Filters, stamp: string, token: BookingLedger.BookingToken, dupToken: BookingLedger.BookingToken, idx: nat)
    requires AllClean(ledger.bookings)
    requires options.overwriteIfSameId
    requires Seqs.FindIndex(ledger.bookings, BookingLedger.KeyIs(BookingLedger.KeyOf(BookingLedger.NormalizeBooking(booking, token)))) == Some(idx)
    ensures var r := SaveBookingClientSide(ledger, booking, options, false, filters, stamp, token, dupToken);
      && |r.ledger.bookings| == |ledger.bookings|
      && (forall j :: 0 <= j < |ledger.bookings| && j != idx ==> r.ledger.bookings[j] == ledger.bookings[j])
      && r.ledger.bookings[idx] == Persist(Spread(ledger.bookings[idx], BookingLedger.NormalizeBooking(booking, token)))
  {
  }

  /** With a matching entry and overwrite off, the stored entry stays and the booking is appended under the second identifier. */
  lemma ClientDuplicateReidentifies(ledger: BookingLedger.Ledger, booking: Record, options: BookingLedger.SaveOptions,
                                    filters: BookingViews.Filters, stamp: string, token: BookingLedger.BookingToken, dupToken: BookingLedger.BookingToken, idx: nat)
    requires AllClean(ledger.bookings)
    requires !options.overwriteIfSameId
    requires idx < |ledger.bookings|
    requires BookingLedger.KeyOf(ledger.bookings[idx]) == BookingLedger.KeyOf(BookingLedger.NormalizeBooking(booking, token))
    ensures var r := SaveBookingClientSide(ledger, booking, options, false, filters, stamp, token, dupToken);
      && |r.ledger.bookings| == |ledger.bookings| + 1
      && r.ledger.bookings[..|ledger.bookings|] == ledger.bookings
      && r.returned == Some(Str(dupToken))
  {
    var b := BookingLedger.NormalizeBooking(booking, token);
    assert Seqs.FindIndex(ledger.bookings, BookingLedger.KeyIs(BookingLedger.KeyOf(b))).Some?;
    PersistAllClean(ledger.bookings);
    var d := b[BookingId := Str(dupToken)];
    assert PersistAll(ledger.bookings + [d])[..|ledger.bookings|] == PersistAll(ledger.bookings);
  }
}

=== FILE: booking_ledger.dfy ===
/**
 * The admin dashboard's booking ledger (js/admin-dashboard.js): identifier
 * generation, normalisation of heterogeneous booking payloads, the
 * insert / merge / re-identify upsert, the same-origin `save-booking` message
 * gate, the append-only audit log, and the approve, refund and delete actions.
 *
 * Storage is the pair of collections the ledger writes (`bookings`, `auditLog`);
 * every write goes through JSON, which `Persist` models. The clock and the random
 * source are parameters: `stamp` is `new Date().toISOString()` and the
 * `BookingToken` arguments are the results of `generateBookingId()`.
 */
module BookingLedger {
  import opened Wrappers
  import opened JsValues
  import Seqs
  import Text

  // ------------------------------------------------------------------ identifiers

  predicate IsBase36Upper(c: char) {
    ('0' <= c <= '9') || ('A' <= c <= 'Z')
  }

  /**
   * The shape of a generated identifier: `BK-`, five decimal digits, `-`, then at
   * most five upper-case base-36 characters.
   */
  predicate IsBookingToken(t: string) {
    && 9 <= |t| <= 14
    && t[..3] == "BK-"
    && Text.AllDigits(t[3..8])
    && t[8] == '-'
    && forall i :: 9 <= i < |t| ==> IsBase36Upper(t[i])
  }

  type BookingToken = t: string | IsBookingToken(t) witness "BK-00000-"

  predicate IsBase36Lower(c: char) {
    ('0' <= c <= '9') || ('a' <= c <= 'z')
  }

  function UpperBase36(c: char): (u: char)
    requires IsBase36Lower(c)
    ensures IsBase36Upper(u)
  {
    if 'a' <= c <= 'z' then (c as int - 32) as char else c
  }

  /**
   * `generateBookingId()`: `BK-` + the last five digits of `Date.now()` + `-` +
   * characters 2..6 of `Math.random().toString(36)`, upper-cased. `nowMs` is the
   * clock reading and `fraction` the base-36 digits after the leading `0.`.
   */
  function GenerateBookingId(nowMs: nat, fraction: string): (t: BookingToken)
    requires nowMs >= 10000
    requires forall i :: 0 <= i < |fraction| ==> IsBase36Lower(fraction[i])
    ensures (LongDecimal(nowMs); t[3..8] == Text.NatToDecimal(nowMs)[|Text.NatToDecimal(nowMs)| - 5..])
    ensures |t| == 9 + (if |fraction| < 5 then |fraction| else 5)
  {
    var digits := Text.NatToDecimal(nowMs);
    LongDecimal(nowMs);
    var rand := fraction[..if |fraction| < 5 then |fraction| else 5];
    var t := "BK-" + digits[|digits| - 5..] + "-" + seq(|rand|, i requires 0 <= i < |rand| => UpperBase36(rand[i]));
    assert t[3..8] == digits[|digits| - 5..];
    t
  }

  /** A clock reading of at least five digits prints as at least five digits. */
  lemma LongDecimal(n: nat)
    requires n >= 10000
    ensures |Text.NatToDecimal(n)| >= 5
  {
    var n1 := n / 10;
    var n2 := n1 / 10;
    var n3 := n2 / 10;
    assert n3 >= 10;
    assert |Text.NatToDecimal(n3)| >= 2;
    assert |Text.NatToDecimal(n2)| >= 3;
    assert |Text.NatToDecimal(n1)| >= 4;
  }

  // ------------------------------------------------------------------ normalisation

  /** The keys `normalizeBooking` always writes. */
  const CanonicalKeys: set<Field> :=
    {BookingId, Tour, CustomerName, Email, Date, People, Amount, Payment, Approved}

  /** `b.bookingId || b.bookingID`: the identifier the ledger looks a stored entry up by. */
  function KeyOf(b: Record): Value {
    Or(Get(b, BookingId), Get(b, LegacyBookingId))
  }

  /** The lookup predicate `x => (x.bookingId || x.bookingID) === id`. */
  function KeyIs(id: Value): Record -> bool {
    x => KeyOf(x) == id
  }

  /** The identifier `normalizeBooking` settles on: `bookingId`, else `bookingID`, else a generated one. */
  function ResolveId(b: Record, token: BookingToken): (id: Value)
    ensures Truthy(id)
    ensures Truthy(Get(b, BookingId)) ==> id == b[BookingId]
    ensures !Truthy(Get(b, BookingId)) && Truthy(Get(b, LegacyBookingId)) ==> id == b[LegacyBookingId]
    ensures !Truthy(Get(b, BookingId)) && !Truthy(Get(b, LegacyBookingId)) ==> id == Str(token)
  {
    if Truthy(Get(b, BookingId)) then b[BookingId]
    else if Truthy(Get(b, LegacyBookingId)) then b[LegacyBookingId]
    else Str(token)
  }

  /**
   * `normalizeBooking(b)`: a copy of `b` with the identifier resolved (or freshly
   * generated), the aliased fields resolved, defaults filled in and `approved`
   * coerced to a boolean. `token` is what `generateBookingId()` would return.
   */
  function NormalizeBooking(b: Record, token: BookingToken): (r: Record)
    ensures forall k :: k in r <==> k in b || k in CanonicalKeys
    ensures forall k :: k in b && k !in CanonicalKeys ==> r[k] == b[k]
    ensures KeyOf(r) == ResolveId(b, token) && Get(r, BookingId) == ResolveId(b, token)
  {
    b[Tour := Or(Or(Get(b, Tour), Get(b, TourName)), Str(""))]
      [CustomerName := Or(Or(Get(b, CustomerName), Get(b, Name)), Str(""))]
      [Email := Or(Get(b, Email), Str(""))]
      [Date := Or(Get(b, Date), Str(""))]
      [People := if !Nullish(Get(b, People)) then Get(b, People) else Get(b, Guests)]
      [Amount := if !Nullish(Get(b, Amount)) then Get(b, Amount) else Get(b, Price)]
      [Payment := Or(Get(b, Payment), Str("Unpaid"))]
      [Approved := Bool(Truthy(Get(b, Approved)))]
      [BookingId := ResolveId(b, token)]
  }

  /** The display fields take the first non-empty of their aliases, defaulting to the empty string. */
  lemma NormalizeAliases(b: Record, token: BookingToken)
    ensures var r := NormalizeBooking(b, token);
      && Get(r, Tour) == Or(Or(Get(b, Tour), Get(b, TourName)), Str(""))
      && Get(r, CustomerName) == Or(Or(Get(b, CustomerName), Get(b, Name)), Str(""))
      && Get(r, Email) == Or(Get(b, Email), Str(""))
      && Get(r, Date) == Or(Get(b, Date), Str(""))
  {
  }

  /**
   * Head-count and amount fall back to their legacy aliases only when missing or
   * null (`??`-like, so a zero is kept); they may remain `undefined`.
   */
  lemma NormalizeQuantities(b: Record, token: BookingToken)
    ensures var r := NormalizeBooking(b, token);
      && Get(r, People) == (if Nullish(Get(b, People)) then Get(b, Guests) else b[People])
      && Get(r, Amount) == (if Nullish(Get(b, Amount)) then Get(b, Price) else b[Amount])
  {
  }

  /** Payment is never empty (`Unpaid` by default) and `approved` is always a boolean with the input's truthiness. */
  lemma NormalizeDefaults(b: Record, token: BookingToken)
    ensures var r := NormalizeBooking(b, token);
      && Truthy(Get(r, Payment))
      && (Truthy(Get(b, Payment)) ==> Get(r, Payment) == b[Payment])
      && Get(r, Approved) == Bool(Truthy(Get(b, Approved)))
  {
  }

  /** A booking written with the legacy field names. */
  const LegacyBooking: Record := map[TourName := Str("Safari"), Name := Str("Jo"), Guests := Num(3), Price := Num(150)]

  lemma LegacyBookingFields()
    ensures Get(LegacyBooking, TourName) == Str("Safari") && Get(LegacyBooking, Name) == Str("Jo")
    ensures Get(LegacyBooking, Guests) == Num(3) && Get(LegacyBooking, Price) == Num(150)
    ensures forall f :: f in {Tour, CustomerName, People, Amount, Payment, Approved, BookingId, LegacyBookingId} ==>
      Get(LegacyBooking, f) == Undefined
  {
  }

  /** The worked example of the normaliser: the legacy names are read into the current ones and the defaults filled in. */
  lemma NormalizeLegacyExample(token: BookingToken)
    ensures var r := NormalizeBooking(LegacyBooking, token);
      && Get(r, Tour) == Str("Safari") && Get(r, CustomerName) == Str("Jo")
      && Get(r, People) == Num(3) && Get(r, Amount) == Num(150)
      && Get(r, Payment) == Str("Unpaid") && Get(r, Approved) == Bool(false)
      && Get(r, BookingId) == Str(token)
  {
    LegacyBookingFields();
    NormalizeAliases(LegacyBooking, token);
    NormalizeQuantities(LegacyBooking, token);
    NormalizeDefaults(LegacyBooking, token);
  }

  /** A zero head-count is a value, not a missing one: `people: 0` is kept even when `guests` is given. */
  lemma NormalizeKeepsZeroPeople(b: Record, token: BookingToken)
    requires Get(b, People) == Num(0)
    ensures Get(NormalizeBooking(b, token), People) == Num(0)
  {
    NormalizeQuantities(b, token);
  }

  // ------------------------------------------------------------------ upsert

  /** The options object of a save call: `overwriteIfSameId` and the audit `source` tag. */
  datatype SaveOptions = SaveOptions(overwriteIfSameId: bool, source: Value)

  /** The in-memory list after an upsert, the identifier the call returns, and the position the booking landed at. */
  datatype Upserted = Upserted(list: seq<Record>, id: Value, at: nat)

  /**
   * The insert / merge / re-identify step shared by `saveBookingToAdmin` and
   * `saveBookingClientSide`: normalise, look for an entry whose
   * `bookingId || bookingID` equals the normalised identifier, then append, merge
   * in place (`{ ...old, ...b }`), or append under `dupToken`, a second generated identifier.
   */
  function Upsert(list: seq<Record>, booking: Record, overwrite: bool,
                  token: BookingToken, dupToken: BookingToken): (u: Upserted)
    ensures var b := NormalizeBooking(booking, token);
      match Seqs.FindIndex(list, KeyIs(KeyOf(b)))
      case None =>
        u.list == list + [b] && u.id == KeyOf(b)
      case Some(idx) =>
        if overwrite then
          && |u.list| == |list|
          && (forall j :: 0 <= j < |list| && j != idx ==> u.list[j] == list[j])
          && u.list[idx] == Spread(list[idx], b)
          && u.id == KeyOf(b)
        else
          u.list == list + [b[BookingId := Str(dupToken)]] && u.id == Str(dupToken)
    ensures Truthy(u.id)
    ensures u.at < |u.list| && KeyOf(u.list[u.at]) == u.id
  {
    var b := NormalizeBooking(booking, token);
    match Seqs.FindIndex(list, KeyIs(KeyOf(b)))
    case None =>
      var l := list + [b];
      Upserted(l, KeyOf(b), |list|)
    case Some(idx) =>
      if overwrite then
        SpreadKeepsKey(list[idx], b);
        var l := list[idx := Spread(list[idx], b)];
        Upserted(l, KeyOf(b), idx)
      else
        var d := b[BookingId := Str(dupToken)];
        RekeyedKey(b, Str(dupToken));
        var l := list + [d];
        Upserted(l, Str(dupToken), |list|)
  }

  /** Overlaying a record whose `bookingId` is set keeps that identifier. */
  lemma SpreadKeepsKey(base: Record, over: Record)
    requires Truthy(Get(over, BookingId))
    ensures KeyOf(Spread(base, over)) == KeyOf(over)
  {
  }

  /** Setting `bookingId` to a truthy value makes it the identifier. */
  lemma RekeyedKey(b: Record, id: Value)
    requires Truthy(id)
    ensures KeyOf(b[BookingId := id]) == id
  {
  }

  /** Identifiers are unique across a collection: no two entries share `bookingId || bookingID`. */
  predicate UniqueKeys(list: seq<Record>) {
    forall i, j :: 0 <= i < j < |list| ==> KeyOf(list[i]) != KeyOf(list[j])
  }

  /**
   * The upsert keeps identifiers unique, provided the identifier generator did
   * not hand out one already in use (the source does not check for that).
   */
  lemma UpsertKeepsKeysUnique(list: seq<Record>, booking: Record, overwrite: bool,
                              token: BookingToken, dupToken: BookingToken)
    requires UniqueKeys(list)
    requires forall j :: 0 <= j < |list| ==> KeyOf(list[j]) != Str(dupToken)
    ensures UniqueKeys(Upsert(list, booking, overwrite, token, dupToken).list)
  {
    var b := NormalizeBooking(booking, token);
    var u := Upsert(list, booking, overwrite, token, dupToken);
    match Seqs.FindIndex(list, KeyIs(KeyOf(b)))
    case None =>
      assert forall j :: 0 <= j < |list| ==> KeyOf(u.list[j]) != KeyOf(u.list[|list|]);
    case Some(idx) =>
      if overwrite {
        assert KeyOf(u.list[idx]) == KeyOf(list[idx]);
        assert forall j :: 0 <= j < |list| ==> KeyOf(u.list[j]) == KeyOf(list[j]);
      } else {
        assert KeyOf(u.list[|list|]) == Str(dupToken);
      }
  }

  /**
   * Merging keeps every old field the new record does not name, and takes every
   * field it does, including the `people`/`amount` the normaliser always writes.
   */
  lemma OverwriteMerges(list: seq<Record>, booking: Record, token: BookingToken, dupToken: BookingToken, idx: nat)
    requires Seqs.FindIndex(list, KeyIs(KeyOf(NormalizeBooking(booking, token)))) == Some(idx)
    ensures var m := Upsert(list, booking, true, token, dupToken).list[idx];
      && (forall k :: k in list[idx] && k !in booking && k !in CanonicalKeys ==> m[k] == list[idx][k])
      && (forall k :: k in booking && k !in CanonicalKeys ==> m[k] == booking[k])
  {
  }

  /**
   * Merging over an entry whose head-count is stored, with a payload that names
   * neither `people` nor `guests`, erases the stored head-count once the list is
   * written: the normaliser sets `people` to `undefined`, the spread copies it,
   * and JSON drops it.
   */
  lemma OverwriteErasesPeople(list: seq<Record>, booking: Record, token: BookingToken, dupToken: BookingToken, idx: nat)
    requires Seqs.FindIndex(list, KeyIs(KeyOf(NormalizeBooking(booking, token)))) == Some(idx)
    requires People !in booking && Guests !in booking
    ensures People !in Persist(Upsert(list, booking, true, token, dupToken).list[idx])
  {
    var b := NormalizeBooking(booking, token);
    NormalizeQuantities(booking, token);
    assert Get(b, People) == Undefined;
    assert Upsert(list, booking, true, token, dupToken).list[idx] == Spread(list[idx], b);
  }

  // ------------------------------------------------------------------ audit log

  /** An audit log entry `{ time, actor, type, details }`. */
  datatype AuditEntry = AuditEntry(time: string, actor: string, kind: string, details: Record)

  /** `logAction(type, details)`: append one entry by actor `admin`, stamped with the current time. */
  function LogAction(log: seq<AuditEntry>, stamp: string, kind: string, details: Record): (r: seq<AuditEntry>)
    ensures |r| == |log| + 1 && r[..|log|] == log
    ensures r[|log|].kind == kind && r[|log|].actor == "admin" && r[|log|].time == stamp
    ensures r[|log|].details == Persist(details)
  {
    log + [AuditEntry(stamp, "admin", kind, Persist(details))]
  }

  // ------------------------------------------------------------------ the dashboard ledger

  /** The two collections the dashboard writes: `bookings` and `auditLog`. */
  datatype Ledger = Ledger(bookings: seq<Record>, auditLog: seq<AuditEntry>)

  /** The ledger after a save, and the identifier the call returns. */
  datatype Saved = Saved(ledger: Ledger, id: Value)

  /**
   * The writes of `saveBookingToAdmin(booking, options)`: upsert into the stored
   * bookings, write them back, and log one `create_booking` entry carrying the
   * resulting identifier and the source tag (`options.source || 'api'`). The
   * dashboard refresh that follows is `Dashboard.SaveBookingToAdmin`.
   */
  function StoreBooking(ledger: Ledger, booking: Record, options: SaveOptions, stamp: string,
                              token: BookingToken, dupToken: BookingToken): (r: Saved)
    requires AllClean(ledger.bookings)
    ensures var u := Upsert(ledger.bookings, booking, options.overwriteIfSameId, token, dupToken);
      r.ledger.bookings == PersistAll(u.list) && r.id == u.id
    ensures AllClean(r.ledger.bookings)
    ensures |r.ledger.auditLog| == |ledger.auditLog| + 1
    ensures r.ledger.auditLog[..|ledger.auditLog|] == ledger.auditLog
    ensures var e := r.ledger.auditLog[|ledger.auditLog|];
      e.kind == "create_booking" && e.details == map[BookingId := r.id, Source := Or(options.source, Str("api"))]
    ensures var u := Upsert(ledger.bookings, booking, options.overwriteIfSameId, token, dupToken);
      u.at < |r.ledger.bookings| && KeyOf(r.ledger.bookings[u.at]) == r.id
  {
    var u := Upsert(ledger.bookings, booking, options.overwriteIfSameId, token, dupToken);
    var stored := PersistAll(u.list);
    PersistKeepsKey(u.list[u.at]);
    var details := SaveDetails(u.id, options.source);
    Saved(Ledger(stored, LogAction(ledger.auditLog, stamp, "create_booking", details)), u.id)
  }

  /** The details of a save's audit entry; with the identifier set they survive JSON persistence as they are. */
  function SaveDetails(id: Value, source: Value): (d: Record)
    requires id != Undefined
    ensures Persist(d) == d
    ensures d.Keys == {BookingId, Source} && d[BookingId] == id && d[Source] == Or(source, Str("api"))
  {
    map[BookingId := id, Source := Or(source, Str("api"))]
  }

  /** JSON persistence does not change the identifier of a record whose identifier is set. */
  lemma PersistKeepsKey(r: Record)
    requires Truthy(KeyOf(r))
    ensures KeyOf(Persist(r)) == KeyOf(r)
  {
  }

  /** A save of a booking whose identifier is new grows the ledger by one, at the end, and leaves every earlier entry alone. */
  lemma SaveNewAppends(ledger: Ledger, booking: Record, options: SaveOptions, stamp: string,
                       token: BookingToken, dupToken: BookingToken)
    requires AllClean(ledger.bookings)
    requires forall j :: 0 <= j < |ledger.bookings| ==> KeyOf(ledger.bookings[j]) != KeyOf(NormalizeBooking(booking, token))
    ensures var r := StoreBooking(ledger, booking, options, stamp, token, dupToken);
      && |r.ledger.bookings| == |ledger.bookings| + 1
      && r.ledger.bookings[..|ledger.bookings|] == ledger.bookings
      && r.ledger.bookings[|ledger.bookings|] == Persist(NormalizeBooking(booking, token))
      && r.id == KeyOf(NormalizeBooking(booking, token))
  {
    var b := NormalizeBooking(booking, token);
    assert Seqs.FindIndex(ledger.bookings, KeyIs(KeyOf(b))).None?;
    var r := StoreBooking(ledger, booking, options, stamp, token, dupToken);
    PersistAllClean(ledger.bookings);
    assert r.ledger.bookings == PersistAll(ledger.bookings + [b]);
    assert r.ledger.bookings[..|ledger.bookings|] == PersistAll(ledger.bookings);
  }

  /**
   * A save without overwrite of an identifier already present keeps the existing
   * entry and appends the booking under the second generated identifier, which is
   * what the call returns instead of the one supplied.
   */
  lemma SaveDuplicateReidentifies(ledger: Ledger, booking: Record, options: SaveOptions, stamp: string,
                                  token: BookingToken, dupToken: BookingToken, idx: nat)
    requires AllClean(ledger.bookings)
    requires !options.overwriteIfSameId
    requires idx < |ledger.bookings| && KeyOf(ledger.bookings[idx]) == KeyOf(NormalizeBooking(booking, token))
    ensures var r := StoreBooking(ledger, booking, options, stamp, token, dupToken);
      && r.ledger.bookings[..|ledger.bookings|] == ledger.bookings
      && |r.ledger.bookings| == |ledger.bookings| + 1
      && r.id == Str(dupToken)
      && KeyOf(r.ledger.bookings[|ledger.bookings|]) == Str(dupToken)
  {
    var b := NormalizeBooking(booking, token);
    assert Seqs.FindIndex(ledger.bookings, KeyIs(KeyOf(b))).Some?;
    var r := StoreBooking(ledger, booking, options, stamp, token, dupToken);
    PersistAllClean(ledger.bookings);
    assert r.ledger.bookings[..|ledger.bookings|] == PersistAll(ledger.bookings);
    PersistKeepsKey(b[BookingId := Str(dupToken)]);
  }

  // ------------------------------------------------------------------ approve, refund, delete

  /** Sets `field` to `v` and `stampField` to the time on every entry whose identifier is `id`. */
  function MarkMatching(list: seq<Record>, id: Value, field: Field, v: Value, stampField: Field, stamp: string): (r: seq<Record>)
    ensures |r| == |list|
    ensures forall i :: 0 <= i < |list| ==>
      r[i] == if KeyOf(list[i]) == id then list[i][field := v][stampField := Str(stamp)] else list[i]
  {
    seq(|list|, i requires 0 <= i < |list| =>
      if KeyOf(list[i]) == id then list[i][field := v][stampField := Str(stamp)] else list[i])
  }

  /**
   * `approveBookingEnhanced(id)`: every entry with that identifier gets
   * `approved = true` and `approvedAt`; nothing else changes; one
   * `approve_booking` entry is logged.
   */
  function ApproveBooking(ledger: Ledger, id: Value, stamp: string): (r: Ledger)
    requires AllClean(ledger.bookings)
    ensures |r.bookings| == |ledger.bookings|
    ensures forall i :: 0 <= i < |ledger.bookings| && KeyOf(ledger.bookings[i]) != id ==> r.bookings[i] == ledger.bookings[i]
    ensures forall i :: 0 <= i < |ledger.bookings| && KeyOf(ledger.bookings[i]) == id ==>
      r.bookings[i] == ledger.bookings[i][Approved := Bool(true)][ApprovedAt := Str(stamp)]
    ensures AllClean(r.bookings)
    ensures r.auditLog == LogAction(ledger.auditLog, stamp, "approve_booking", map[BookingId := id])
  {
    Ledger(MarkMatching(ledger.bookings, id, Approved, Bool(true), ApprovedAt, stamp),
           LogAction(ledger.auditLog, stamp, "approve_booking", map[BookingId := id]))
  }

  /**
   * `refundBooking(id)`: every entry with that identifier gets
   * `status = 'refunded'` and `refundedAt`; nothing else changes; one
   * `refund_booking` entry is logged.
   */
  function RefundBooking(ledger: Ledger, id: Value, stamp: string): (r: Ledger)
    requires AllClean(ledger.bookings)
    ensures |r.bookings| == |ledger.bookings|
    ensures forall i :: 0 <= i < |ledger.bookings| && KeyOf(ledger.bookings[i]) != id ==> r.bookings[i] == ledger.bookings[i]
    ensures forall i :: 0 <= i < |ledger.bookings| && KeyOf(ledger.bookings[i]) == id ==>
      r.bookings[i] == ledger.bookings[i][Status := Str("refunded")][RefundedAt := Str(stamp)]
    ensures AllClean(r.bookings)
    ensures r.auditLog == LogAction(ledger.auditLog, stamp, "refund_booking", map[BookingId := id])
  {
    Ledger(MarkMatching(ledger.bookings, id, Status, Str("refunded"), RefundedAt, stamp),
           LogAction(ledger.auditLog, stamp, "refund_booking", map[BookingId := id]))
  }

  /** The predicate `b => (b.bookingId || b.bookingID) !== id`. */
  function KeyIsNot(id: Value): Record -> bool {
    x => KeyOf(x) != id
  }

  /**
   * `deleteBookingEnhanced(id)`: the entries with that identifier are removed,
   * the others keep their order; one `delete_booking` entry is logged.
   */
  function DeleteBooking(ledger: Ledger, id: Value, stamp: string): (r: Ledger)
    ensures forall x :: x in r.bookings <==> x in ledger.bookings && KeyOf(x) != id
    ensures |r.bookings| <= |ledger.bookings|
    ensures r.auditLog == LogAction(ledger.auditLog, stamp, "delete_booking", map[BookingId := id])
    ensures Seqs.KeepsCounts(r.bookings, ledger.bookings, KeyIsNot(id))
  {
    Seqs.FilterMultiset(ledger.bookings, KeyIsNot(id));
    Ledger(Seqs.Filter(ledger.bookings, KeyIsNot(id)),
           LogAction(ledger.auditLog, stamp, "delete_booking", map[BookingId := id]))
  }

  /** Deleting keeps the surviving entries in their original order. */
  lemma DeleteKeepsOrder(ledger: Ledger, id: Value, stamp: string)
    ensures Seqs.IsSubsequence(DeleteBooking(ledger, id, stamp).bookings, ledger.bookings)
  {
    Seqs.FilterIsSubsequence(ledger.bookings, KeyIsNot(id));
  }

  /** Deleting an identifier no entry carries leaves the bookings content-equal (only the audit log grows). */
  lemma DeleteAbsentIsNoOp(ledger: Ledger, id: Value, stamp: string)
    requires forall i :: 0 <= i < |ledger.bookings| ==> KeyOf(ledger.bookings[i]) != id
    ensures DeleteBooking(ledger, id, stamp).bookings == ledger.bookings
  {
    Seqs.FilterAll(ledger.bookings, KeyIsNot(id));
  }

  /** Approving an identifier no entry carries leaves the bookings content-equal. */
  lemma ApproveAbsentIsNoOp(ledger: Ledger, id: Value, stamp: string)
    requires AllClean(ledger.bookings)
    requires forall i :: 0 <= i < |ledger.bookings| ==> KeyOf(ledger.bookings[i]) != id
    ensures ApproveBooking(ledger, id, stamp).bookings == ledger.bookings
  {
  }
}

=== FILE: booking_views.dfy ===
/**
 * The dashboard's derived views of the bookings (js/admin-dashboard.js): the
 * status classification, the KPI bar, the toolbar filter and the two CSV
 * exports (filtered bookings and the audit log).
 */
module BookingViews {
  import opened Wrappers
  import opened JsValues
  import Seqs
  import Text
  import Csv
  import BookingLedger

  // ------------------------------------------------------------------ status

  /** The three statuses a booking is shown with. */
  datatype BookingStatus = StatusApproved | StatusPending | StatusRefunded

  /** Refunded first (`status === 'refunded'`), then approved (`approved` truthy), otherwise pending. */
  function StatusOf(b: Record): (st: BookingStatus)
    ensures st == StatusRefunded <==> Get(b, Status) == Str("refunded")
    ensures st == StatusApproved <==> Get(b, Status) != Str("refunded") && Truthy(Get(b, Approved))
    ensures st == StatusPending <==> Get(b, Status) != Str("refunded") && !Truthy(Get(b, Approved))
  {
    if Get(b, Status) == Str("refunded") then StatusRefunded
    else if Truthy(Get(b, Approved)) then StatusApproved
    else StatusPending
  }

  /** The status as the toolbar and the export spell it. */
  function StatusName(st: BookingStatus): string {
    match st
    case StatusApproved => "approved"
    case StatusPending => "pending"
    case StatusRefunded => "refunded"
  }

  /** `b => status(b) === st`. */
  function HasStatus(st: BookingStatus): Record -> bool {
    b => StatusOf(b) == st
  }

  // ------------------------------------------------------------------ KPIs

  /** The `approved` KPI's predicate: `b.approved && b.status !== 'refunded'`. */
  predicate CountsApproved(b: Record) {
    Truthy(Get(b, Approved)) && Get(b, Status) != Str("refunded")
  }

  /** The `pending` KPI's predicate: `!b.approved` (it does not look at the status). */
  predicate CountsPending(b: Record) {
    !Truthy(Get(b, Approved))
  }

  /** The `refunded` KPI's predicate: `b.status === 'refunded'`. */
  predicate CountsRefunded(b: Record) {
    Get(b, Status) == Str("refunded")
  }

  /** `parseFloat(b.amount) || 0`: the leading integer of the amount's text, or 0 when there is none. */
  function AmountOf(b: Record): int {
    Text.ParseNumber(ToJsString(Get(b, Amount))).GetOr(0)
  }

  /** A numeric amount counts at its own value. */
  lemma AmountOfNumber(b: Record, n: int)
    requires Get(b, Amount) == Num(n)
    ensures AmountOf(b) == n
  {
    Text.NumberRoundTrip(n);
  }

  /** The `reduce` that adds up the amounts of a list. */
  function SumAmounts(list: seq<Record>): int
    decreases |list|
  {
    if list == [] then 0 else AmountOf(list[0]) + SumAmounts(list[1..])
  }

  /** Amounts add up piecewise over a concatenation. */
  lemma {:induction false} SumAmountsAppend(a: seq<Record>, b: seq<Record>)
    ensures SumAmounts(a + b) == SumAmounts(a) + SumAmounts(b)
    decreases |a|
  {
    if a == [] {
      assert a + b == b;
    } else {
      assert (a + b)[1..] == a[1..] + b;
      SumAmountsAppend(a[1..], b);
    }
  }

  /** The KPI bar's figures. `avgOrder` is kept exact; the bar rounds it for display. */
  datatype Kpis = Kpis(total: nat, approved: nat, pending: nat, refunded: nat, revenue: int, avgOrder: real)

  /** `computeKPIs(bookings)`. */
  function ComputeKpis(list: seq<Record>): (k: Kpis)
    ensures k.total == |list|
    ensures k.approved + k.refunded <= k.total
    ensures k.pending <= k.total && k.refunded <= k.total
    ensures k.revenue == SumAmounts(Seqs.Filter(list, CountsApproved))
    ensures k.approved == 0 ==> k.avgOrder == 0.0
    ensures k.approved > 0 ==> k.avgOrder == k.revenue as real / k.approved as real
  {
    var approved := Seqs.Filter(list, CountsApproved);
    var revenue := SumAmounts(approved);
    ApprovedNotRefunded(list);
    var avg := Average(revenue, |approved|);
    Kpis(|list|, |approved|, Seqs.Count(list, CountsPending), Seqs.Count(list, CountsRefunded), revenue, avg)
  }

  /** No booking counts as both approved and refunded. */
  lemma ApprovedNotRefunded(list: seq<Record>)
    ensures Seqs.Count(list, CountsApproved) + Seqs.Count(list, CountsRefunded) <= |list|
  {
    forall i | 0 <= i < |list|
      ensures !(CountsApproved(list[i]) && CountsRefunded(list[i]))
    {
    }
    Seqs.DisjointCounts(list, CountsApproved, CountsRefunded);
  }

  /** `n ? sum / n : 0`, exactly. */
  function Average(sum: int, n: nat): (avg: real)
    ensures n == 0 ==> avg == 0.0
    ensures n > 0 ==> avg * (n as real) == sum as real
  {
    if n > 0 then sum as real / n as real else 0.0
  }

  /** A predicate that holds everywhere. */
  function Always(): Record -> bool {
    b => true
  }

  /** The records the status classification does not call refunded. */
  function NotRefunded(): Record -> bool {
    b => StatusOf(b) != StatusRefunded
  }

  /** A refunded booking that was never approved. */
  function RefundedUnapproved(): Record -> bool {
    b => StatusOf(b) == StatusRefunded && !Truthy(Get(b, Approved))
  }

  /**
   * The KPI counts against the status classification: `approved` and `refunded`
   * count exactly the bookings shown with those statuses, the three statuses
   * share out the whole list, and `pending` also counts every refunded booking
   * that was never approved.
   */
  lemma KpisByStatus(list: seq<Record>)
    ensures var k := ComputeKpis(list);
      && k.approved == Seqs.Count(list, HasStatus(StatusApproved))
      && k.refunded == Seqs.Count(list, HasStatus(StatusRefunded))
      && k.pending == Seqs.Count(list, HasStatus(StatusPending)) + Seqs.Count(list, RefundedUnapproved())
      && Seqs.Count(list, HasStatus(StatusApproved)) + Seqs.Count(list, HasStatus(StatusPending))
         + Seqs.Count(list, HasStatus(StatusRefunded)) == k.total
  {
    Seqs.FilterCongruent(list, CountsApproved, HasStatus(StatusApproved));
    Seqs.FilterCongruent(list, CountsRefunded, HasStatus(StatusRefunded));
    Seqs.CountSplit(list, CountsPending, HasStatus(StatusPending), RefundedUnapproved());
    Seqs.CountSplit(list, Always(), HasStatus(StatusRefunded), NotRefunded());
    Seqs.CountSplit(list, NotRefunded(), HasStatus(StatusApproved), HasStatus(StatusPending));
    Seqs.FilterAll(list, Always());
  }

  /**
   * One approved, one pending and one refunded-but-approved booking: the
   * refunded one is not approved revenue, and the average is the approved amount.
   */
  lemma KpiExample()
    ensures var k := ComputeKpis([
        map[Approved := Bool(true), Amount := Num(100)],
        map[Approved := Bool(false), Amount := Num(50)],
        map[Approved := Bool(true), Status := Str("refunded"), Amount := Num(70)]]);
      k == Kpis(3, 1, 1, 1, 100, 100.0)
  {
    var a: Record := map[Approved := Bool(true), Amount := Num(100)];
    var p: Record := map[Approved := Bool(false), Amount := Num(50)];
    var r: Record := map[Approved := Bool(true), Status := Str("refunded"), Amount := Num(70)];
    var list := [a, p, r];
    assert CountsApproved(a) && !CountsApproved(p) && !CountsApproved(r);
    assert !CountsPending(a) && CountsPending(p) && !CountsPending(r);
    assert !CountsRefunded(a) && !CountsRefunded(p) && CountsRefunded(r);
    assert list[1..] == [p, r] && [p, r][1..] == [r] && [r][1..] == [];
    assert Seqs.Filter([r], CountsApproved) == [];
    assert Seqs.Filter([p, r], CountsApproved) == [];
    assert Seqs.Filter(list, CountsApproved) == [a];
    assert Seqs.Filter([p, r], CountsPending) == [p];
    assert Seqs.Filter([p, r], CountsRefunded) == [r];
    AmountOfNumber(a, 100);
    assert SumAmounts([a]) == 100;
  }

  // ------------------------------------------------------------------ filter

  /** The toolbar's state `{ q, status, payment, from, to }`; `q` is stored already trimmed. */
  datatype Filters = Filters(q: string, status: string, payment: string, from: string, to: string)

  /** The initial and the reset state: no search, every status and payment, no date bounds. */
  const NoFilters := Filters("", "all", "all", "", "")

  /** The Apply button: the search text is trimmed, the other inputs are taken as they are. */
  function ApplyFilters(q: string, status: string, payment: string, from: string, to: string): (f: Filters)
    ensures f.q == [] || (!Text.IsJsWhitespace(f.q[0]) && !Text.IsJsWhitespace(f.q[|f.q| - 1]))
    ensures f.status == status && f.payment == payment && f.from == from && f.to == to
  {
    Filters(Text.Trim(q), status, payment, from, to)
  }

  /** `(x || '').toLowerCase()`: None when a truthy non-string has no `toLowerCase` (a TypeError). */
  function LowerText(v: Value): (r: Option<string>)
    ensures r.None? <==> Truthy(v) && !v.Str?
    ensures r == Some("") <==> !Truthy(v)
  {
    if !Truthy(v) then Some("") else if v.Str? then Some(Text.Lower(v.s)) else None
  }

  /** The four values the search looks at: tour, customer, e-mail and identifier. */
  function SearchedValues(b: Record): seq<Value> {
    [Or(Get(b, Tour), Get(b, TourName)), Get(b, CustomerName), Get(b, Email), BookingLedger.KeyOf(b)]
  }

  /** Every searched value is a string or falsy, so building the haystack cannot throw. */
  predicate Searchable(b: Record) {
    forall i :: 0 <= i < 4 ==> !Truthy(SearchedValues(b)[i]) || SearchedValues(b)[i].Str?
  }

  /** The lower-cased search haystack: the four values joined with spaces. */
  function Haystack(b: Record): (h: Option<string>)
    ensures h.Some? <==> Searchable(b)
  {
    var vs := SearchedValues(b);
    match (LowerText(vs[0]), LowerText(vs[1]), LowerText(vs[2]), LowerText(vs[3]))
    case (Some(t), Some(c), Some(e), Some(i)) => Some(t + " " + c + " " + e + " " + i)
    case _ => None
  }

  /**
   * A date the filter can compare: `YYYY-MM-DD` with a month of 1..12 and a day
   * of 1..31, as the day number `Y * 10000 + M * 100 + D` (ordered like the
   * dates). Anything else is an invalid date, against which every comparison is false.
   */
  function DayNumber(s: string): (r: Option<int>)
    ensures r.Some? ==> r.value >= 0
  {
    if |s| == 10 && Text.AllDigits(s[..4]) && s[4] == '-' && Text.AllDigits(s[5..7]) && s[7] == '-'
       && Text.AllDigits(s[8..]) then
      var y := Text.DecimalValue(s[..4]);
      var m := Text.DecimalValue(s[5..7]);
      var d := Text.DecimalValue(s[8..]);
      if 1 <= m <= 12 && 1 <= d <= 31 then Some(y * 10000 + m * 100 + d) else None
    else None
  }

  /** Day numbers compare like (year, month, day) in lexicographic order. */
  lemma DayNumberOrder(y1: nat, m1: nat, d1: nat, y2: nat, m2: nat, d2: nat)
    requires 1 <= m1 <= 12 && 1 <= d1 <= 31 && 1 <= m2 <= 12 && 1 <= d2 <= 31
    ensures y1 * 10000 + m1 * 100 + d1 < y2 * 10000 + m2 * 100 + d2
        <==> y1 < y2 || (y1 == y2 && (m1 < m2 || (m1 == m2 && d1 < d2)))
  {
    if y1 < y2 {
      assert y1 * 10000 + 10000 <= y2 * 10000;
    } else if y1 > y2 {
      assert y2 * 10000 + 10000 <= y1 * 10000;
    }
  }

  /** `new Date(v) < new Date(bound)`: false whenever either side is not a date. */
  predicate Before(v: Value, bound: string) {
    v.Str? && DayNumber(v.s).Some? && DayNumber(bound).Some? && DayNumber(v.s).value < DayNumber(bound).value
  }

  /** `new Date(v) > new Date(bound)`. */
  predicate After(v: Value, bound: string) {
    v.Str? && DayNumber(v.s).Some? && DayNumber(bound).Some? && DayNumber(v.s).value > DayNumber(bound).value
  }

  /** The status, payment and date tests of the filter predicate. */
  predicate PassesRest(b: Record, f: Filters) {
    && (f.status == "all" || StatusName(StatusOf(b)) == f.status)
    && (f.payment == "all" || Or(Get(b, Payment), Str("")) == Str(f.payment))
    && (f.from == "" || (Truthy(Get(b, Date)) && !Before(Get(b, Date), f.from)))
    && (f.to == "" || (Truthy(Get(b, Date)) && !After(Get(b, Date), f.to)))
  }

  /** The predicate `filterBookings` applies to one booking; None when it throws. */
  function Matches(b: Record, f: Filters): (r: Option<bool>)
    ensures r.None? <==> f.q != "" && !Searchable(b)
    ensures r == Some(true) ==> PassesRest(b, f)
    ensures r == Some(true) && f.q != "" ==> Text.Includes(Haystack(b).value, Text.Lower(f.q))
    ensures r.Some? ==>
      (r.value <==> PassesRest(b, f) && (f.q == "" || Text.Includes(Haystack(b).value, Text.Lower(f.q))))
  {
    if f.q != "" then
      match Haystack(b)
      case None => None
      case Some(h) => if !Text.Includes(h, Text.Lower(f.q)) then Some(false) else Some(PassesRest(b, f))
    else Some(PassesRest(b, f))
  }

  function Passes(f: Filters): Record -> bool {
    b => Matches(b, f) == Some(true)
  }

  /**
   * `filterBookings(list)`: the bookings the predicate keeps, in order, or None
   * when the predicate throws on some booking (a truthy non-string among the
   * searched fields while a search is active).
   */
  function FilterBookings(list: seq<Record>, f: Filters): (r: Option<seq<Record>>)
    ensures r.None? <==> f.q != "" && exists i :: 0 <= i < |list| && !Searchable(list[i])
    ensures r.Some? ==> forall x :: x in r.value <==> x in list && Matches(x, f) == Some(true)
    ensures r.Some? ==> |r.value| <= |list|
    ensures r.Some? ==> Seqs.KeepsCounts(r.value, list, Passes(f))
  {
    if exists i :: 0 <= i < |list| && Matches(list[i], f).None? then None
    else
      Seqs.FilterMultiset(list, Passes(f));
      Some(Seqs.Filter(list, Passes(f)))
  }

  /** The filter keeps its survivors in their original order. */
  lemma FilterKeepsOrder(list: seq<Record>, f: Filters)
    requires FilterBookings(list, f).Some?
    ensures Seqs.IsSubsequence(FilterBookings(list, f).value, list)
  {
    Seqs.FilterIsSubsequence(list, Passes(f));
  }

  /** The reset state keeps every booking. */
  lemma NoFiltersKeepsAll(list: seq<Record>)
    ensures FilterBookings(list, NoFilters) == Some(list)
  {
    Seqs.FilterAll(list, Passes(NoFilters));
  }

  /** The status filter alone keeps exactly the bookings shown with that status. */
  lemma StatusFilterExact(list: seq<Record>, st: BookingStatus)
    ensures FilterBookings(list, Filters("", StatusName(st), "all", "", "")) == Some(Seqs.Filter(list, HasStatus(st)))
  {
    var f := Filters("", StatusName(st), "all", "", "");
    Seqs.FilterCongruent(list, Passes(f), HasStatus(st));
  }

  /** Filtering on `refunded` keeps exactly the bookings whose status is `refunded`, approved or not. */
  lemma RefundedFilterExact(list: seq<Record>)
    ensures var r := FilterBookings(list, Filters("", "refunded", "all", "", ""));
      && r.Some?
      && forall x :: x in r.value <==> x in list && Get(x, Status) == Str("refunded")
  {
    StatusFilterExact(list, StatusRefunded);
  }

  /**
   * A lower date bound excludes every booking without a date, and every booking
   * whose date is a valid day before the bound; an unparsable booking date is kept.
   */
  lemma FromBoundRespected(list: seq<Record>, f: Filters, x: Record)
    requires f.from != ""
    requires FilterBookings(list, f).Some? && x in FilterBookings(list, f).value
    ensures Truthy(Get(x, Date))
    ensures DayNumber(f.from).Some? && Get(x, Date).Str? && DayNumber(Get(x, Date).s).Some? ==>
      DayNumber(Get(x, Date).s).value >= DayNumber(f.from).value
  {
  }

  /** The payment filter keeps only bookings whose payment is exactly the chosen one. */
  lemma PaymentFilterRespected(list: seq<Record>, f: Filters, x: Record)
    requires f.payment != "all"
    requires FilterBookings(list, f).Some? && x in FilterBookings(list, f).value
    ensures f.payment != "" ==> Get(x, Payment) == Str(f.payment)
  {
  }

  // ------------------------------------------------------------------ CSV exports

  /** The outcome of an export button: a file's text, the "nothing to export" alert, or a thrown error. */
  datatype Export = Download(text: string) | NothingToExport | Failed

  const BookingsHeader: seq<string> := ["Tour", "Customer", "Email", "Date", "People", "Amount", "Payment", "BookingID", "Status"]

  /** One exported booking: each value `|| ''`, then the status word. */
  function BookingRow(b: Record): (row: seq<string>)
    ensures |row| == |BookingsHeader|
    ensures ShownAs(if Truthy(Get(b, Tour)) then Get(b, Tour) else Get(b, TourName), row[0])
    ensures ShownAs(Get(b, CustomerName), row[1]) && ShownAs(Get(b, Email), row[2])
    ensures ShownAs(Get(b, Date), row[3]) && ShownAs(Get(b, People), row[4])
    ensures ShownAs(Get(b, Amount), row[5]) && ShownAs(Get(b, Payment), row[6])
    ensures ShownAs(BookingLedger.KeyOf(b), row[7])
    ensures row[8] == StatusName(StatusOf(b))
  {
    [TextOr(Or(Get(b, Tour), Get(b, TourName))), TextOr(Get(b, CustomerName)), TextOr(Get(b, Email)),
     TextOr(Get(b, Date)), TextOr(Get(b, People)), TextOr(Get(b, Amount)), TextOr(Get(b, Payment)),
     TextOr(BookingLedger.KeyOf(b)), StatusName(StatusOf(b))]
  }

  function BookingRows(list: seq<Record>): (rows: seq<seq<string>>)
    ensures |rows| == |list|
    ensures forall i :: 0 <= i < |list| ==> rows[i] == BookingRow(list[i])
  {
    seq(|list|, i requires 0 <= i < |list| => BookingRow(list[i]))
  }

  /**
   * `exportBookingsCSV()`: the header, then one quoted line per booking the
   * current filter keeps; nothing when it keeps none.
   */
  function ExportBookings(list: seq<Record>, f: Filters): (r: Export)
    ensures r.Failed? <==> FilterBookings(list, f).None?
    ensures r.NothingToExport? <==> FilterBookings(list, f) == Some([])
    ensures r.Download? ==> Csv.HeaderLine(BookingsHeader) <= r.text
  {
    match FilterBookings(list, f)
    case None => Failed
    case Some(kept) =>
      if kept == [] then NothingToExport
      else Download(Csv.HeaderLine(BookingsHeader) + Csv.QuotedLines(BookingRows(kept)))
  }

  /**
   * Reading an export back: after the header come exactly the kept bookings, one
   * line each, in order, with every column as the handler writes it (provided no
   * exported value contains a double quote, which the handler does not escape).
   */
  lemma ExportBookingsReadBack(list: seq<Record>, f: Filters)
    requires ExportBookings(list, f).Download?
    requires Csv.RowsQuoteFree(BookingRows(FilterBookings(list, f).value))
    ensures var kept := FilterBookings(list, f).value;
      var text := ExportBookings(list, f).text;
      var rows := BookingRows(kept);
      && Csv.ParseLines(text[|Csv.HeaderLine(BookingsHeader)|..]) == Some(rows)
      && forall i :: 0 <= i < |kept| ==> rows[i] == ExportedColumns(kept[i])
  {
    var kept := FilterBookings(list, f).value;
    var rows := BookingRows(kept);
    Csv.LinesRoundTrip(rows);
    assert ExportBookings(list, f).text[|Csv.HeaderLine(BookingsHeader)|..] == Csv.QuotedLines(rows);
    forall i | 0 <= i < |kept|
      ensures rows[i] == ExportedColumns(kept[i])
    {
      RowIsColumns(kept[i]);
    }
  }

  /** The row the model builds is the nine columns of line 296. */
  lemma RowIsColumns(b: Record)
    ensures BookingRow(b) == ExportedColumns(b)
  {
  }

  /** The nine columns of line 296 for one booking, in header order. */
  function ExportedColumns(b: Record): seq<string> {
    [TextOr(Or(Get(b, Tour), Get(b, TourName))), TextOr(Get(b, CustomerName)), TextOr(Get(b, Email)),
     TextOr(Get(b, Date)), TextOr(Get(b, People)), TextOr(Get(b, Amount)), TextOr(Get(b, Payment)),
     TextOr(Or(Get(b, BookingId), Get(b, LegacyBookingId))),
     if Get(b, Status) == Str("refunded") then "refunded" else if Truthy(Get(b, Approved)) then "approved" else "pending"]
  }

  /** `[time, actor, type, details]`, the details written as JSON by `stringify`. */
  function AuditRow(e: BookingLedger.AuditEntry, stringify: Record -> string): (row: seq<string>)
    ensures |row| == 4
  {
    [e.time, e.actor, e.kind, stringify(e.details)]
  }

  function AuditRows(log: seq<BookingLedger.AuditEntry>, stringify: Record -> string): (rows: seq<seq<string>>)
    ensures |rows| == |log|
    ensures forall i :: 0 <= i < |log| ==> rows[i] == AuditRow(log[i], stringify)
  {
    seq(|log|, i requires 0 <= i < |log| => AuditRow(log[i], stringify))
  }

  const AuditHeader: seq<string> := ["time", "actor", "type", "details"]

  /**
   * `exportAuditLogCSV()` as written: the header and one quoted line per entry,
   * the fields wrapped in quotes without escaping the quotes inside them; nothing
   * for an empty log. On a log without double quotes it is the escaped export.
   */
  function ExportAudit(log: seq<BookingLedger.AuditEntry>, stringify: Record -> string): (r: Export)
    ensures r.NothingToExport? <==> log == []
    ensures !r.Failed?
    ensures r.Download? ==> Csv.HeaderLine(AuditHeader) <= r.text
    ensures Csv.RowsQuoteFree(AuditRows(log, stringify)) ==> r == ExportAuditEscaped(log, stringify)
  {
    Csv.QuoteFreeRowsUnescaped(AuditRows(log, stringify));
    if log == [] then NothingToExport
    else Download(Csv.HeaderLine(AuditHeader) + Csv.QuotedLines(AuditRows(log, stringify)))
  }

  /** The audit export as section 2 of RFC 4180 has it: every double quote inside a field written twice. */
  function ExportAuditEscaped(log: seq<BookingLedger.AuditEntry>, stringify: Record -> string): (r: Export)
    ensures r.NothingToExport? <==> log == []
    ensures !r.Failed?
    ensures r.Download? ==> Csv.HeaderLine(AuditHeader) <= r.text
  {
    if log == [] then NothingToExport
    else Download(Csv.HeaderLine(AuditHeader) + Csv.QuotedLines(Csv.EscapeRows(AuditRows(log, stringify))))
  }

  /**
   * The escaped export reads back as one line per entry, in log order: its time,
   * actor, type and the JSON of its details, whatever characters they hold.
   */
  lemma ExportAuditEscapedReadBack(log: seq<BookingLedger.AuditEntry>, stringify: Record -> string)
    requires log != []
    ensures var rows := AuditRows(log, stringify);
      && Csv.ParseLines(ExportAuditEscaped(log, stringify).text[|Csv.HeaderLine(AuditHeader)|..]) == Some(rows)
      && forall i :: 0 <= i < |log| ==>
           rows[i] == [log[i].time, log[i].actor, log[i].kind, stringify(log[i].details)]
  {
    var rows := AuditRows(log, stringify);
    Csv.EscapedLinesRoundTrip(rows);
    assert ExportAuditEscaped(log, stringify).text[|Csv.HeaderLine(AuditHeader)|..]
        == Csv.QuotedLines(Csv.EscapeRows(rows));
  }

  /**
   * How `JSON.stringify` begins a non-empty object whose first property's name
   * starts with a letter, as every object the dashboard logs does (`bookingId`,
   * `source`, `code`, `idx`, `email`): `{"` and that letter.
   */
  predicate OpensWithPropertyName(json: string) {
    |json| >= 3 && json[0] == '{' && json[1] == '"' && ('a' <= json[2] <= 'z' || 'A' <= json[2] <= 'Z')
  }

  /**
   * The export as written cannot be read back as soon as the first entry's
   * details are such an object: the quote after `{` closes the details field.
   */
  lemma ExportAuditUnreadable(log: seq<BookingLedger.AuditEntry>, stringify: Record -> string)
    requires log != []
    requires Csv.QuoteFree(log[0].time) && Csv.QuoteFree(log[0].actor) && Csv.QuoteFree(log[0].kind)
    requires OpensWithPropertyName(stringify(log[0].details))
    ensures ExportAudit(log, stringify).Download?
    ensures Csv.ParseLines(ExportAudit(log, stringify).text[|Csv.HeaderLine(AuditHeader)|..]) == None
  {
    var rows := AuditRows(log, stringify);
    var body := Csv.QuotedLines(rows);
    assert ExportAudit(log, stringify).text[|Csv.HeaderLine(AuditHeader)|..] == body;
    assert rows[0] == [log[0].time, log[0].actor, log[0].kind, stringify(log[0].details)];
    Csv.LineBreaksAt(rows[0], 3, Csv.QuotedLines(rows[1..]));
    assert body == Csv.QuotedLine(rows[0]) + Csv.QuotedLines(rows[1..]);
  }

  /** The details `approveBooking('B1')` logs, `{ bookingId: 'B1' }`. */
  const ApproveDetails: Record := map[BookingId := Str("B1")]

  /** The one entry the approval logs. */
  lemma ApprovalEntry()
    ensures BookingLedger.LogAction([], "2024-05-01T10:00:00.000Z", "approve_booking", ApproveDetails)
         == [BookingLedger.AuditEntry("2024-05-01T10:00:00.000Z", "admin", "approve_booking", ApproveDetails)]
  {
    assert Persist(ApproveDetails) == ApproveDetails;
  }

  /** The approval's time, actor and type hold no quote, and its details' JSON opens with a property name. */
  lemma ApprovalFieldsPlain()
    ensures Csv.QuoteFree("2024-05-01T10:00:00.000Z") && Csv.QuoteFree("admin") && Csv.QuoteFree("approve_booking")
    ensures OpensWithPropertyName("{\"bookingId\":\"B1\"}")
  {
  }

  /**
   * A log holding one approval: exported as written it cannot be read back,
   * exported with escaping it reads back as the entry.
   */
  lemma ApprovalLogUnreadable(stringify: Record -> string)
    requires stringify(ApproveDetails) == "{\"bookingId\":\"B1\"}"
    ensures var log := BookingLedger.LogAction([], "2024-05-01T10:00:00.000Z", "approve_booking", ApproveDetails);
      && Csv.ParseLines(ExportAudit(log, stringify).text[|Csv.HeaderLine(AuditHeader)|..]) == None
      && Csv.ParseLines(ExportAuditEscaped(log, stringify).text[|Csv.HeaderLine(AuditHeader)|..])
         == Some([["2024-05-01T10:00:00.000Z", "admin", "approve_booking", "{\"bookingId\":\"B1\"}"]])
  {
    var stamp := "2024-05-01T10:00:00.000Z";
    var json := "{\"bookingId\":\"B1\"}";
    var log := BookingLedger.LogAction([], stamp, "approve_booking", ApproveDetails);
    ApprovalEntry();
    ApprovalFieldsPlain();
    ExportAuditUnreadable(log, stringify);
    ExportAuditEscapedReadBack(log, stringify);
    var rows := AuditRows(log, stringify);
    assert rows == [[stamp, "admin", "approve_booking", json]];
  }
}

=== FILE: csv.dfy ===
/**
 * The CSV exports (bookings, audit log, registered users): a fixed header line,
 * then one line per record whose fields are each wrapped in double quotes and
 * joined by commas. The scripts wrap a field as it is; section 2 of RFC 4180
 * asks for a double quote inside a field to be written twice (`Escape`). The
 * reader follows RFC 4180, so an escaped field always reads back as itself and
 * an unescaped one does exactly when it holds no double quote.
 */
module Csv {
  import opened Wrappers

  /** `'"' + v + '"'`. */
  function Quote(v: string): string {
    "\"" + v + "\""
  }

  predicate QuoteFree(v: string) {
    '"' !in v
  }

  predicate RowsQuoteFree(rows: seq<seq<string>>) {
    forall i, j :: 0 <= i < |rows| && 0 <= j < |rows[i]| ==> QuoteFree(rows[i][j])
  }

  /** `v.replace(/"/g, '""')`: every double quote of a field written twice. */
  function Escape(v: string): (e: string)
    ensures QuoteFree(v) ==> e == v
    ensures |e| >= |v|
    decreases |v|
  {
    if v == [] then []
    else
      assert QuoteFree(v) ==> QuoteFree(v[1..]) by {
        assert forall c :: c in v[1..] ==> c in v;
      }
      (if v[0] == '"' then "\"\"" else [v[0]]) + Escape(v[1..])
  }

  function EscapeRow(cells: seq<string>): (r: seq<string>)
    ensures |r| == |cells|
    ensures forall j :: 0 <= j < |cells| ==> r[j] == Escape(cells[j])
  {
    seq(|cells|, j requires 0 <= j < |cells| => Escape(cells[j]))
  }

  function EscapeRows(rows: seq<seq<string>>): (r: seq<seq<string>>)
    ensures |r| == |rows|
    ensures forall i :: 0 <= i < |rows| ==> r[i] == EscapeRow(rows[i])
  {
    seq(|rows|, i requires 0 <= i < |rows| => EscapeRow(rows[i]))
  }

  /** Rows without double quotes are their own escaping. */
  lemma QuoteFreeRowsUnescaped(rows: seq<seq<string>>)
    ensures RowsQuoteFree(rows) ==> EscapeRows(rows) == rows
  {
    if RowsQuoteFree(rows) {
      forall i | 0 <= i < |rows|
        ensures EscapeRows(rows)[i] == rows[i]
      {
        assert forall j :: 0 <= j < |rows[i]| ==> QuoteFree(rows[i][j]);
      }
    }
  }

  /** `cells.map(quote).join(',')`. */
  function QuotedCells(cells: seq<string>): string
    decreases |cells|
  {
    if cells == [] then ""
    else if |cells| == 1 then Quote(cells[0])
    else Quote(cells[0]) + "," + QuotedCells(cells[1..])
  }

  /** One exported line: the quoted cells joined by commas, then a line feed. */
  function QuotedLine(cells: seq<string>): string {
    QuotedCells(cells) + "\n"
  }

  /** The exported lines one after the other. */
  function QuotedLines(rows: seq<seq<string>>): string
    decreases |rows|
  {
    if rows == [] then "" else QuotedLine(rows[0]) + QuotedLines(rows[1..])
  }

  /** `header.join(',') + '\n'`: the header line, which is not quoted. */
  function HeaderLine(names: seq<string>): string
    decreases |names|
  {
    if names == [] then "\n"
    else if |names| == 1 then names[0] + "\n"
    else names[0] + "," + HeaderLine(names[1..])
  }

  /**
   * Reads the inside of a quoted field, from just after its opening quote: a
   * doubled quote stands for one quote, a single quote closes the field. Returns
   * the field and what follows the closing quote; None when no quote closes it.
   */
  function ReadQuoted(s: string): (r: Option<(string, string)>)
    ensures r.Some? ==> |r.value.1| < |s|
    decreases |s|
  {
    if s == [] then None
    else if s[0] != '"' then
      match ReadQuoted(s[1..])
      case None => None
      case Some((v, rest)) => Some(([s[0]] + v, rest))
    else if |s| >= 2 && s[1] == '"' then
      match ReadQuoted(s[2..])
      case None => None
      case Some((v, rest)) => Some(("\"" + v, rest))
    else Some(([], s[1..]))
  }

  /** Reads a quoted cell at the start of `s`; returns the cell and what follows it. */
  function ParseCell(s: string): (r: Option<(string, string)>)
    ensures r.Some? ==> |r.value.1| < |s|
  {
    if s == [] || s[0] != '"' then None else ReadQuoted(s[1..])
  }

  /** Reads one line of quoted cells separated by commas and ended by a line feed; returns the cells and what follows. */
  function ParseLine(s: string): (r: Option<(seq<string>, string)>)
    ensures r.Some? ==> |r.value.1| < |s|
    decreases |s|
  {
    match ParseCell(s)
    case None => None
    case Some((cell, rest)) =>
      if rest != [] && rest[0] == '\n' then Some(([cell], rest[1..]))
      else if rest != [] && rest[0] == ',' then
        match ParseLine(rest[1..])
        case None => None
        case Some((cells, after)) => Some(([cell] + cells, after))
      else None
  }

  /** Reads lines until the input is used up. */
  function ParseLines(s: string): Option<seq<seq<string>>>
    decreases |s|
  {
    if s == [] then Some([])
    else match ParseLine(s)
      case None => None
      case Some((cells, rest)) =>
        match ParseLines(rest)
        case None => None
        case Some(rows) => Some([cells] + rows)
  }

  /** The escaped text of a field, closed by a quote that no quote follows, reads back as the field. */
  lemma {:induction false} ReadEscaped(v: string, rest: string)
    requires rest == [] || rest[0] != '"'
    ensures ReadQuoted(Escape(v) + "\"" + rest) == Some((v, rest))
    decreases |v|
  {
    var s := Escape(v) + "\"" + rest;
    if v == [] {
      assert s == "\"" + rest;
      assert s[1..] == rest;
    } else {
      ReadEscaped(v[1..], rest);
      var tail := Escape(v[1..]) + "\"" + rest;
      if v[0] == '"' {
        assert s == "\"\"" + tail;
        assert s[2..] == tail;
        assert "\"" + v[1..] == v;
      } else {
        assert s == [v[0]] + tail;
        assert s[1..] == tail;
        assert [v[0]] + v[1..] == v;
      }
    }
  }

  lemma CellRoundTrip(v: string, rest: string)
    requires rest == [] || rest[0] != '"'
    ensures ParseCell(Quote(Escape(v)) + rest) == Some((v, rest))
  {
    var s := Quote(Escape(v)) + rest;
    assert s[1..] == Escape(v) + "\"" + rest;
    ReadEscaped(v, rest);
  }

  /** Reading a quoted cell followed by the line feed ends the line. */
  lemma ReadLastCell(c: string, rest: string)
    ensures ParseLine(Quote(Escape(c)) + ("\n" + rest)) == Some(([c], rest))
  {
    CellRoundTrip(c, "\n" + rest);
    assert ("\n" + rest)[1..] == rest;
  }

  /** Reading a quoted cell followed by a comma continues with the rest of the line. */
  lemma ReadNextCell(c: string, tail: string)
    ensures ParseLine(Quote(Escape(c)) + ("," + tail)) ==
      match ParseLine(tail)
      case None => None
      case Some((cells, after)) => Some(([c] + cells, after))
  {
    CellRoundTrip(c, "," + tail);
    assert ("," + tail)[1..] == tail;
  }

  /** The last cell of a line is followed by the line feed. */
  lemma LastCell(cells: seq<string>, rest: string)
    requires |cells| == 1
    ensures QuotedLine(cells) + rest == Quote(cells[0]) + ("\n" + rest)
  {
  }

  /** Any other cell is followed by a comma and the rest of the line. */
  lemma NextCell(cells: seq<string>, rest: string)
    requires |cells| >= 2
    ensures QuotedLine(cells) + rest == Quote(cells[0]) + ("," + (QuotedLine(cells[1..]) + rest))
  {
    assert QuotedCells(cells) == Quote(cells[0]) + "," + QuotedCells(cells[1..]);
  }

  /** A line of escaped cells reads back as the cells, leaving what follows untouched. */
  lemma {:induction false} LineRoundTrip(cells: seq<string>, rest: string)
    requires |cells| >= 1
    ensures ParseLine(QuotedLine(EscapeRow(cells)) + rest) == Some((cells, rest))
    decreases |cells|
  {
    var e := EscapeRow(cells);
    if |cells| == 1 {
      LastCell(e, rest);
      ReadLastCell(cells[0], rest);
      assert cells == [cells[0]];
    } else {
      assert e[1..] == EscapeRow(cells[1..]);
      var tail := QuotedLine(EscapeRow(cells[1..])) + rest;
      NextCell(e, rest);
      ReadNextCell(cells[0], tail);
      LineRoundTrip(cells[1..], rest);
      assert [cells[0]] + cells[1..] == cells;
    }
  }

  /** Exported lines of non-empty rows, every field escaped, read back as exactly those rows. */
  lemma {:induction false} EscapedLinesRoundTrip(rows: seq<seq<string>>)
    requires forall i :: 0 <= i < |rows| ==> |rows[i]| >= 1
    ensures ParseLines(QuotedLines(EscapeRows(rows))) == Some(rows)
    decreases |rows|
  {
    if rows != [] {
      var e := EscapeRows(rows);
      assert e[1..] == EscapeRows(rows[1..]);
      LineRoundTrip(rows[0], QuotedLines(EscapeRows(rows[1..])));
      EscapedLinesRoundTrip(rows[1..]);
      assert [rows[0]] + rows[1..] == rows;
    }
  }

  /** Exported lines of non-empty rows without double quotes read back as exactly those rows, escaped or not. */
  lemma LinesRoundTrip(rows: seq<seq<string>>)
    requires forall i :: 0 <= i < |rows| ==> |rows[i]| >= 1
    requires RowsQuoteFree(rows)
    ensures ParseLines(QuotedLines(rows)) == Some(rows)
  {
    QuoteFreeRowsUnescaped(rows);
    EscapedLinesRoundTrip(rows);
  }

  /**
   * A field whose second character is a double quote followed by a character
   * that is neither a quote, a comma nor a line feed, as in `{"bookingId":…}`:
   * written unescaped, that quote closes the field and leaves the line unreadable.
   */
  predicate StrayQuote(v: string) {
    |v| >= 3 && v[0] != '"' && v[1] == '"' && v[2] != '"' && v[2] != ',' && v[2] != '\n'
  }

  /** An unescaped field with a stray quote is cut after its first character. */
  lemma StrayQuoteCell(v: string, rest: string)
    requires StrayQuote(v)
    ensures ParseCell(Quote(v) + rest) == Some(([v[0]], v[2..] + "\"" + rest))
  {
    var s := Quote(v) + rest;
    var after := v[2..] + "\"" + rest;
    var t := "\"" + after;
    assert s[1..] == [v[0]] + t;
    assert ([v[0]] + t)[1..] == t;
    assert t[1..] == after && after[0] == v[2];
    assert ReadQuoted(t) == Some(([], after));
    assert ReadQuoted([v[0]] + t) == Some(([v[0]] + [], after));
    assert [v[0]] + [] == [v[0]];
  }

  /**
   * An unescaped line whose cells before position `k` hold no double quote and
   * whose cell `k` has a stray quote cannot be read.
   */
  lemma {:induction false} LineBreaksAt(cells: seq<string>, k: nat, rest: string)
    requires k < |cells|
    requires forall j :: 0 <= j < k ==> QuoteFree(cells[j])
    requires StrayQuote(cells[k])
    ensures ParseLine(QuotedLine(cells) + rest) == None
    decreases k
  {
    var v := cells[0];
    if k == 0 {
      if |cells| == 1 {
        LastCell(cells, rest);
        StrayQuoteCell(v, "\n" + rest);
      } else {
        NextCell(cells, rest);
        StrayQuoteCell(v, "," + (QuotedLine(cells[1..]) + rest));
      }
    } else {
      var tail := QuotedLine(cells[1..]) + rest;
      NextCell(cells, rest);
      assert Escape(v) == v;
      ReadNextCell(v, tail);
      LineBreaksAt(cells[1..], k - 1, rest);
    }
  }
}

=== FILE: customer_booking.dfy ===
/**
 * The customer page's record keeping (js/customer-booking.js): two id-keyed
 * arrays, `customers` and `bookings`, loaded from localStorage on page load and
 * written back in full after every change. The page's `bookings` key is the
 * same one the dashboard reads.
 */
module CustomerBooking {
  import opened Wrappers
  import opened JsValues
  import Seqs

  /** One of the page's arrays: the copy held in memory and what its storage key holds. */
  datatype Collection = Collection(memory: seq<Record>, stored: seq<Record>)

  /** Storage holds exactly the JSON of the in-memory array. */
  predicate Synced(c: Collection) {
    c.stored == PersistAll(c.memory)
  }

  /** `list = JSON.parse(localStorage.getItem(key)) || []`: the page starts from what storage holds. */
  function Loaded(stored: seq<Record>): (c: Collection)
    requires AllClean(stored)
    ensures Synced(c)
    ensures c.memory == stored
  {
    PersistAllClean(stored);
    Collection(stored, stored)
  }

  /** Replacing the array and calling `saveCustomers()` / `saveBookings()`. */
  function Save(list: seq<Record>): (c: Collection)
    ensures Synced(c)
    ensures c.memory == list
  {
    Collection(list, PersistAll(list))
  }

  /** `x => x.id === id`. */
  function IdIs(id: Value): Record -> bool {
    (x: Record) => Get(x, Id) == id
  }

  /** `x => x.id !== id`, the predicate of the delete filters. */
  function IdIsNot(id: Value): Record -> bool {
    (x: Record) => Get(x, Id) != id
  }

  /** No record of the list carries the identifier. */
  predicate Absent(list: seq<Record>, id: Value) {
    forall j :: 0 <= j < |list| ==> Get(list[j], Id) != id
  }

  /** Persisting a list keeps every record's identifier, so an identifier is absent from both or neither. */
  lemma AbsentPersisted(list: seq<Record>, id: Value)
    ensures Absent(PersistAll(list), id) <==> Absent(list, id)
  {
    forall j | 0 <= j < |list| {
      GetPersist(list[j], Id);
    }
  }

  /** `new Customer(generateId(), d.name, d.email, d.phone, d.address)`; `token` is the generated id, `stamp` the JSON of `new Date()`. */
  function NewCustomer(data: Record, token: string, stamp: string): (c: Record)
    ensures Get(c, Id) == Str(token) && Get(c, CreatedAt) == Str(stamp)
    ensures Get(c, Name) == Get(data, Name) && Get(c, Email) == Get(data, Email)
    ensures Get(c, Phone) == Get(data, Phone) && Get(c, Address) == Get(data, Address)
    ensures forall k :: k in c <==> k == Id || k == Name || k == Email || k == Phone || k == Address || k == CreatedAt
  {
    map[Id := Str(token), Name := Get(data, Name), Email := Get(data, Email), Phone := Get(data, Phone),
        Address := Get(data, Address), CreatedAt := Str(stamp)]
  }

  /**
   * `new Booking(generateId(), d.customerId, d.tourId, d.bookingDate,
   * d.numberOfPeople, d.totalAmount, 'pending')`: whatever status the data
   * carries, the new booking is pending.
   */
  function NewBooking(data: Record, token: string, stamp: string): (b: Record)
    ensures b.Keys == {Id, CustomerId, TourId, BookingDate, NumberOfPeople, TotalAmount, Status, CreatedAt}
    ensures Get(b, Id) == Str(token) && Get(b, CreatedAt) == Str(stamp)
    ensures Get(b, Status) == Str("pending")
    ensures Get(b, CustomerId) == Get(data, CustomerId) && Get(b, TourId) == Get(data, TourId)
    ensures Get(b, BookingDate) == Get(data, BookingDate)
    ensures Get(b, NumberOfPeople) == Get(data, NumberOfPeople) && Get(b, TotalAmount) == Get(data, TotalAmount)
  {
    map[Id := Str(token), CustomerId := Get(data, CustomerId), TourId := Get(data, TourId),
        BookingDate := Get(data, BookingDate), NumberOfPeople := Get(data, NumberOfPeople),
        TotalAmount := Get(data, TotalAmount), Status := Str("pending"), CreatedAt := Str(stamp)]
  }

  /** `list.push(record); save()`: the record is appended, nothing earlier changes, and storage follows. */
  function Append(c: Collection, record: Record): (r: Collection)
    ensures Synced(r)
    ensures |r.memory| == |c.memory| + 1
    ensures r.memory[..|c.memory|] == c.memory && r.memory[|c.memory|] == record
  {
    Save(c.memory + [record])
  }

  /** `addCustomer(data)`: the new customer is appended and returned. */
  function AddCustomer(c: Collection, data: Record, token: string, stamp: string): (r: (Collection, Record))
    ensures r.1 == NewCustomer(data, token, stamp)
    ensures Synced(r.0)
    ensures |r.0.memory| == |c.memory| + 1
    ensures r.0.memory[..|c.memory|] == c.memory && r.0.memory[|c.memory|] == r.1
  {
    var customer := NewCustomer(data, token, stamp);
    (Append(c, customer), customer)
  }

  /** `addBooking(data)`: the new, pending booking is appended and returned. */
  function AddBooking(c: Collection, data: Record, token: string, stamp: string): (r: (Collection, Record))
    ensures r.1 == NewBooking(data, token, stamp)
    ensures Get(r.1, Status) == Str("pending")
    ensures Synced(r.0)
    ensures |r.0.memory| == |c.memory| + 1
    ensures r.0.memory[..|c.memory|] == c.memory && r.0.memory[|c.memory|] == r.1
  {
    var booking := NewBooking(data, token, stamp);
    (Append(c, booking), booking)
  }

  /**
   * `updateCustomer(id, data)` / `updateBooking(id, data)`: the first record
   * with the identifier becomes itself overlaid by `data`, is saved and
   * returned; with no such record the result is `null` and nothing is written.
   */
  function UpdateById(c: Collection, id: Value, data: Record): (r: (Collection, Option<Record>))
    ensures r.1.None? <==> Absent(c.memory, id)
    ensures r.1.None? ==> r.0 == c
    ensures r.1.Some? ==> Synced(r.0) && |r.0.memory| == |c.memory|
    ensures Synced(c) ==> Synced(r.0)
  {
    match Seqs.FindIndex(c.memory, IdIs(id))
    case None => (c, None)
    case Some(i) =>
      var merged := Spread(c.memory[i], data);
      (Save(c.memory[i := merged]), Some(merged))
  }

  /** On an existing identifier only the first matching record changes, and the merged record is returned. */
  lemma UpdateMergesFirst(c: Collection, id: Value, data: Record, idx: nat)
    requires idx < |c.memory| && Get(c.memory[idx], Id) == id
    requires forall j :: 0 <= j < idx ==> Get(c.memory[j], Id) != id
    ensures var r := UpdateById(c, id, data);
      && r.1 == Some(Spread(c.memory[idx], data))
      && r.0.memory[idx] == Spread(c.memory[idx], data)
      && (forall j :: 0 <= j < |c.memory| && j != idx ==> r.0.memory[j] == c.memory[j])
  {
    assert IdIs(id)(c.memory[idx]);
  }

  /** `deleteCustomer(id)` / `deleteBooking(id)`: `list.filter(x => x.id !== id)`, then saved. */
  function DeleteById(c: Collection, id: Value): (r: Collection)
    ensures Synced(r)
    ensures Seqs.IsSubsequence(r.memory, c.memory)
    ensures Absent(r.memory, id)
    ensures forall x :: x in c.memory && Get(x, Id) != id ==> x in r.memory
    ensures Seqs.KeepsCounts(r.memory, c.memory, IdIsNot(id))
  {
    Seqs.FilterIsSubsequence(c.memory, IdIsNot(id));
    Seqs.FilterMultiset(c.memory, IdIsNot(id));
    Save(Seqs.Filter(c.memory, IdIsNot(id)))
  }

  /** Deleting an identifier no record carries leaves the array as it was. */
  lemma DeleteAbsentKeepsAll(c: Collection, id: Value)
    requires Absent(c.memory, id)
    ensures DeleteById(c, id).memory == c.memory
  {
    Seqs.FilterAll(c.memory, IdIsNot(id));
  }

  /** `getCustomer(id)` / `getBooking(id)`: `list.find(x => x.id === id)`. */
  function GetById(list: seq<Record>, id: Value): (r: Option<Record>)
    ensures r.Some? ==> r.value in list && Get(r.value, Id) == id
    ensures r.None? <==> Absent(list, id)
  {
    match Seqs.FindIndex(list, IdIs(id))
    case None => None
    case Some(i) => Some(list[i])
  }

  /** The lookup returns the first record carrying the identifier. */
  lemma GetFindsFirst(list: seq<Record>, id: Value, idx: nat)
    requires idx < |list| && Get(list[idx], Id) == id
    requires forall j :: 0 <= j < idx ==> Get(list[j], Id) != id
    ensures GetById(list, id) == Some(list[idx])
  {
    assert IdIs(id)(list[idx]);
  }

  /** A customer added under a fresh identifier is what the lookup of that identifier returns. */
  lemma GetAfterAdd(c: Collection, data: Record, token: string, stamp: string)
    requires Absent(c.memory, Str(token))
    ensures var r := AddCustomer(c, data, token, stamp);
      GetById(r.0.memory, Str(token)) == Some(r.1)
  {
    var r := AddCustomer(c, data, token, stamp);
    GetFindsFirst(r.0.memory, Str(token), |c.memory|);
  }

  /** After a delete the identifier is not found. */
  lemma GetAfterDelete(c: Collection, id: Value)
    ensures GetById(DeleteById(c, id).memory, id).None?
  {
  }

  /** An update that does not itself touch `id` leaves the record findable, and the lookup returns the merged record. */
  lemma GetAfterUpdate(c: Collection, id: Value, data: Record)
    requires Id !in data
    ensures var r := UpdateById(c, id, data);
      GetById(r.0.memory, id) == r.1
  {
    var r := UpdateById(c, id, data);
    var f := Seqs.FindIndex(c.memory, IdIs(id));
    if f.Some? {
      UpdateMergesFirst(c, id, data, f.value);
      GetFindsFirst(r.0.memory, id, f.value);
    }
  }

  /**
   * `saveBookingForAdmin(booking)`: re-reads the stored bookings, appends the
   * booking and writes the list back; the in-memory array is untouched.
   */
  function SaveBookingForAdmin(c: Collection, booking: Record): (r: Collection)
    ensures r.memory == c.memory
    ensures |r.stored| == |c.stored| + 1
    ensures r.stored[..|c.stored|] == PersistAll(c.stored) && r.stored[|c.stored|] == Persist(booking)
  {
    Collection(c.memory, PersistAll(c.stored + [booking]))
  }

  /** The booking modal's submit handler as written: `addBooking(data)`, then `saveBookingForAdmin` of the result. */
  function SubmitBookingAsWritten(c: Collection, data: Record, token: string, stamp: string): (r: Collection)
    ensures |r.stored| == |c.memory| + 2
  {
    var added := AddBooking(c, data, token, stamp);
    SaveBookingForAdmin(added.0, added.1)
  }

  /**
   * As written, a booking submitted under a fresh identifier is stored twice,
   * and storage no longer mirrors the page's array.
   */
  lemma SubmitStoresTwice(c: Collection, data: Record, token: string, stamp: string)
    requires Synced(c) && Absent(c.memory, Str(token))
    ensures var r := SubmitBookingAsWritten(c, data, token, stamp);
      Seqs.Count(r.stored, IdIs(Str(token))) == 2 && !Synced(r)
  {
    var added := AddBooking(c, data, token, stamp);
    var r := SubmitBookingAsWritten(c, data, token, stamp);
    var b := Persist(added.1);
    GetPersist(added.1, Id);
    AbsentPersisted(c.memory, Str(token));
    assert r.stored == c.stored + [b] + [b] by {
      PersistAllClean(added.0.stored);
    }
    Seqs.FilterNone(c.stored, IdIs(Str(token)));
    Seqs.FilterAppend(c.stored, [b], IdIs(Str(token)));
    Seqs.FilterAppend(c.stored + [b], [b], IdIs(Str(token)));
  }

  /**
   * The submit handler with the booking written once: `addBooking` already
   * saves it under the key the dashboard reads, so the second append is left out.
   */
  function SubmitBooking(c: Collection, data: Record, token: string, stamp: string): (r: Collection)
    ensures Synced(r)
    ensures |r.memory| == |c.memory| + 1 && r.memory[|c.memory|] == NewBooking(data, token, stamp)
  {
    AddBooking(c, data, token, stamp).0
  }

  /** Corrected, a booking submitted under a fresh identifier is stored exactly once. */
  lemma SubmitStoresOnce(c: Collection, data: Record, token: string, stamp: string)
    requires Absent(c.memory, Str(token))
    ensures Seqs.Count(SubmitBooking(c, data, token, stamp).stored, IdIs(Str(token))) == 1
  {
    var added := AddBooking(c, data, token, stamp);
    var b := Persist(added.1);
    GetPersist(added.1, Id);
    AbsentPersisted(c.memory, Str(token));
    assert added.0.stored == PersistAll(c.memory) + [b];
    Seqs.FilterNone(PersistAll(c.memory), IdIs(Str(token)));
    Seqs.FilterAppend(PersistAll(c.memory), [b], IdIs(Str(token)));
  }
}

=== FILE: dashboard.dfy ===
/**
 * The dashboard's save entry point and its cross-window listener
 * (js/admin-dashboard.js:50-94). After the writes, `saveBookingToAdmin` redraws
 * the bookings table, which runs the current filters over the stored bookings.
 * When the text search meets a booking it cannot lower-case, the redraw throws:
 * the writes stay, but the call returns nothing, and a message that asked for
 * the save gets no reply.
 */
module Dashboard {
  import opened Wrappers
  import opened JsValues
  import BookingLedger
  import BookingViews

  /** The ledger after a save, and the identifier returned; None when the redraw threw after the writes. */
  datatype Outcome = Outcome(ledger: BookingLedger.Ledger, returned: Option<Value>)

  /** Some stored booking makes an active text search throw. */
  predicate SearchThrows(bookings: seq<Record>, filters: BookingViews.Filters) {
    filters.q != "" && exists i :: 0 <= i < |bookings| && !BookingViews.Searchable(bookings[i])
  }

  /**
   * `saveBookingToAdmin(booking, options)` while the dashboard's filters are
   * `filters`: the writes always happen; the identifier is returned unless the
   * redraw's search throws on one of the stored bookings.
   */
  function SaveBookingToAdmin(ledger: BookingLedger.Ledger, booking: Record, options: BookingLedger.SaveOptions,
                              filters: BookingViews.Filters, stamp: string,
                              token: BookingLedger.BookingToken, dupToken: BookingLedger.BookingToken): (r: Outcome)
    requires AllClean(ledger.bookings)
    ensures r.ledger == BookingLedger.StoreBooking(ledger, booking, options, stamp, token, dupToken).ledger
    ensures r.returned.None? <==> SearchThrows(r.ledger.bookings, filters)
    ensures r.returned.Some? ==>
      r.returned.value == BookingLedger.StoreBooking(ledger, booking, options, stamp, token, dupToken).id
    ensures r.returned.Some? ==> exists i :: 0 <= i < |r.ledger.bookings| && BookingLedger.KeyOf(r.ledger.bookings[i]) == r.returned.value
  {
    var s := BookingLedger.StoreBooking(ledger, booking, options, stamp, token, dupToken);
    var u := BookingLedger.Upsert(ledger.bookings, booking, options.overwriteIfSameId, token, dupToken);
    assert BookingLedger.KeyOf(s.ledger.bookings[u.at]) == s.id;
    if BookingViews.FilterBookings(s.ledger.bookings, filters).None? then Outcome(s.ledger, None)
    else Outcome(s.ledger, Some(s.id))
  }

  /** Without a text search the redraw cannot throw, so every save returns its identifier. */
  lemma SaveReturnsWithoutSearch(ledger: BookingLedger.Ledger, booking: Record, options: BookingLedger.SaveOptions,
                                 filters: BookingViews.Filters, stamp: string,
                                 token: BookingLedger.BookingToken, dupToken: BookingLedger.BookingToken)
    requires AllClean(ledger.bookings)
    requires filters.q == ""
    ensures SaveBookingToAdmin(ledger, booking, options, filters, stamp, token, dupToken).returned
            == Some(BookingLedger.StoreBooking(ledger, booking, options, stamp, token, dupToken).id)
  {
  }

  /**
   * A new booking whose customer name is a number, saved while a search is
   * typed in, is stored and logged, but the call returns nothing.
   */
  lemma NumericNameReturnsNothing(ledger: BookingLedger.Ledger, booking: Record, options: BookingLedger.SaveOptions,
                                  filters: BookingViews.Filters, stamp: string,
                                  token: BookingLedger.BookingToken, dupToken: BookingLedger.BookingToken, n: int)
    requires AllClean(ledger.bookings)
    requires forall j :: 0 <= j < |ledger.bookings| ==>
      BookingLedger.KeyOf(ledger.bookings[j]) != BookingLedger.KeyOf(BookingLedger.NormalizeBooking(booking, token))
    requires filters.q != "" && n != 0 && Get(booking, CustomerName) == Num(n)
    ensures var r := SaveBookingToAdmin(ledger, booking, options, filters, stamp, token, dupToken);
      && r.returned.None?
      && |r.ledger.bookings| == |ledger.bookings| + 1
      && |r.ledger.auditLog| == |ledger.auditLog| + 1
  {
    BookingLedger.SaveNewAppends(ledger, booking, options, stamp, token, dupToken);
    var r := SaveBookingToAdmin(ledger, booking, options, filters, stamp, token, dupToken);
    var last := r.ledger.bookings[|ledger.bookings|];
    NumericNameUnsearchable(booking, token, n);
    assert !BookingViews.Searchable(last);
  }

  /** The stored form of a booking whose customer name is a non-zero number cannot be searched. */
  lemma NumericNameUnsearchable(booking: Record, token: BookingLedger.BookingToken, n: int)
    requires n != 0 && Get(booking, CustomerName) == Num(n)
    ensures !BookingViews.Searchable(Persist(BookingLedger.NormalizeBooking(booking, token)))
  {
    var p := Persist(BookingLedger.NormalizeBooking(booking, token));
    assert Get(p, CustomerName) == Num(n);
    assert BookingViews.SearchedValues(p)[1] == Num(n);
  }

  // ------------------------------------------------------------------ cross-window message gate

  /** The `data` of a message event: its `type` and its `payload` (None when the payload is falsy). */
  datatype MessageData = MessageData(kind: Value, payload: Option<Record>)

  /**
   * A `message` event: the sender's origin, the data (None when falsy) and
   * whether the event carries a source window to reply to.
   */
  datatype MessageEvent = MessageEvent(origin: string, data: Option<MessageData>, hasSource: bool)

  /** The reply `{ type: 'save-booking:ok', bookingId }` posted back to the sender's origin. */
  datatype Reply = Reply(kind: string, bookingId: Value, targetOrigin: string)

  /** The ledger after handling a message, and the reply sent, if any. */
  datatype Handled = Handled(ledger: BookingLedger.Ledger, reply: Option<Reply>)

  /** The conditions under which the listener acts on a message. */
  predicate IsSaveRequest(ev: MessageEvent, ownOrigin: string) {
    && ev.data.Some?
    && ev.origin == ownOrigin
    && ev.data.value.kind == Str("save-booking")
    && ev.data.value.payload.Some?
  }

  /** The options the listener saves with. */
  const MessageOptions := BookingLedger.SaveOptions(false, Str("postMessage"))

  /**
   * The `message` listener: a same-origin `save-booking` request with a payload is
   * saved without overwrite under source `postMessage` and acknowledged to the
   * sender, unless the save threw after its writes (the listener swallows the
   * exception and sends nothing); every other message is ignored.
   */
  function HandleMessage(ledger: BookingLedger.Ledger, ev: MessageEvent, ownOrigin: string,
                         filters: BookingViews.Filters, stamp: string,
                         token: BookingLedger.BookingToken, dupToken: BookingLedger.BookingToken): (h: Handled)
    requires AllClean(ledger.bookings)
    ensures !IsSaveRequest(ev, ownOrigin) ==> h == Handled(ledger, None)
    ensures IsSaveRequest(ev, ownOrigin) ==>
      var s := BookingLedger.StoreBooking(ledger, ev.data.value.payload.value, MessageOptions, stamp, token, dupToken);
      && h.ledger == s.ledger
      && (h.reply.Some? <==> ev.hasSource && !SearchThrows(s.ledger.bookings, filters))
      && (h.reply.Some? ==> h.reply.value == Reply("save-booking:ok", s.id, ev.origin))
  {
    if ev.data.None? then Handled(ledger, None)
    else if ev.origin != ownOrigin then Handled(ledger, None)
    else if ev.data.value.kind == Str("save-booking") && ev.data.value.payload.Some? then
      var s := SaveBookingToAdmin(ledger, ev.data.value.payload.value, MessageOptions, filters, stamp, token, dupToken);
      Handled(s.ledger, if ev.hasSource && s.returned.Some? then Some(Reply("save-booking:ok", s.returned.value, ev.origin)) else None)
    else Handled(ledger, None)
  }

  /** A message from any other origin never changes the ledger and is never answered. */
  lemma CrossOriginIgnored(ledger: BookingLedger.Ledger, ev: MessageEvent, ownOrigin: string,
                           filters: BookingViews.Filters, stamp: string,
                           token: BookingLedger.BookingToken, dupToken: BookingLedger.BookingToken)
    requires AllClean(ledger.bookings)
    requires ev.origin != ownOrigin
    ensures HandleMessage(ledger, ev, ownOrigin, filters, stamp, token, dupToken) == Handled(ledger, None)
  {
  }

  /**
   * An accepted request grows the audit log by exactly one `create_booking`
   * entry tagged `postMessage`, whether or not it is answered.
   */
  lemma AcceptedRequestAudited(ledger: BookingLedger.Ledger, ev: MessageEvent, ownOrigin: string,
                               filters: BookingViews.Filters, stamp: string,
                               token: BookingLedger.BookingToken, dupToken: BookingLedger.BookingToken)
    requires AllClean(ledger.bookings)
    requires IsSaveRequest(ev, ownOrigin)
    ensures var h := HandleMessage(ledger, ev, ownOrigin, filters, stamp, token, dupToken);
      && |h.ledger.auditLog| == |ledger.auditLog| + 1
      && h.ledger.auditLog[|ledger.auditLog|].kind == "create_booking"
      && h.ledger.auditLog[|ledger.auditLog|].details[Source] == Str("postMessage")
  {
  }
}

=== FILE: js_values.dfy ===
/**
 * JavaScript values and plain objects as the scripts see them after `JSON.parse`:
 * the truthiness rules that `||`, `!` and `!!` apply, the loose `== null` test,
 * object spread, and what `JSON.stringify` keeps when a record is persisted.
 */
module JsValues {
  import Text

  /** A primitive JavaScript value. Numbers are modelled as integers. */
  datatype Value = Undefined | Null | Bool(b: bool) | Num(n: int) | Str(s: string)

  /** `String(v)`: how a value reads when concatenated into a string. */
  function ToJsString(v: Value): string {
    match v
    case Undefined => "undefined"
    case Null => "null"
    case Bool(b) => if b then "true" else "false"
    case Num(n) => Text.IntToDecimal(n)
    case Str(s) => s
  }

  /**
   * How a displayed or exported `v || ''` shows a property: a string as itself,
   * a non-zero number as its decimal digits, `true` as `true`, a falsy value as
   * nothing.
   */
  predicate ShownAs(v: Value, t: string) {
    && (v.Str? ==> t == v.s)
    && (v.Num? && v.n != 0 ==> t == Text.IntToDecimal(v.n))
    && (v == Bool(true) ==> t == "true")
    && (!Truthy(v) ==> t == "")
  }

  /** `ShownAs` fixes the text of every value: it is exactly `String(v || '')`. */
  lemma ShownAsIsTextOr(v: Value, t: string)
    ensures ShownAs(v, t) <==> t == TextOr(v)
  {
  }

  /** `String(v || '')`: the text of a truthy value, the empty string for a falsy one. */
  function TextOr(v: Value): (t: string)
    ensures t == "" <==> !Truthy(v)
    ensures v.Str? ==> t == v.s
  {
    if Truthy(v) then ToJsString(v) else ""
  }

  /**
   * A property name. Every name the scripts read or write has its own
   * constructor; `Other` stands for any further property a payload may carry.
   */
  datatype Field =
    | BookingId | LegacyBookingId | Tour | TourName | CustomerName | Name | Email | Date
    | People | Guests | Amount | Price | Payment | Approved | ApprovedAt | Status | RefundedAt
    | Source | AgentCode | Agent | Code | Used | Description | Type | ValueField | StartDate
    | EndDate | UsageLimit | CustomerEmail | Number | ExpiryDate | Notes | CommissionPct
    | Id | Phone | Address | CreatedAt | CustomerId | TourId | BookingDate | NumberOfPeople
    | TotalAmount | ContactNumber | Password | Total
    | Other(name: string)
  {
    /** The property's name as written in the scripts and in the stored JSON. */
    function JsName(): string {
      match this
      case BookingId => "bookingId"
      case LegacyBookingId => "bookingID"
      case Tour => "tour"
      case TourName => "tourName"
      case CustomerName => "customerName"
      case Name => "name"
      case Email => "email"
      case Date => "date"
      case People => "people"
      case Guests => "guests"
      case Amount => "amount"
      case Price => "price"
      case Payment => "payment"
      case Approved => "approved"
      case ApprovedAt => "approvedAt"
      case Status => "status"
      case RefundedAt => "refundedAt"
      case Source => "source"
      case AgentCode => "agentCode"
      case Agent => "agent"
      case Code => "code"
      case Used => "used"
      case Description => "description"
      case Type => "type"
      case ValueField => "value"
      case StartDate => "startDate"
      case EndDate => "endDate"
      case UsageLimit => "usageLimit"
      case CustomerEmail => "customerEmail"
      case Number => "number"
      case ExpiryDate => "expiryDate"
      case Notes => "notes"
      case CommissionPct => "commissionPct"
      case Id => "id"
      case Phone => "phone"
      case Address => "address"
      case CreatedAt => "createdAt"
      case CustomerId => "customerId"
      case TourId => "tourId"
      case BookingDate => "bookingDate"
      case NumberOfPeople => "numberOfPeople"
      case TotalAmount => "totalAmount"
      case ContactNumber => "contactNumber"
      case Password => "password"
      case Total => "total"
      case Other(n) => n
    }
  }

  /** A plain object: property to value. An absent property reads as `Undefined`. */
  type Record = map<Field, Value>

  /** JavaScript truthiness: `undefined`, `null`, `false`, `0` and `""` are falsy. */
  predicate Truthy(v: Value) {
    match v
    case Undefined => false
    case Null => false
    case Bool(b) => b
    case Num(n) => n != 0
    case Str(s) => s != ""
  }

  /** `v == null` (loose equality): true exactly for `null` and `undefined`. */
  predicate Nullish(v: Value) {
    v.Undefined? || v.Null?
  }

  /** `a || b`: the first operand when it is truthy, otherwise the second. */
  function Or(a: Value, b: Value): (r: Value)
    ensures Truthy(r) <==> Truthy(a) || Truthy(b)
    ensures r == a || r == b
  {
    if Truthy(a) then a else b
  }

  /** Property read `r.k`; a missing property reads as `undefined`. */
  function Get(r: Record, k: Field): Value {
    if k in r then r[k] else Undefined
  }

  /** `{ ...base, ...over }`: every key of either, with `over` winning on a clash. */
  function Spread(base: Record, over: Record): (r: Record)
    ensures r.Keys == base.Keys + over.Keys
    ensures forall k :: k in over ==> r[k] == over[k]
    ensures forall k :: k in base && k !in over ==> r[k] == base[k]
  {
    base + over
  }

  /** A record that survives a JSON round trip unchanged: no property holds `undefined`. */
  predicate Clean(r: Record) {
    forall k :: k in r ==> r[k] != Undefined
  }

  /** What `JSON.parse(JSON.stringify(r))` gives back: properties holding `undefined` are dropped. */
  function Persist(r: Record): (p: Record)
    ensures Clean(p)
    ensures forall k :: k in p <==> k in r && r[k] != Undefined
    ensures forall k :: k in p ==> p[k] == r[k]
    ensures Clean(r) ==> p == r
  {
    map k | k in r && r[k] != Undefined :: r[k]
  }

  /** A whole collection written with `localStorage.setItem(key, JSON.stringify(list))` and read back. */
  function PersistAll(list: seq<Record>): (p: seq<Record>)
    ensures |p| == |list|
    ensures forall i :: 0 <= i < |list| ==> p[i] == Persist(list[i])
  {
    seq(|list|, i requires 0 <= i < |list| => Persist(list[i]))
  }

  /** Every record of the collection is JSON-clean, as anything read back from storage is. */
  predicate AllClean(list: seq<Record>) {
    forall i :: 0 <= i < |list| ==> Clean(list[i])
  }

  /** Persisting a collection of clean records changes nothing. */
  lemma PersistAllClean(list: seq<Record>)
    requires AllClean(list)
    ensures PersistAll(list) == list
  {
  }

  /** Reading a property of a persisted record gives what the record held: a dropped `undefined` still reads as `undefined`. */
  lemma GetPersist(r: Record, k: Field)
    ensures Get(Persist(r), k) == Get(r, k)
  {
    if k in r && r[k] == Undefined {
      assert k !in Persist(r);
    }
  }
}

=== FILE: portal.dfy ===
/**
 * The customer portal script (js/main.js): the security form's password
 * change, the activity icons, the saved contacts, the tour booking engine and
 * the active-bookings count of the dashboard.
 */
module Portal {
  import opened Wrappers
  import opened JsValues
  import Text
  import Seqs
  import Base64
  import Auth

  // ------------------------------------------------------------------ password change

  /** How the security form's submission ended. `Throws` is an uncaught error: no session, or an undecodable stored password. */
  datatype PasswordChange = Throws | WrongCurrent | Mismatch | Weak | Changed(stored: string)

  /** The password rule of this script, the same regular expression as the sign-in page's. */
  predicate ValidPassword(s: string) {
    Auth.PasswordOk(s)
  }

  /** A valid password is ASCII, so `btoa` accepts it. */
  lemma ValidPasswordIsLatin1(s: string)
    requires ValidPassword(s)
    ensures Base64.IsLatin1(s)
  {
    forall i | 0 <= i < |s|
      ensures s[i] as int < 256
    {
      assert Auth.IsAsciiAlnum(s[i]);
    }
  }

  /**
   * The security form's submit handler. `session` is the `password` property of
   * the stored `userData`, or `None` when there is no session (`checkAuth()`
   * returns nothing). The checks run in order: the decoded stored password
   * against the current one, the new one against its confirmation, then the
   * password rule; only when all pass is `btoa(new)` stored.
   */
  function ChangePassword(session: Option<Value>, current: string, newPassword: string, confirm: string): (r: PasswordChange)
    ensures r.Throws? <==> session.None? || Base64.Atob(ToJsString(session.value)).None?
    ensures r.WrongCurrent? <==> session.Some? && Base64.Atob(ToJsString(session.value)).Some?
                                 && Base64.Atob(ToJsString(session.value)).value != current
    ensures r.Mismatch? <==> session.Some? && Base64.Atob(ToJsString(session.value)) == Some(current) && newPassword != confirm
    ensures r.Weak? <==> session.Some? && Base64.Atob(ToJsString(session.value)) == Some(current)
                         && newPassword == confirm && !ValidPassword(newPassword)
    ensures r.Changed? ==> Base64.Atob(r.stored) == Some(newPassword)
  {
    match session
    case None => Throws
    case Some(stored) =>
      match Base64.Atob(ToJsString(stored))
      case None => Throws
      case Some(decoded) =>
        if decoded != current then WrongCurrent
        else if newPassword != confirm then Mismatch
        else if !ValidPassword(newPassword) then Weak
        else
          ValidPasswordIsLatin1(newPassword);
          Base64.AtobBtoa(newPassword);
          Changed(Base64.Btoa(newPassword).value)
  }

  /** After a change, the next change's current-password check accepts exactly the new password. */
  lemma NextChangeAcceptsNew(session: Option<Value>, current: string, newPassword: string, confirm: string,
                             current2: string, newPassword2: string, confirm2: string)
    requires ChangePassword(session, current, newPassword, confirm).Changed?
    ensures var next := ChangePassword(Some(Str(ChangePassword(session, current, newPassword, confirm).stored)),
                                       current2, newPassword2, confirm2);
      next.WrongCurrent? <==> current2 != newPassword
  {
  }

  // ------------------------------------------------------------------ activity icons

  /** `getActivityIcon(type)`: the icon of a known activity type, `circle` for any other. */
  function ActivityIcon(kind: string): (icon: string)
    ensures icon == "circle" <==> kind !in {"booking", "customer", "tour", "supplier"}
  {
    if kind == "booking" then "calendar-check"
    else if kind == "customer" then "user"
    else if kind == "tour" then "map-marked-alt"
    else if kind == "supplier" then "handshake"
    else "circle"
  }

  /** Distinct activity types get distinct icons, so an icon tells its type. */
  lemma IconsTellTypesApart(k1: string, k2: string)
    requires ActivityIcon(k1) != "circle" && ActivityIcon(k1) == ActivityIcon(k2)
    ensures k1 == k2
  {
  }

  // ------------------------------------------------------------------ contacts

  /** The contact form: the trimmed value is appended to `customerContacts` unless it is empty. */
  function AddContact(contacts: seq<string>, typed: string): (r: seq<string>)
    ensures Text.Trim(typed) == "" ==> r == contacts
    ensures Text.Trim(typed) != "" ==> |r| == |contacts| + 1 && r[..|contacts|] == contacts && r[|contacts|] == Text.Trim(typed)
    ensures forall i :: 0 <= i < |r| ==> r[i] in contacts || r[i] == Text.Trim(typed)
  {
    var v := Text.Trim(typed);
    if v == "" then contacts else contacts + [v]
  }

  /** A contact's remove button: `contacts.splice(i, 1)`, `i` being the contact's position. */
  function RemoveContact(contacts: seq<string>, i: nat): (r: seq<string>)
    ensures i < |contacts| ==> r == Seqs.RemoveAt(contacts, i)
    ensures i >= |contacts| ==> r == contacts
  {
    Seqs.Splice1(contacts, i)
  }

  /** Removing the contact just added gives the list back. */
  lemma RemoveUndoesAdd(contacts: seq<string>, typed: string)
    requires Text.Trim(typed) != ""
    ensures RemoveContact(AddContact(contacts, typed), |contacts|) == contacts
  {
    assert AddContact(contacts, typed)[..|contacts|] == contacts;
  }

  // ------------------------------------------------------------------ booking engine

  /** A stored tour; `price` is `parseFloat` of the form's price, so `null` once a NaN has been stored. */
  datatype StoredTour = StoredTour(name: Value, schedule: Value, price: Value)

  /**
   * The array index a property key names (`tours[key]`): a canonical decimal,
   * as the tour select's option values `i` are; any other key names no element.
   */
  function IndexKey(key: string): (r: Option<nat>)
    ensures r.Some? ==> Text.NatToDecimal(r.value) == key
  {
    if key != "" && Text.AllDigits(key) && Text.NatToDecimal(Text.DecimalValue(key)) == key
    then Some(Text.DecimalValue(key)) else None
  }

  /** The key the select writes for position `i` names position `i`. */
  lemma OptionKeyNamesTour(i: nat)
    ensures IndexKey(Text.NatToDecimal(i)) == Some(i)
  {
    Text.DecimalRoundTrip(i);
  }

  /**
   * `Number(v)` for the operands of `price * people`: `undefined` is NaN
   * (`None`), `null` and `false` are 0, a string is read by `Number`'s rules.
   */
  function NumberOf(v: Value): Option<int> {
    match v
    case Undefined => None
    case Null => Some(0)
    case Bool(b) => Some(if b then 1 else 0)
    case Num(n) => Some(n)
    case Str(s) => Text.ToNumber(s)
  }

  /** `price * people`, NaN (stored as `null`) when either side is not a number. */
  function Times(price: Value, people: Value): Value {
    match (NumberOf(price), NumberOf(people))
    case (Some(p), Some(n)) => Num(p * n)
    case _ => Null
  }

  /** The record `{tour, date, people, price, total, status: 'confirmed', payment, id}` for a given total. */
  function EngineRecord(t: StoredTour, date: string, people: string, payment: string, now: nat, total: Value): (b: Record)
    ensures b.Keys == {Tour, Date, People, Price, Total, Status, Payment, Id}
    ensures Get(b, Status) == Str("confirmed") && Get(b, Id) == Str("BK" + Text.NatToDecimal(now))
    ensures Get(b, Tour) == t.name && Get(b, Price) == t.price && Get(b, People) == Str(people)
    ensures Get(b, Date) == Str(date) && Get(b, Payment) == Str(payment)
    ensures Get(b, Total) == total
  {
    map[Tour := t.name, Date := Str(date), People := Str(people), Price := t.price,
        Total := total, Status := Str("confirmed"), Payment := Str(payment),
        Id := Str("BK" + Text.NatToDecimal(now))]
  }

  /** The booking record the engine builds; `now` is `Date.now()`. */
  function EngineBooking(t: StoredTour, date: string, people: string, payment: string, now: nat): (b: Record)
    ensures b.Keys == {Tour, Date, People, Price, Total, Status, Payment, Id}
    ensures Get(b, Status) == Str("confirmed") && Get(b, Id) == Str("BK" + Text.NatToDecimal(now))
    ensures Get(b, Tour) == t.name && Get(b, Price) == t.price && Get(b, People) == Str(people)
    ensures Get(b, Date) == Str(date) && Get(b, Payment) == Str(payment)
    ensures Get(b, Total) == Times(t.price, Str(people))
  {
    EngineRecord(t, date, people, payment, now, Times(t.price, Str(people)))
  }

  /** `list.unshift(b)` on clean stored records, written and read back: `b` loses its `undefined`s, the rest is unchanged. */
  lemma UnshiftPersisted(b: Record, bookings: seq<Record>)
    requires AllClean(bookings)
    ensures PersistAll([b] + bookings) == [Persist(b)] + bookings
  {
    PersistAllClean(bookings);
  }

  /**
   * The booking form's submit handler: with a key that names no tour nothing
   * happens (`None`); otherwise the new booking goes to the front of the
   * stored bookings, which are otherwise unchanged.
   */
  function SubmitTourBooking(tours: seq<StoredTour>, bookings: seq<Record>, key: string,
                             date: string, people: string, payment: string, now: nat): (r: Option<seq<Record>>)
    requires AllClean(bookings)
    ensures r.None? <==> IndexKey(key).None? || IndexKey(key).value >= |tours|
    ensures r.Some? ==>
      r.value == [Persist(EngineBooking(tours[IndexKey(key).value], date, people, payment, now))] + bookings
  {
    match IndexKey(key)
    case None => None
    case Some(i) =>
      if i >= |tours| then None
      else
        var b := EngineBooking(tours[i], date, people, payment, now);
        UnshiftPersisted(b, bookings);
        Some(PersistAll([b] + bookings))
  }

  /** The people field written as the digits of `n` counts `n` people. */
  lemma PeopleCount(n: nat)
    ensures NumberOf(Str(Text.NatToDecimal(n))) == Some(n)
  {
    Text.ToNumberRoundTrip(n);
  }

  /** A tour with a numeric price booked for `n` people records the total `price * n`. */
  lemma TotalIsPriceTimesPeople(t: StoredTour, date: string, n: nat, payment: string, now: nat, p: int)
    requires t.price == Num(p)
    ensures Get(EngineBooking(t, date, Text.NatToDecimal(n), payment, now), Total) == Num(p * n)
  {
    PeopleCount(n);
  }

  // ------------------------------------------------------------------ dashboard count

  /** `b => b.status === 'confirmed'`. */
  function Confirmed(): Record -> bool {
    (b: Record) => Get(b, Status) == Str("confirmed")
  }

  /** The active-bookings count: how many bookings of a list are confirmed. */
  function ActiveBookings(bookings: seq<Record>): (n: nat)
    ensures n <= |bookings|
  {
    Seqs.Count(bookings, Confirmed())
  }

  /** The active count goes booking by booking: a list's first booking adds one exactly when its status is `confirmed`. */
  lemma ActiveBookingsCons(b: Record, rest: seq<Record>)
    ensures ActiveBookings([b] + rest) == (if Get(b, Status) == Str("confirmed") then 1 else 0) + ActiveBookings(rest)
  {
    Seqs.FilterAppend([b], rest, Confirmed());
    assert Seqs.Filter([b], Confirmed()) == (if Confirmed()(b) then [b] else []) by {
      assert [b][1..] == [];
    }
  }

  /**
   * The module-level `bookings` list the dashboard figures read: it starts empty
   * and nothing assigns it (the engine's handler works on a local list it reads
   * from and writes to storage).
   */
  const InMemoryBookings: seq<Record> := []

  /** The active-bookings figure as the dashboard shows it: counted over the in-memory list, whatever is stored. */
  function ShownActiveBookings(stored: seq<Record>): (n: nat)
    ensures n == 0
  {
    ActiveBookings(InMemoryBookings)
  }

  /**
   * A booking made by the engine is stored and confirmed, yet the figure shown
   * stays 0 while the confirmed count over the stored bookings rises by one.
   */
  lemma ShownFigureMissesEngineBooking(tours: seq<StoredTour>, bookings: seq<Record>, key: string,
                                       date: string, people: string, payment: string, now: nat)
    requires AllClean(bookings)
    requires SubmitTourBooking(tours, bookings, key, date, people, payment, now).Some?
    ensures var stored := SubmitTourBooking(tours, bookings, key, date, people, payment, now).value;
      && ShownActiveBookings(stored) == 0
      && ActiveBookings(stored) >= 1
      && ShownActiveBookings(stored) != ActiveBookings(stored)
  {
    EngineBookingIsActive(tours, bookings, key, date, people, payment, now);
  }

  /** Every booking the engine makes is confirmed, so each one adds one to the confirmed count over the stored bookings. */
  lemma EngineBookingIsActive(tours: seq<StoredTour>, bookings: seq<Record>, key: string,
                              date: string, people: string, payment: string, now: nat)
    requires AllClean(bookings)
    requires SubmitTourBooking(tours, bookings, key, date, people, payment, now).Some?
    ensures ActiveBookings(SubmitTourBooking(tours, bookings, key, date, people, payment, now).value)
            == ActiveBookings(bookings) + 1
  {
    var r := SubmitTourBooking(tours, bookings, key, date, people, payment, now).value;
    var b := EngineBooking(tours[IndexKey(key).value], date, people, payment, now);
    GetPersist(b, Status);
    Seqs.FilterAppend([Persist(b)], bookings, Confirmed());
    assert Seqs.Filter([Persist(b)], Confirmed()) == [Persist(b)] by {
      assert [Persist(b)][1..] == [];
    }
  }
}

=== FILE: seqs.dfy ===
/**
 * Array operations the scripts use on their collections: `filter`, `findIndex`,
 * `splice(i, 1)`, counting, and the order-preserving subsequence relation that
 * every filter establishes.
 */
module Seqs {
  import opened Wrappers

  /** `a` can be obtained from `b` by deleting elements, keeping the order of the rest. */
  predicate IsSubsequence<T(==)>(a: seq<T>, b: seq<T>)
    decreases |b|
  {
    if a == [] then true
    else if b == [] then false
    else if a[0] == b[0] then IsSubsequence(a[1..], b[1..])
    else IsSubsequence(a, b[1..])
  }

  /** `s.filter(p)`: the elements satisfying `p`, in their original order. */
  function Filter<T(!new)>(s: seq<T>, p: T -> bool): (r: seq<T>)
    ensures |r| <= |s|
    ensures forall x :: x in r <==> x in s && p(x)
    ensures forall i :: 0 <= i < |r| ==> p(r[i])
    decreases |s|
  {
    if s == [] then []
    else if p(s[0]) then [s[0]] + Filter(s[1..], p)
    else Filter(s[1..], p)
  }

  /** A filter keeps an order-preserving subsequence of its input. */
  lemma {:induction false} FilterIsSubsequence<T(!new)>(s: seq<T>, p: T -> bool)
    ensures IsSubsequence(Filter(s, p), s)
    decreases |s|
  {
    if s != [] {
      FilterIsSubsequence(s[1..], p);
      if p(s[0]) {
        assert Filter(s, p) == [s[0]] + Filter(s[1..], p);
        assert Filter(s, p)[1..] == Filter(s[1..], p);
      } else if Filter(s, p) != [] {
        assert p(Filter(s, p)[0]);
      }
    }
  }

  /** A filter whose predicate holds everywhere keeps the whole input. */
  lemma {:induction false} FilterAll<T(!new)>(s: seq<T>, p: T -> bool)
    requires forall i :: 0 <= i < |s| ==> p(s[i])
    ensures Filter(s, p) == s
    decreases |s|
  {
    if s != [] {
      FilterAll(s[1..], p);
    }
  }

  /** A filter whose predicate holds nowhere keeps nothing. */
  lemma {:induction false} FilterNone<T(!new)>(s: seq<T>, p: T -> bool)
    requires forall i :: 0 <= i < |s| ==> !p(s[i])
    ensures Filter(s, p) == []
    decreases |s|
  {
    if s != [] {
      FilterNone(s[1..], p);
    }
  }

  /** Filtering distributes over concatenation. */
  lemma {:induction false} FilterAppend<T(!new)>(a: seq<T>, b: seq<T>, p: T -> bool)
    ensures Filter(a + b, p) == Filter(a, p) + Filter(b, p)
    decreases |a|
  {
    if a == [] {
      assert a + b == b;
    } else {
      assert (a + b)[1..] == a[1..] + b;
      FilterAppend(a[1..], b, p);
    }
  }

  /**
   * `r` holds every element satisfying `p` exactly as often as `s` does, and
   * nothing else: the multiplicity statement of a filter.
   */
  ghost predicate KeepsCounts<T(!new)>(r: seq<T>, s: seq<T>, p: T -> bool) {
    forall x :: multiset(r)[x] == if p(x) then multiset(s)[x] else 0
  }

  /** A filter keeps each satisfying element as many times as it occurs, and drops the rest entirely. */
  lemma {:induction false} FilterMultiset<T(!new)>(s: seq<T>, p: T -> bool)
    ensures KeepsCounts(Filter(s, p), s, p)
    decreases |s|
  {
    if s != [] {
      FilterMultiset(s[1..], p);
      assert s == [s[0]] + s[1..];
      assert multiset(s) == multiset{s[0]} + multiset(s[1..]);
      if p(s[0]) {
        assert multiset(Filter(s, p)) == multiset{s[0]} + multiset(Filter(s[1..], p));
      }
    }
  }

  /** Filters with equivalent predicates agree. */
  lemma {:induction false} FilterCongruent<T(!new)>(s: seq<T>, p: T -> bool, q: T -> bool)
    requires forall i :: 0 <= i < |s| ==> (p(s[i]) <==> q(s[i]))
    ensures Filter(s, p) == Filter(s, q)
    decreases |s|
  {
    if s != [] {
      FilterCongruent(s[1..], p, q);
    }
  }

  /** The number of elements satisfying `p` (the `length` of `s.filter(p)`). */
  function Count<T(!new)>(s: seq<T>, p: T -> bool): (n: nat)
    ensures n <= |s|
  {
    |Filter(s, p)|
  }

  /** Two predicates that never hold together select at most `|s|` elements between them. */
  lemma {:induction false} DisjointCounts<T(!new)>(s: seq<T>, p: T -> bool, q: T -> bool)
    requires forall i :: 0 <= i < |s| ==> !(p(s[i]) && q(s[i]))
    ensures Count(s, p) + Count(s, q) <= |s|
    decreases |s|
  {
    if s != [] {
      DisjointCounts(s[1..], p, q);
    }
  }

  /**
   * When `p` holds exactly where one of two never-coinciding predicates `q`, `r`
   * holds, `p` selects as many elements as `q` and `r` together.
   */
  lemma {:induction false} CountSplit<T(!new)>(s: seq<T>, p: T -> bool, q: T -> bool, r: T -> bool)
    requires forall i :: 0 <= i < |s| ==> (p(s[i]) <==> q(s[i]) || r(s[i]))
    requires forall i :: 0 <= i < |s| ==> !(q(s[i]) && r(s[i]))
    ensures Count(s, p) == Count(s, q) + Count(s, r)
    decreases |s|
  {
    if s != [] {
      CountSplit(s[1..], p, q, r);
    }
  }

  /** `s.findIndex(p)`: the first position whose element satisfies `p`, if any. */
  function FindIndex<T>(s: seq<T>, p: T -> bool): (r: Option<nat>)
    ensures r.Some? ==> r.value < |s| && p(s[r.value])
    ensures r.Some? ==> forall j :: 0 <= j < r.value ==> !p(s[j])
    ensures r.None? <==> forall j :: 0 <= j < |s| ==> !p(s[j])
    decreases |s|
  {
    if s == [] then None
    else if p(s[0]) then Some(0)
    else match FindIndex(s[1..], p)
      case None => None
      case Some(j) => Some(j + 1)
  }

  /** `s.splice(i, 1)` for an index inside the array. */
  function RemoveAt<T>(s: seq<T>, i: nat): (r: seq<T>)
    requires i < |s|
    ensures |r| == |s| - 1
    ensures forall j :: 0 <= j < i ==> r[j] == s[j]
    ensures forall j :: i <= j < |r| ==> r[j] == s[j + 1]
  {
    s[..i] + s[i + 1..]
  }

  /**
   * `s.splice(start, 1)` for any integer `start`: a negative start counts from
   * the end (clamped at 0) and a start at or past the end removes nothing.
   */
  function Splice1<T>(s: seq<T>, start: int): (r: seq<T>)
    ensures 0 <= start < |s| ==> r == RemoveAt(s, start)
    ensures start >= |s| ==> r == s
    ensures -|s| <= start < 0 ==> r == RemoveAt(s, |s| + start)
    ensures start < -|s| && s != [] ==> r == s[1..]
  {
    var k := if start < 0 then (if |s| + start < 0 then 0 else |s| + start) else start;
    if k < |s| then RemoveAt(s, k) else s
  }

  /** `s.filter((_, i) => i !== idx)`: the element at `idx` is dropped; any other index drops nothing. */
  function DropIndex<T>(s: seq<T>, idx: int): (r: seq<T>)
    ensures 0 <= idx < |s| ==> r == RemoveAt(s, idx)
    ensures !(0 <= idx < |s|) ==> r == s
  {
    if 0 <= idx < |s| then RemoveAt(s, idx) else s
  }

  /** The position in `s` of the element a filter keeps at position `n`. */
  function NthIndex<T(!new)>(s: seq<T>, p: T -> bool, n: nat): (k: nat)
    requires n < Count(s, p)
    ensures k < |s| && p(s[k])
    ensures s[k] == Filter(s, p)[n]
    decreases |s|
  {
    if p(s[0]) then
      if n == 0 then 0 else 1 + NthIndex(s[1..], p, n - 1)
    else 1 + NthIndex(s[1..], p, n)
  }

  /** A filter that keeps everything keeps each element where it was. */
  lemma {:induction false} NthIndexAll<T(!new)>(s: seq<T>, p: T -> bool, n: nat)
    requires forall i :: 0 <= i < |s| ==> p(s[i])
    requires n < Count(s, p)
    ensures NthIndex(s, p, n) == n
    decreases |s|
  {
    if n > 0 {
      NthIndexAll(s[1..], p, n - 1);
    }
  }
}

=== FILE: text.dfy ===
/**
 * The string built-ins the scripts rely on: `trim`, `toLowerCase`, `includes`,
 * `replace` of a single character, `split(c)[0]`, number-to-string conversion
 * and the leading-number parse of `parseFloat`.
 */
module Text {
  import opened Wrappers

  /**
   * The characters JavaScript's `\s` matches, which are also exactly the
   * characters `String.prototype.trim` removes (WhiteSpace and LineTerminator).
   */
  predicate IsJsWhitespace(c: char) {
    var n := c as int;
    n == 0x09 || n == 0x0A || n == 0x0B || n == 0x0C || n == 0x0D || n == 0x20
    || n == 0xA0 || n == 0x1680 || (0x2000 <= n <= 0x200A) || n == 0x2028 || n == 0x2029
    || n == 0x202F || n == 0x205F || n == 0x3000 || n == 0xFEFF
  }

  predicate AllWhitespace(s: string) {
    forall i :: 0 <= i < |s| ==> IsJsWhitespace(s[i])
  }

  /** Removes leading whitespace: the result is a suffix of `s` and everything cut off is whitespace. */
  function TrimStart(s: string): (r: string)
    ensures |r| <= |s| && r == s[|s| - |r|..]
    ensures AllWhitespace(s[..|s| - |r|])
    ensures r == [] || !IsJsWhitespace(r[0])
    decreases |s|
  {
    if s != [] && IsJsWhitespace(s[0]) then TrimStart(s[1..]) else s
  }

  /** Removes trailing whitespace: the result is a prefix of `s` and everything cut off is whitespace. */
  function TrimEnd(s: string): (r: string)
    ensures |r| <= |s| && r == s[..|r|]
    ensures AllWhitespace(s[|r|..])
    ensures r == [] || !IsJsWhitespace(r[|r| - 1])
    decreases |s|
  {
    if s != [] && IsJsWhitespace(s[|s| - 1]) then
      var r := TrimEnd(s[..|s| - 1]);
      assert s[..|s| - 1][..|r|] == s[..|r|];
      assert s[|r|..] == s[..|s| - 1][|r|..] + [s[|s| - 1]];
      r
    else s
  }

  /** `s.trim()`. */
  function Trim(s: string): (r: string)
    ensures |r| <= |s|
    ensures r == [] || (!IsJsWhitespace(r[0]) && !IsJsWhitespace(r[|r| - 1]))
  {
    var a := TrimStart(s);
    var r := TrimEnd(a);
    assert r == [] || r[0] == a[0];
    r
  }

  /** `r` sits in `s` at position `k`, with only whitespace before and after it. */
  predicate TrimmedFrom(s: string, k: nat, r: string) {
    k + |r| <= |s| && r == s[k..k + |r|] && AllWhitespace(s[..k]) && AllWhitespace(s[k + |r|..])
  }

  /**
   * Trimming keeps an infix of the input and cuts off only whitespace around
   * it; the infix starts where the leading whitespace ends.
   */
  lemma TrimInfix(s: string)
    ensures TrimmedFrom(s, |s| - |TrimStart(s)|, Trim(s))
  {
    var a := TrimStart(s);
    var r := TrimEnd(a);
    assert Trim(s) == r;
    InfixOfSuffix(s, a, r);
  }

  /** A prefix `r` of a suffix `a` of `s` sits in `s` where `a` starts, followed by the rest of `a`. */
  lemma InfixOfSuffix(s: string, a: string, r: string)
    requires |a| <= |s| && a == s[|s| - |a|..] && AllWhitespace(s[..|s| - |a|])
    requires |r| <= |a| && r == a[..|r|] && AllWhitespace(a[|r|..])
    ensures TrimmedFrom(s, |s| - |a|, r)
  {
    var k := |s| - |a|;
    assert s[k + |r|..] == a[|r|..];
  }

  /** Trimming leaves a string without surrounding whitespace as it is. */
  lemma TrimUntrimmed(s: string)
    requires s == [] || (!IsJsWhitespace(s[0]) && !IsJsWhitespace(s[|s| - 1]))
    ensures Trim(s) == s
  {
  }

  /** `c.toLowerCase()` on the ASCII range (other characters are left as they are). */
  function LowerChar(c: char): char {
    if 'A' <= c <= 'Z' then (c as int + 32) as char else c
  }

  /** `s.toLowerCase()`, character by character on the ASCII range. */
  function Lower(s: string): (r: string)
    ensures |r| == |s|
    ensures forall i :: 0 <= i < |s| ==> r[i] == LowerChar(s[i])
  {
    seq(|s|, i requires 0 <= i < |s| => LowerChar(s[i]))
  }

  /** `hay.includes(needle)`: `needle` occurs at some position of `hay` (the empty string occurs everywhere). */
  predicate Includes(hay: string, needle: string) {
    exists i | 0 <= i <= |hay| - |needle| :: OccursAt(hay, needle, i)
  }

  /** `needle` occurs in `hay` starting at position `i`. */
  predicate OccursAt(hay: string, needle: string, i: int) {
    0 <= i <= |hay| - |needle| && hay[i..i + |needle|] == needle
  }

  lemma IncludesEmpty(hay: string)
    ensures Includes(hay, "")
  {
    assert OccursAt(hay, "", 0);
  }

  /** A needle whose first character the haystack lacks does not occur in it. */
  lemma MissingFirstChar(hay: string, needle: string)
    requires needle != [] && needle[0] !in hay
    ensures !Includes(hay, needle)
  {
    forall i | 0 <= i <= |hay| - |needle|
      ensures !OccursAt(hay, needle, i)
    {
      assert hay[i] in hay;
    }
  }

  /** `s.indexOf(c)`: the first position holding `c`, if any. */
  function IndexOfChar(s: string, c: char): (r: Option<nat>)
    ensures r.Some? ==> r.value < |s| && s[r.value] == c && c !in s[..r.value]
    ensures r.None? <==> c !in s
    decreases |s|
  {
    if s == [] then None
    else if s[0] == c then Some(0)
    else match IndexOfChar(s[1..], c)
      case None => None
      case Some(j) =>
        assert s[..j + 1] == [s[0]] + s[1..][..j];
        Some(j + 1)
  }

  /** `s.replace(c, '')` with a one-character pattern: only the FIRST occurrence is removed. */
  function RemoveFirst(s: string, c: char): (r: string)
    ensures c !in s ==> r == s
    ensures c in s ==> |r| == |s| - 1
    ensures c in s ==> exists k :: 0 <= k < |s| && s[k] == c && c !in s[..k] && r == s[..k] + s[k + 1..]
  {
    match IndexOfChar(s, c)
    case None => s
    case Some(k) => s[..k] + s[k + 1..]
  }

  /** `s.split(c)[0]`: everything before the first `c`, or all of `s` when there is none. */
  function BeforeFirst(s: string, c: char): (r: string)
    ensures c !in r
    ensures |r| <= |s| && r == s[..|r|]
    ensures |r| < |s| ==> s[|r|] == c
    decreases |s|
  {
    if s == [] || s[0] == c then [] else [s[0]] + BeforeFirst(s[1..], c)
  }

  predicate IsDigit(c: char) {
    '0' <= c <= '9'
  }

  predicate AllDigits(s: string) {
    forall i :: 0 <= i < |s| ==> IsDigit(s[i])
  }

  function DigitChar(d: nat): (c: char)
    requires d < 10
    ensures IsDigit(c)
  {
    ('0' as int + d) as char
  }

  function DigitValue(c: char): (d: nat)
    requires IsDigit(c)
    ensures d < 10
  {
    c as int - '0' as int
  }

  /** `String(n)` for a non-negative integer: its decimal digits, most significant first, no leading zero. */
  function NatToDecimal(n: nat): (r: string)
    ensures |r| >= 1 && AllDigits(r)
    ensures |r| > 1 ==> r[0] != '0'
    decreases n
  {
    if n < 10 then [DigitChar(n)] else NatToDecimal(n / 10) + [DigitChar(n % 10)]
  }

  /** The number a string of decimal digits denotes. */
  function DecimalValue(s: string): nat
    requires AllDigits(s)
    decreases |s|
  {
    if s == [] then 0 else DecimalValue(s[..|s| - 1]) * 10 + DigitValue(s[|s| - 1])
  }

  /** Reading back the digits `String(n)` wrote gives `n`. */
  lemma {:induction false} DecimalRoundTrip(n: nat)
    ensures DecimalValue(NatToDecimal(n)) == n
    decreases n
  {
    if n >= 10 {
      DecimalRoundTrip(n / 10);
      var d := NatToDecimal(n);
      assert d[..|d| - 1] == NatToDecimal(n / 10);
    }
  }

  /** `String(n)` for any integer: a minus sign before the digits of a negative number. */
  function IntToDecimal(n: int): (r: string)
    ensures |r| >= 1
    ensures n >= 0 ==> AllDigits(r)
    ensures n < 0 ==> r[0] == '-' && AllDigits(r[1..])
  {
    if n < 0 then "-" + NatToDecimal(-n) else NatToDecimal(n)
  }

  /** The length of the run of decimal digits at the start of `s`. */
  function DigitRun(s: string): (k: nat)
    ensures k <= |s| && AllDigits(s[..k])
    ensures k < |s| ==> !IsDigit(s[k])
    decreases |s|
  {
    if s != [] && IsDigit(s[0]) then
      var k := 1 + DigitRun(s[1..]);
      assert s[..k] == [s[0]] + s[1..][..k - 1];
      k
    else 0
  }

  /**
   * `parseFloat(s)` restricted to integers: leading whitespace is skipped, an
   * optional sign is read, then the longest run of digits; no digit at all is NaN
   * (None). A fractional part or exponent is not modelled.
   */
  function ParseNumber(s: string): (r: Option<int>)
    ensures r.Some? <==> ParseUnsigned(UnsignedPart(TrimStart(s))).Some?
  {
    var t := TrimStart(s);
    var neg := t != [] && t[0] == '-';
    match ParseUnsigned(UnsignedPart(t))
    case None => None
    case Some(v) => Some(if neg then -(v as int) else v as int)
  }

  /** What follows an optional leading sign. */
  function UnsignedPart(t: string): (body: string)
    ensures t != [] && (t[0] == '-' || t[0] == '+') ==> body == t[1..]
    ensures t == [] || (t[0] != '-' && t[0] != '+') ==> body == t
  {
    if t != [] && (t[0] == '-' || t[0] == '+') then t[1..] else t
  }

  /** The longest run of digits at the start, read as a number; NaN (None) when there is none. */
  function ParseUnsigned(body: string): (r: Option<nat>)
    ensures r.Some? <==> body != [] && IsDigit(body[0])
  {
    var k := DigitRun(body);
    if k == 0 then None else Some(DecimalValue(body[..k]))
  }

  /**
   * `Number(s)` on text: surrounding whitespace is trimmed, empty text is 0, an
   * optional sign followed by nothing but digits is their value, and anything
   * else is NaN (None), trailing letters included.
   */
  function ToNumber(s: string): (r: Option<int>)
    ensures Trim(s) == "" ==> r == Some(0)
    ensures Trim(s) != "" ==> (r.Some? <==> UnsignedPart(Trim(s)) != [] && AllDigits(UnsignedPart(Trim(s))))
  {
    TrimmedToNumber(Trim(s))
  }

  /** `Number` on text without surrounding whitespace. */
  function TrimmedToNumber(t: string): (r: Option<int>)
    ensures t == "" ==> r == Some(0)
    ensures t != "" ==> (r.Some? <==> UnsignedPart(t) != [] && AllDigits(UnsignedPart(t)))
  {
    var body := UnsignedPart(t);
    if t == "" then Some(0)
    else if body == [] || !AllDigits(body) then None
    else Some(if t[0] == '-' then -(DecimalValue(body) as int) else DecimalValue(body) as int)
  }

  /** `Number(String(n)) == n` for every integer `n`. */
  lemma ToNumberRoundTrip(n: int)
    ensures ToNumber(IntToDecimal(n)) == Some(n)
  {
    var m: nat := if n < 0 then -n else n;
    var d := NatToDecimal(m);
    DecimalRoundTrip(m);
    if n < 0 {
      ToNumberNegative(d);
    } else {
      ToNumberDigits(d);
    }
  }

  lemma DigitNotWhitespace(c: char)
    requires IsDigit(c)
    ensures !IsJsWhitespace(c)
  {
  }

  /** A run of digits reads as its value. */
  lemma ToNumberDigits(d: string)
    requires d != [] && AllDigits(d)
    ensures ToNumber(d) == Some(DecimalValue(d) as int)
  {
    DigitNotWhitespace(d[0]);
    DigitNotWhitespace(d[|d| - 1]);
    TrimUntrimmed(d);
    assert UnsignedPart(d) == d;
  }

  /** A minus sign and a run of digits read as the negated value of the digits. */
  lemma ToNumberNegative(d: string)
    requires d != [] && AllDigits(d)
    ensures ToNumber("-" + d) == Some(-(DecimalValue(d) as int))
  {
    var t := "-" + d;
    assert t[1..] == d;
    assert UnsignedPart(t) == d;
    NegativeUntrimmed(d);
    ToNumberSigned(t, d);
  }

  /** A minus sign and digits read as the negated value of the digits. */
  lemma ToNumberSigned(t: string, d: string)
    requires t != [] && t[0] == '-' && UnsignedPart(t) == d
    requires d != [] && AllDigits(d)
    ensures TrimmedToNumber(t) == Some(-(DecimalValue(d) as int))
  {
  }

  lemma NegativeUntrimmed(d: string)
    requires d != [] && AllDigits(d)
    ensures Trim("-" + d) == "-" + d
  {
    var t := "-" + d;
    assert t[|t| - 1] == d[|d| - 1];
    DigitNotWhitespace(d[|d| - 1]);
    TrimUntrimmed(t);
  }

  /** Wherever `Number` reads a non-empty text as an integer, `parseFloat` reads the same integer. */
  lemma ParseAgreesWithToNumber(s: string)
    requires Trim(s) != "" && ToNumber(s).Some?
    ensures ParseNumber(s) == ToNumber(s)
  {
    var a := TrimStart(s);
    var t := Trim(s);
    assert t == TrimEnd(a) && t == a[..|t|] && AllWhitespace(a[|t|..]);
    var body := UnsignedPart(t);
    assert body != [] && AllDigits(body);
    var k := |t| - |body|;
    SignedPrefix(a, t);
    assert UnsignedPart(a) == body + a[|t|..];
    TrailingWhitespace(body, a[|t|..]);
    assert UnsignedPart(a)[..|body|] == body;
  }

  /** Trimming the end keeps the sign, so the unsigned part of the longer text extends that of the shorter. */
  lemma SignedPrefix(a: string, t: string)
    requires t != [] && |t| <= |a| && t == a[..|t|]
    ensures UnsignedPart(a) == UnsignedPart(t) + a[|t|..]
  {
    assert a[0] == t[0];
    if t[0] == '-' || t[0] == '+' {
      assert a[1..] == t[1..] + a[|t|..];
    } else {
      assert a == t + a[|t|..];
    }
  }

  /** Digits followed by whitespace have exactly the digits as their digit run. */
  lemma TrailingWhitespace(d: string, w: string)
    requires AllDigits(d) && AllWhitespace(w)
    ensures DigitRun(d + w) == |d|
  {
    if w != [] {
      assert IsJsWhitespace(w[0]);
    }
    DigitRunStops(d, w);
  }

  /** The digit run of `d + w` is `d` when `w` does not start with a digit. */
  lemma {:induction false} DigitRunStops(d: string, w: string)
    requires AllDigits(d) && (w == [] || !IsDigit(w[0]))
    ensures DigitRun(d + w) == |d|
    decreases |d|
  {
    if d == [] {
      assert d + w == w;
    } else {
      assert (d + w)[1..] == d[1..] + w;
      DigitRunStops(d[1..], w);
    }
  }

  /** `Number('12abc')` is NaN where `parseFloat('12abc')` is 12. */
  lemma TrailingLettersNotANumber()
    ensures ToNumber("12abc") == None
    ensures ParseNumber("12abc") == Some(12)
  {
    var s := "12abc";
    TrimUntrimmed(s);
    LettersNotDigits(s);
    LeadingDigitsParsed(s);
  }

  lemma LettersNotDigits(s: string)
    requires s == "12abc"
    ensures TrimmedToNumber(s) == None
  {
    assert UnsignedPart(s) == s;
    assert !IsDigit(s[2]);
  }

  lemma LeadingDigitsParsed(s: string)
    requires s == "12abc"
    ensures ParseNumber(s) == Some(12)
  {
    NoLeadingWhitespace(s);
    assert UnsignedPart(s) == s;
    assert s == "12" + "abc";
    DigitRunStops("12", "abc");
    assert s[..2] == "12";
    assert DecimalValue("12") == 12 by {
      assert "12"[..1] == "1";
      assert "1"[..0] == "";
    }
  }

  /** `parseFloat(String(n)) == n` for every integer `n`. */
  lemma NumberRoundTrip(n: int)
    ensures ParseNumber(IntToDecimal(n)) == Some(n)
  {
    var m: nat := if n < 0 then -n else n;
    DecimalRoundTrip(m);
    ParseWritten(n, NatToDecimal(m));
  }

  /** The parse of a number written with digits `d` whose value is the number's magnitude. */
  lemma ParseWritten(n: int, d: string)
    requires d != [] && AllDigits(d) && DecimalValue(d) as int == (if n < 0 then -n else n)
    requires IntToDecimal(n) == (if n < 0 then "-" + d else d)
    ensures ParseNumber(IntToDecimal(n)) == Some(n)
  {
    if n < 0 {
      ParseNegativeDigits(d);
    } else {
      ParseDigits(d);
    }
  }

  /** A string that does not start with whitespace is left as it is by `trimStart`. */
  lemma NoLeadingWhitespace(t: string)
    requires t != [] && !IsJsWhitespace(t[0])
    ensures TrimStart(t) == t
  {
  }

  /** A run of digits reads as its value. */
  lemma UnsignedDigits(d: string)
    requires d != [] && AllDigits(d)
    ensures ParseUnsigned(d) == Some(DecimalValue(d))
  {
    AllDigitsRun(d);
    assert d[..|d|] == d;
  }

  /** A run of digits parses to its value. */
  lemma ParseDigits(d: string)
    requires d != [] && AllDigits(d)
    ensures ParseNumber(d) == Some(DecimalValue(d) as int)
  {
    NoLeadingWhitespace(d);
    assert UnsignedPart(d) == d;
    UnsignedDigits(d);
  }

  /** A minus sign and a run of digits parse to the negated value of the digits. */
  lemma ParseNegativeDigits(d: string)
    requires d != [] && AllDigits(d)
    ensures ParseNumber("-" + d) == Some(-(DecimalValue(d) as int))
  {
    MinusSign(d);
    ParseSigned("-" + d, d);
  }

  /** A string that starts with a minus sign, untouched by trimming, parses to the negated value of what follows the sign. */
  lemma ParseSigned(t: string, d: string)
    requires TrimStart(t) == t && t != [] && t[0] == '-' && UnsignedPart(t) == d
    requires d != [] && AllDigits(d)
    ensures ParseNumber(t) == Some(-(DecimalValue(d) as int))
  {
    UnsignedDigits(d);
  }

  /** A leading minus sign is not trimmed, and the digits follow it. */
  lemma MinusSign(d: string)
    ensures var t := "-" + d; TrimStart(t) == t && t[0] == '-' && UnsignedPart(t) == d
  {
    var t := "-" + d;
    NoLeadingWhitespace(t);
    assert t[1..] == d;
  }

  lemma {:induction false} AllDigitsRun(s: string)
    requires AllDigits(s)
    ensures DigitRun(s) == |s|
    decreases |s|
  {
    if s != [] {
      AllDigitsRun(s[1..]);
    }
  }
}

=== FILE: wrappers.dfy ===
/** The optional-value datatype shared by every module of the model. */
module Wrappers {

  /** `None` stands for JavaScript's "nothing found" (`undefined`, `-1`, `null`). */
  datatype Option<+T> = None | Some(value: T) {

    /** Returns the value held by Some, or `default` for None. */
    function GetOr(default: T): T {
      match this
      case Some(v) => v
      case None => default
    }
  }
}
